=== FILE: README.md ===
# A verified model of the organization sync core

This project models the core of a tool that copies a source-control hierarchy into a Sonatype
Lifecycle (IQ) server. Each project or account in the source-control provider becomes an
organization, and each repository becomes an application. The project proves properties of that
core in Dafny. It has two parts.

- **Names and gates** (`scm/types.go`).
  - `safeName` turns a provider name into a server name.
  - `SafeId` derives an application's public id from that name.
  - `safeBranchName` and `safeRepositoryUrl` decide whether an application's source-control
    settings may be saved. Both gates rest on one "dangerous" pattern, and the URL gate first
    percent-decodes its input as `url.QueryUnescape` does.
- **The reconciler** (`iq/server.go`, `NxiqServer`). It keeps a load-once cache of the
  organizations and applications the server already holds. It looks entities up by sanitized name
  and parent, bumps an id once with `-1`, and creates entities with retries that rename on a
  collision. It reuses or creates organizations, updates or adds source-control (SCM) settings,
  schedules a first scan, and walks the discovered hierarchy in a fixed order.

The API client becomes a scripted gateway (`gateway.dfy`):
- every call is appended to a trace;
- each reply is taken from a per-endpoint queue;
- a call whose queue is empty ends the run as `Stalled`.

This queue is also what makes the create loops terminate. In Go they may never exit: they loop
forever under endless collisions, or under a non-200 status without a client error. The model
records every entity the walk turns to as a visit. `log.Fatalln` after a failed cache load becomes
the outcome `Exited`.

Files, in dependency order:
- `wrappers.dfy`: `Option` and `Result`.
- `unicode.dfy`: character classes. RE2's `\s` is only tab, newline, form feed, carriage return and
  space. `unicode.IsSpace` is the wider White_Space set. Above ASCII, `\pL`, `\pN` and
  `unicode.ToLower` are abstract tables passed as a parameter `u`.
- `text.dfy`: `strings.TrimSpace`, `strings.HasSuffix` and `%d` formatting.
- `sanitizer.dfy`: `safeName` and `SafeId`.
- `gates.dfy`: the dangerous pattern `Dangerous` (`INVALID_BRANCH_NAME`, `scm/types.go:35`),
  `QueryUnescape`, and the two gates `SafeBranchName` (`scm/types.go:75-80`) and
  `SafeRepositoryUrl` (`scm/types.go:82-89`).
- `scm_types.dfy`: `ScmConfiguration`, `Application`, `Organization` and `OrgContents`, with
  `IsBranchNamePermitted` (`scm/types.go:64-69`) and `IsRepositoryUrlPermitted`
  (`scm/types.go:71-73`).
- `scm_types_test.dfy`: the table tests of `scm/types_test.go`, proved for every choice of the
  non-ASCII tables.
- `gateway.dfy`: server state, scripted replies and the trace.
- `cache.dfy`: the cache and the lookups, with `UniqueOrganizationId` and `UniqueApplicationId`
  for `getUniqueOrganizationId` and `getUniqueSafeApplicationId` (`iq/server.go:453-469`).
- `retry.dfy`: the create-with-retry loop, written once for both entity kinds. `Judge` is what one
  attempt makes of its reply (`iq/server.go:252-277`): rename on a collision, give up on an error
  from attempt 3 on, accept an HTTP 200, or try again.
- `create.dfy`: `createOrganization`, `createApplication`, `CreateOrganization` and
  `CreateApplication`. The collision tests are `OrgCollision` (`iq/server.go:264`) and
  `AppCollision` (`iq/server.go:434`).
- `reconcile.dfy`: `createAppsInOrg` and `ApplyOrgContents`.
- `scenarios.dfy`: whole runs on small inputs.

### Behaviour worth noting

- **A lone whitespace character is kept.** `\s(\s+)` only rewrites runs of two or more, so
  `"Org 1"` and `"Team A"` are their own sanitized names (`ScmTypesTest.SafeNameSingleSpace`).
  An organization named `"Team A"` therefore does not match a cached `"Team-A"`, and a new one is
  created (`Scenarios.TeamADoesNotMatchTeamDashA`).
- **The cache is written only while loading.** Created entities are never added to it.
  `Gateway.Extends` states that a loaded cache never changes.
- **A failed cache load ends the program.** The lookups call `log.Fatalln` on a load error.
- **Non-collision errors are retried until attempt 3.** A 400 that is not a collision is retried
  unchanged on attempts 1 and 2. Only from attempt 3 on does a client error end the loop.
- **A scan follows any returned SCM record.** `createAppsInOrg` schedules a scan whenever
  `CreateApplication` returns an SCM record, including after updating an existing application.
- **Unpermitted existing applications are created again.** An existing application whose SCM
  fields fail a gate is not reused: a second application is created.
- **The unique-id bump checks internal ids.** `getUniqueOrganizationId` and
  `getUniqueSafeApplicationId` compare against the cached entities' internal ids, not their names.

## Model

| member | source | states |
|---|---|---|
| Unicode.RegexSpaceIsSpace | scm/types.go:37 | every character of RE2's `\s` class is also a space for `strings.TrimSpace` |
| Text.TrimSpace | scm/types.go:126 | the trimmed text is no longer than the input and neither begins nor ends with a space |
| Text.TrimSpaceAmidSpaces | scm/types.go:126 | the trimmed text is the slice of the input that starts after its leading spaces; every character dropped before or after it is a space |
| Text.TrimSpaceUnique | scm/types.go:126 | conversely, any slice of the input with only spaces around it and no space at either end is the trimmed text |
| Text.AmidSpacesUnique | scm/types.go:126 | a text has at most one slice with only spaces around it and no space at either end, so the trimmed text is determined |
| Text.TrimSpaceEmpty | scm/types.go:76 | a text trims to nothing exactly when every character is a space |
| Text.TrimSpaceSurrounded | scm/types.go:126 | trimming removes the surrounding spaces and nothing else |
| Text.TrimSpaceOfTrimmed | scm/types.go:126 | a text whose ends are not spaces is left unchanged by trimming |
| Text.DecimalRoundTrip | iq/server.go:266 | the `%d` suffix of a renamed entity loses nothing: reading its digits back gives the attempt number |
| Text.DecimalInjective | iq/server.go:266 | different attempt numbers give different suffixes |
| Sanitizer.ReplaceTabs | scm/types.go:126 | each tab becomes one `-` in place and every other character is kept |
| Sanitizer.ReplaceDisallowed | scm/types.go:125-128 | each character outside letters, digits, `.`, `_`, `,`, `-` and `\s` becomes exactly one `-`; allowed characters stay in place |
| Sanitizer.CollapseSpaces | scm/types.go:124-130 | rewriting `\s(\s+)` never lengthens the text |
| Sanitizer.CollapseSpacesEnds | scm/types.go:37 | a first or last character that is not whitespace survives the rewriting |
| Sanitizer.CollapseSpacesNoAdjacent | scm/types.go:37 | after the rewriting no two neighbouring characters are both whitespace |
| Sanitizer.CollapseSpacesFixes | scm/types.go:37 | a text without two neighbouring whitespace characters is not changed |
| Sanitizer.CollapseSpacesSplits | scm/types.go:37 | each whitespace run is rewritten on its own: two or more become one `-`, and a lone one is kept |
| Sanitizer.SafeName | scm/types.go:123-131 | the sanitized name is never longer than the input |
| Sanitizer.SafeNameClean | scm/types.go:123-131 | every sanitized name has no surrounding space, no tab, only allowed characters, and no two neighbouring whitespace characters |
| Sanitizer.SafeNameFixedPoints | scm/types.go:123-131 | the names `safeName` leaves unchanged are exactly the clean ones |
| Sanitizer.SafeNameIdempotent | scm/types.go:123-131 | sanitizing a sanitized name changes nothing |
| Sanitizer.SafeNameTrims | scm/types.go:126 | spaces around a name do not affect its sanitized form |
| Sanitizer.SafeNameReplacesDisallowed | scm/types.go:123-131 | on a trimmed, tab-free name without adjacent whitespace, each disallowed character becomes one `-`, and every other character stays, lone whitespace included |
| Sanitizer.SafeNameJoins | scm/types.go:123-131 | between two clean names, a run of two or more non-tab whitespace characters becomes one `-` and a lone one is kept |
| Sanitizer.SafeNameTabs | scm/types.go:126 | every tab between two clean names becomes its own `-`, however many there are |
| Sanitizer.SafeId | scm/types.go:56-58 | the public id is the sanitized name, character by character, with spaces turned to `-` and then lower-cased |
| Sanitizer.SafeIdShape | scm/types.go:56-58 | the public id is as long as the sanitized name, keeps its underscores, and holds no space |
| Gates.DangerousIff | scm/types.go:35 | the pattern matches exactly when the text starts with `.`, ends with `.` or `/`, or holds the pipe or one of `;$!*&()[]<>#?~%'` |
| Gates.SafeBranchNameIff | scm/types.go:75-80 | a branch is safe exactly when it has a non-space character, does not start with `.`, does not end with `.` or `/`, and holds no metacharacter |
| Gates.QueryUnescape | scm/types.go:83 | a decoded URL is never longer than its encoded form, and a failure reports the bad escape: at most three characters, starting with `%` |
| Gates.QueryUnescapeFailsIff | scm/types.go:83-87 | decoding fails exactly when some `%` is not followed by two hexadecimal digits |
| Gates.QueryUnescapePlain | scm/types.go:83 | a text without `%` or `+` decodes to itself |
| Gates.QueryUnescapePlainPrefix | scm/types.go:83 | a prefix without `%` or `+` passes through decoding unchanged, whatever follows it |
| Gates.QueryUnescapeRoundTrip | scm/types.go:83 | decoding undoes a one-byte-per-character escape on every text of codes below 256; on ASCII text that escape is `url.QueryEscape`'s |
| Gates.SafeRepositoryUrlRejectsBadEscape | scm/types.go:82-87 | a URL that fails to decode is refused |
| Gates.SafeRepositoryUrlPlain | scm/types.go:82-89 | a URL without `%` or `+` is judged by the pattern alone, and a blank one is not refused |
| Gates.SafeRepositoryUrlRejectsEscapedMeta | scm/types.go:82-89 | a percent-escaped metacharacter after a plain prefix is refused once decoded |
| ScmTypes.BranchNamePermittedIff | scm/types.go:64-69 | an application's branch is permitted exactly when it has one and that branch passes the branch gate's conditions |
| ScmTypesTest.SafeBranchNameEmpty | scm/types_test.go:26-29 | the empty branch is refused |
| ScmTypesTest.SafeBranchNameMain | scm/types_test.go:37-40 | `main` is accepted |
| ScmTypesTest.SafeBranchNameMaster | scm/types_test.go:41-44 | `master` is accepted |
| ScmTypesTest.SafeBranchNameBracket | scm/types_test.go:45-48 | `with(bracket` is refused |
| ScmTypesTest.SafeBranchNameAmpersand | scm/types_test.go:49-52 | `with&mpersand` is refused |
| ScmTypesTest.SafeBranchNameQuestion | scm/types_test.go:53-56 | `ma?in` is refused |
| ScmTypesTest.SafeBranchNamePipe | scm/types_test.go:57-60 | `pi`, a pipe, then `pe` is refused |
| ScmTypesTest.SafeBranchNameSemicolon | scm/types_test.go:61-64 | `give;injection` is refused |
| ScmTypesTest.SafeBranchNameTilde | scm/types_test.go:65-68 | `give~injection` is refused |
| ScmTypesTest.SafeBranchNamePercent | scm/types_test.go:69-72 | `give%injection` is refused |
| ScmTypesTest.SafeBranchNameQuote | scm/types_test.go:73-76 | `give'injection` is refused |
| ScmTypesTest.SafeBranchNameStartPeriod | scm/types_test.go:77-80 | `.start-period` is refused |
| ScmTypesTest.SafeBranchNameEndPeriod | scm/types_test.go:81-84 | `end-period.` is refused |
| ScmTypesTest.SafeBranchNameEndSlash | scm/types_test.go:85-88 | `end-slash/` is refused |
| ScmTypesTest.SafeRepositoryUrlMain | scm/types_test.go:104-107 | the plain `https://…/_git/main` URL is accepted |
| ScmTypesTest.SafeRepositoryUrlEscapedParenthesis | scm/types_test.go:107-110 | the URL holding `%28%29` is refused |
| ScmTypesTest.SafeRepositoryUrlEscapedParenthesisNoUser | scm/types_test.go:110-113 | the same URL without a user part is refused |
| ScmTypesTest.SafeNamePlain | scm/types_test.go:129-132 | `Name` stays `Name` |
| ScmTypesTest.SafeNameAngle | scm/types_test.go:133-136 | `Name<` becomes `Name-` |
| ScmTypesTest.SafeNameBrackets | scm/types_test.go:137-140 | `Name[something]` becomes `Name-something-` |
| ScmTypesTest.SafeNameDoubleSpace | scm/types_test.go:141-144 | a double space becomes one `-` |
| ScmTypesTest.SafeNameManySpaces | scm/types_test.go:145-148 | a two-space run becomes one `-` (`Name  WithManySpaces` becomes `Name-WithManySpaces`) |
| ScmTypesTest.SafeNameLeadingSpaces | scm/types_test.go:149-152 | leading spaces are dropped before the inner run becomes `-` |
| ScmTypesTest.SafeNameTrailingSpaces | scm/types_test.go:153-156 | trailing spaces are dropped before the inner run becomes `-` |
| ScmTypesTest.SafeNameTab | scm/types_test.go:157-160 | a tab becomes `-` |
| ScmTypesTest.SafeNameSingleSpace | scm/types.go:124 | a lone space is kept: `Team A` stays `Team A` |
| Gateway.SendListOrganizations | iq/server.go:112 | the listing call is recorded; it is answered by the next scripted listing, which is taken off its queue, or, when none is left, not at all; the other queues and the cache are untouched |
| Gateway.SendListApplications | iq/server.go:95 | the same for the application listing, which leaves the organization listings alone |
| Gateway.SendScm | iq/server.go:286-295 | an SCM call is recorded and answered by the next scripted SCM reply, which is taken off its queue; the other queues, the cache and the visits are untouched, and an empty queue leaves the script as it was |
| Cache.CacheOrganizations | iq/server.go:109-123 | the cached organizations are emptied and then hold exactly a successful listing; a failed listing leaves them empty and returns its error |
| Cache.CacheApplications | iq/server.go:92-107 | the same for applications |
| Cache.InitCache | iq/server.go:74-90 | the cache counts as loaded exactly when no error is returned; a loaded cache makes no call and changes nothing; otherwise organizations are listed first |
| Cache.InitCacheOrganizationsFail | iq/server.go:76-79 | a failed organization listing returns its error, does not list applications, and leaves the cache unloaded |
| Cache.InitCacheLoads | iq/server.go:74-90 | two good listings load exactly what they listed, organizations first, and a second load is a no-op |
| Cache.OrganizationExists | iq/server.go:225-236 | the result is the first cached organization whose name is the sanitized name and whose parent is the given id; a load failure ends the program |
| Cache.ApplicationExists | iq/server.go:393-404 | the result is the first cached application whose name is the sanitized name and whose organization is the given id; a load failure ends the program |
| Cache.ValidateOrganizationByName | iq/server.go:471-484 | the result is the first cached organization with exactly the given name, unsanitized and under any parent |
| Cache.UniqueId | iq/server.go:453-469 | both `getUniqueSafeApplicationId` and `getUniqueOrganizationId`: the candidate is returned unchanged unless it is among the cached internal ids (not names), and then with `-1` appended once |
| Cache.UniqueIdNotRechecked | iq/server.go:462-469 | the bumped id is not checked again, so it can still be taken |
| Retry.Loop | iq/server.go:245-277 | a run never consumes more replies than it has; it makes one request per consumed reply, plus an unanswered one when the replies run out; a run without a result has consumed every reply, and one with a result at least one; the first request is the initial one |
| Retry.LoopUnanswered | iq/server.go:245-277 | the loop runs out of replies exactly when no reply stops it |
| Retry.LoopStopsAtFirst | iq/server.go:245-277 | a loop that ends stops at the first reply that accepts or fails, and consumes nothing after it |
| Retry.LoopResult | iq/server.go:253-277 | an accepted result is the entity of a 200 reply; a failure is the client error of attempt 3 or later; neither comes from a collision; the result is accepted exactly when the stopping reply is judged an acceptance, so a 200 that carries a client error on attempt 3 or later is a failure |
| Retry.LoopRequests | iq/server.go:264-269 | after a collision on attempt k the next request is the renamed one for k; otherwise the request is sent again unchanged |
| Retry.TwoCollisionsThenAccept | iq/server.go:245-279 | two collisions and a 200 make three attempts, the last two renamed for attempts 1 and 2 |
| Retry.ThreeErrorsGiveUp | iq/server.go:272-276 | three plain errors send the same request three times and return the third error |
| Retry.EarlyAcceptIgnoresError | iq/server.go:245-279 | a 200 on the first attempt is accepted, with or without a client error |
| Retry.CollisionsNeverStop | iq/server.go:245-270 | collisions alone never end the loop |
| Create.CreateOrganizationLoop | iq/server.go:238-280 | one organization create call per attempt of the loop, under the parent, starting from the unique id of the sanitized name; only create replies are consumed and the cache is untouched |
| Create.CreateApplicationLoop | iq/server.go:406-451 | one application create call per attempt, in the organization, starting from the unique sanitized id and the sanitized name; no SCM call and no scan |
| Create.OrganizationTwoCollisions | iq/server.go:253-270 | two name collisions then a 200: exactly three calls named X, X-1 and X-2, where X is the unique id of the sanitized name |
| Create.OrganizationGivesUpAfterThree | iq/server.go:272-276 | three plain errors: three calls with the same name, the third error returned, no fourth call |
| Create.ApplicationBumpSkipsUniqueCheck | iq/server.go:434-438 | after a collision the public id is the sanitized id with `-1`, not the unique id, and the name is the sanitized name with `-1` |
| Create.ReuseOrganization | iq/server.go:198-207 | an existing organization is returned with no create call; its SCM settings are updated only when asked, and that error comes back with it |
| Create.NewOrganization | iq/server.go:209-222 | a missing organization is created by the loop; a failure returns no organization; a success adds SCM settings only when asked, and their error comes back with the organization |
| Create.CreateOrganization | iq/server.go:191-223 | no error means an organization is returned, and no scan is ever scheduled |
| Create.CreateOrganizationReusesExisting | iq/server.go:198-207 | an organization the lookup finds is reused |
| Create.CreateOrganizationCreatesMissing | iq/server.go:209-222 | an organization the lookup misses is created under its sanitized name |
| Create.UpdateExistingApplication | iq/server.go:334-351 | one SCM update call; its error comes back alone, and otherwise the existing application comes back with the server's SCM record |
| Create.AttachApplicationScm | iq/server.go:363-390 | an SCM add call happens exactly when both gates pass; otherwise the created application comes back with no SCM record |
| Create.NewApplication | iq/server.go:357-390 | an error comes back without an application; an SCM record only follows a gated SCM call for the returned application |
| Create.NewApplicationFollowsLoop | iq/server.go:357-361 | the create loop runs first, and its failure is returned as the error |
| Create.DecideApplication | iq/server.go:333-390 | an application failing a gate never gets an SCM call; any SCM record comes right after the SCM call for the returned application |
| Create.CreateApplication | iq/server.go:326-391 | an error comes back alone; an SCM record comes back only when both gates pass, right after the SCM call for that application; no scan is scheduled |
| Create.CreateApplicationUpdatesExisting | iq/server.go:334-351 | a found application that passes both gates is updated, not created |
| Create.CreateApplicationRecreatesUnpermitted | iq/server.go:352-357 | a found application that fails a gate is created anew from its sanitized id and name |
| Create.CreateApplicationCreatesMissing | iq/server.go:357-390 | an application the lookup misses is created from its sanitized id and name |
| Reconcile.ScheduleScan | iq/server.go:159-166 | a scan is added exactly when the application came back with an SCM record and no error; the step's outcome is `CreateApplication`'s error, or none, and an exit or a stall passes through unchanged |
| Reconcile.CreateAppStep | iq/server.go:158-166 | the application is visited once; every scan comes right after the SCM call for the same application; the step's outcome is `CreateApplication`'s error, or none, and an error leaves the server exactly as that call left it |
| Reconcile.CreateAppStepScans | iq/server.go:159-166 | after a successful create or update the step succeeds, with a scan exactly when an SCM record came back; an application failing a gate gets neither SCM call nor scan |
| Reconcile.CreateAppsInOrg | iq/server.go:156-170 | applications are visited in order, the first error stops the loop, and a success visits them all |
| Reconcile.AppsReturnFirstError | iq/server.go:158-162 | an error from `CreateApplication` is the result of the whole `createAppsInOrg`, on the server that call left: no scan follows and no later application is visited |
| Reconcile.AppsStopAtFirstError | iq/server.go:158-163 | the first application whose step does not succeed ends `createAppsInOrg` with exactly that step's result and server; a successful step hands its server on to the rest of the list |
| Reconcile.OrganizationApps | iq/server.go:127-135 | an error from `CreateOrganization` ends the walk as that failure, on the server that call left, and an exit or a stall passes through; otherwise the step is `createAppsInOrg` under the returned organization's id: the same server, the same error, the visits after the organization's are a prefix of its applications' visits under that id, and a success yields that organization |
| Reconcile.AppsUnder | iq/server.go:132-135 | the step ends on the server `createAppsInOrg` under the organization's id left and fails exactly when that call returned an error, with that error; its visits are a prefix of the applications' visits under that id; when they all succeed the walk yields that organization and has visited exactly it and its applications |
| Reconcile.SubOrganizationStep | iq/server.go:138-148 | a sub-organization is visited without SCM, then its applications |
| Reconcile.ApplySubOrganizations | iq/server.go:137-150 | direct sub-organizations are visited in order, each followed by its applications; the first error stops the loop |
| Reconcile.SubOrganizationsStopAtFirstError | iq/server.go:138-149 | the first sub-organization whose step ends in an error or exit ends the loop with that outcome, on the server that step left; a successful one hands its server on to its siblings |
| Reconcile.SubOrganizationsAfter | iq/server.go:126-150 | an error from the organization or its applications ends the walk with that error on that server; otherwise the step is the sub-organization loop under the returned organization's id |
| Reconcile.TopOrganizationStep | iq/server.go:126-150 | a top-level organization is visited with SCM applied, then its applications, then its direct sub-organizations |
| Reconcile.ApplyOrganizations | iq/server.go:126-151 | the walk follows the fixed schedule; an error stops it partway, and a success covers the whole schedule |
| Reconcile.OrganizationsStopAtFirstError | iq/server.go:126-135 | the first top-level organization whose step does not succeed ends the walk with exactly that step's result; the later ones are not visited, and a successful one hands its server on |
| Reconcile.ApplyOrgContents | iq/server.go:125-154 | the walk visits a prefix of the fixed schedule, and all of it on success; every scan follows its SCM call; a loaded cache is never written |
| Reconcile.FirstOrganizationFails | iq/server.go:127-130 | when the first top-level organization fails, its error is returned at once and nothing else is visited or called |
| Reconcile.FirstApplicationFails | iq/server.go:131-134 | when the first top-level organization is created but its first application fails, that error is returned at once and nothing else is visited or called |
| Scenarios.ExistingOrganizationReused | iq/server.go:198-206 | a top-level organization already cached under the root is reused: its SCM settings are updated and no create call is made |
| Scenarios.TeamADoesNotMatchTeamDashA | iq/server.go:230-231 | a cached `Team-A` does not match an organization named `Team A` |
| Scenarios.TeamADiffersFromTeamDashA | scm/types.go:123-131 | `Team A` keeps its space when sanitized, so it is not `Team-A` |
| Scenarios.OnlyCachedOrganizationDiffers | iq/server.go:225-236 | a loaded cache whose only organization has a name other than the sanitized one gives no match |
| Scenarios.FreshOrganizationCreated | iq/server.go:209-222 | with nothing cached, a 200 on the first create call creates the organization at once: one call, one reply taken, nothing else |
| Scenarios.FreshOrganizationConfigured | iq/server.go:209-222 | the same with SCM applied: the create call is followed by exactly one SCM call for the new organization's id |
| Scenarios.FreshOrganizationLookedUp | iq/server.go:191-222 | on a loaded, empty cache the lookup misses, so `CreateOrganization` is the create path |
| Scenarios.FreshTopOrganizationCreated | iq/server.go:127-128 | a top-level organization on a loaded, empty cache is created under the root and configured |
| Scenarios.FreshApplicationCreated | iq/server.go:357-390 | with nothing cached, a permitted application is created from the given id and name, then its SCM settings are added and the server's record comes back |
| Scenarios.FreshApplicationLookedUp | iq/server.go:326-390 | on a loaded, empty cache the application lookup misses, so the application is created and configured |
| Scenarios.FreshApplicationStep | iq/server.go:158-166 | one turn of the application loop: create, SCM call and scan, in that order, with one reply taken from each queue used |
| Scenarios.FreshOnlyApplication | iq/server.go:156-170 | an organization's only application is created, configured and scanned under that organization's id |
| Scenarios.FreshTopOrganizationWithApp | iq/server.go:127-135 | the organization's two calls come first, then its application's three calls under the id the server gave it |
| Scenarios.FreshSubOrganization | iq/server.go:138-148 | a sub-organization without applications costs one create call under its parent and no SCM call |
| Scenarios.FreshTopOrganizationStep | iq/server.go:126-150 | a top-level organization with one application and one sub-organization: six calls in order, the last under the new top-level id |
| Scenarios.OneApplicationOneSubOrganization | iq/server.go:125-154 | a whole run with one top-level organization, one application and one sub-organization succeeds with exactly six calls and three visits, in order |

## Left out

- The command line (`main.go`) is not part of this model: flags, prompts, the confirmation loop and the banner. Its call at line 115 expects two results from `ValidateOrganizationByName`, which returns one.
- The Azure DevOps client (`scm/azure.go`) is not part of this model; the hierarchy it produces is an input.
- The logger (`util/logger.go`) and every log, stderr and `PrintTree` output.
- Client construction and basic authentication (`iq/server.go:45-72`).
- The fixed boolean flags in the SCM payloads (`iq/server.go:282-324`, 337-379). The model records the owner, the owner id, and the credentials or repository fields.
- `defer Body.Close` and a failing body read (`log.Fatalln`). The model takes every 400 body as read.
- The panic on a nil HTTP response (`iq/server.go:253`). Every scripted reply has a status.
- Go's loop-variable aliasing when the cache is filled (`iq/server.go:101-103`, `117-119`). Each cached entry is a copy.
- Nil values. A missing configuration appears only as `None` for sub-organizations, and callers must pass one when SCM is applied. Missing ids are not modelled.
- The reply to the scan request. Go discards it and prints its error, so the model records the call and scripts no reply.
- The Unicode letter, number and lower-case tables. Above ASCII they are parameters. `unicode.IsSpace` is written out in full.
- `url.QueryUnescape` on multi-byte UTF-8. The model reads `%XY` as the character with code XY, so the round trip is stated for single-byte text.
- Gates.QueryUnescapeRoundTrip: the encoder it inverts is `url.QueryEscape` only on ASCII. For U+0080 to U+00FF, Go escapes the two UTF-8 bytes (`é` as `%C3%A9`), but the model's encoder writes the Latin-1 code (`%E9`), the one byte its decoder reads back as that character.
- Sub-organizations below the first level. The code does not visit them, and the model's schedule says so.
- Sanitizer.SafeName: the function's own contract states only the length bound. Cleanliness, fixed points and idempotence are separate lemmas, so that call sites stay cheap to verify.
- Sanitizer.CollapseSpaces: the function's own contract states only the length bound. The shape of its output is in `CollapseSpacesEnds`, `CollapseSpacesNoAdjacent`, `CollapseSpacesFixes` and `CollapseSpacesSplits`.
- Reconcile.ApplyOrgContents: the schedule compares visits with the server ids left out. That each application is created under its organization's returned id, and each sub-organization under its parent's, is stated step by step by `OrganizationApps`, `AppsUnder` and `SubOrganizationsAfter`, not by the walk's own contract.
- Reconcile.ApplyOrgContents: when the walk stops on an error, the contract says only that the visits are a prefix of the schedule. `Reconcile.FirstOrganizationFails` and `Reconcile.FirstApplicationFails` state the exact stop for the first organization and its first application.
- Text.TrimSpace: the function's own contract states the length bound and the space-free ends. That the result is the slice between the leading and trailing spaces, and the only such slice, is in `TrimSpaceAmidSpaces` and `TrimSpaceUnique`, so that call sites stay cheap to verify.
- Gates.QueryUnescape: the function's own contract gives the length bound and the shape of the error. When decoding fails is in `QueryUnescapeFailsIff`; what it decodes to is in `QueryUnescapePlain`, `QueryUnescapePlainPrefix` and `QueryUnescapeRoundTrip`.
- Retry.Loop: the function's own contract gives the counts. Which reply stops the loop, what the result is and which requests are sent are in `LoopUnanswered`, `LoopStopsAtFirst`, `LoopResult` and `LoopRequests`.
- Create.CreateOrganization: the contract does not restate the reuse-or-create choice. That choice is in `CreateOrganizationReusesExisting` and `CreateOrganizationCreatesMissing`, for a loaded cache.

=== FILE: cache.dfy ===
/**
 * The load-once cache of `NxiqServer` (`iq/server.go`): loading it, the
 * existence lookups over it, and the "-1" unique-id bump.
 */
module Cache {
  import opened Wrappers
  import opened Unicode
  import opened ScmTypes
  import opened Gateway

  /**
   * `cacheExistingOrganizations`: empty the cached organizations, list
   * them, and keep the listing when it succeeds.
   */
  function CacheOrganizations(s: Server): (r: Step<Option<Error>>)
    requires !s.cacheLoaded
    ensures Extends(s, r.server) && r.server.visits == s.visits && !r.server.cacheLoaded
    ensures r.server.trace == s.trace + [ListOrganizations]
    ensures r.server.applications == s.applications && r.server.script.appLists == s.script.appLists
    ensures r.outcome.Done? || r.outcome.Stalled?
    ensures r.outcome.Stalled? <==> |s.script.orgLists| == 0
    ensures r.outcome.Done? ==>
      var reply := s.script.orgLists[0];
      r.outcome.value == reply.err && r.server.organizations == if reply.err.Some? then [] else reply.items
  {
    var x := SendListOrganizations(s.(organizations := []));
    match x.reply
    case None => Step(Stalled, x.server)
    case Some(orgs) =>
      if orgs.err.Some? then Step(Done(orgs.err), x.server)
      else Step(Done(None), x.server.(organizations := orgs.items))
  }

  /**
   * `cacheExistingApplications`: empty the cached applications, list
   * them, and keep the listing when it succeeds.
   */
  function CacheApplications(s: Server): (r: Step<Option<Error>>)
    requires !s.cacheLoaded
    ensures Extends(s, r.server) && r.server.visits == s.visits && !r.server.cacheLoaded
    ensures r.server.trace == s.trace + [ListApplications]
    ensures r.server.organizations == s.organizations
    ensures r.outcome.Done? || r.outcome.Stalled?
    ensures r.outcome.Stalled? <==> |s.script.appLists| == 0
    ensures r.outcome.Done? ==>
      var reply := s.script.appLists[0];
      r.outcome.value == reply.err && r.server.applications == if reply.err.Some? then [] else reply.items
  {
    var x := SendListApplications(s.(applications := []));
    match x.reply
    case None => Step(Stalled, x.server)
    case Some(apps) =>
      if apps.err.Some? then Step(Done(apps.err), x.server)
      else Step(Done(None), x.server.(applications := apps.items))
  }

  /**
   * `InitCache`: when the cache is not loaded yet, load the organizations,
   * then the applications; the cache counts as loaded only once both
   * listings succeeded. A loaded cache is left alone and no call is made.
   */
  function InitCache(s: Server): (r: Step<Option<Error>>)
    ensures Extends(s, r.server) && r.server.visits == s.visits
    ensures r.outcome.Done? || r.outcome.Stalled?
    ensures r.server.cacheLoaded <==> r.outcome == Done(None)
    ensures s.cacheLoaded ==> r == Step(Done(None), s)
    ensures !s.cacheLoaded ==> s.trace + [ListOrganizations] <= r.server.trace
    ensures LoadCalls(s.trace, r.server.trace)
  {
    if s.cacheLoaded then Step(Done(None), s)
    else
      var o := CacheOrganizations(s);
      if !o.outcome.Done? || o.outcome.value.Some? then o
      else
        var a := CacheApplications(o.server);
        ExtendsTransitive(s, o.server, a.server);
        if !a.outcome.Done? || a.outcome.value.Some? then a
        else Step(Done(None), a.server.(cacheLoaded := true))
  }

  /**
   * A failed organization listing is returned as is: the applications are
   * not listed and the cache stays unloaded, with no organizations in it.
   */
  lemma InitCacheOrganizationsFail(s: Server)
    requires !s.cacheLoaded && |s.script.orgLists| > 0 && s.script.orgLists[0].err.Some?
    ensures var r := InitCache(s);
      && r.outcome == Done(s.script.orgLists[0].err)
      && r.server.trace == s.trace + [ListOrganizations]
      && r.server.script.appLists == s.script.appLists
      && !r.server.cacheLoaded && r.server.organizations == []
  {
  }

  /**
   * Two successful listings load the cache with exactly what they listed,
   * organizations first; a second load is then a no-op.
   */
  lemma InitCacheLoads(s: Server)
    requires !s.cacheLoaded
    requires |s.script.orgLists| > 0 && s.script.orgLists[0].err.None?
    requires |s.script.appLists| > 0 && s.script.appLists[0].err.None?
    ensures var r := InitCache(s);
      && r.outcome == Done(None)
      && r.server.trace == s.trace + [ListOrganizations, ListApplications]
      && r.server.organizations == s.script.orgLists[0].items
      && r.server.applications == s.script.appLists[0].items
      && InitCache(r.server) == r
  {
  }

  /** `found` is the first element of `xs` that satisfies `p`, or `None` when none does. */
  ghost predicate FirstWhere<T>(xs: seq<T>, p: T -> bool, found: Option<T>) {
    && (found.Some? ==> exists i :: 0 <= i < |xs| && xs[i] == found.value && p(xs[i]) && forall j :: 0 <= j < i ==> !p(xs[j]))
    && (found.None? ==> forall j :: 0 <= j < |xs| ==> !p(xs[j]))
  }

  /** The first match of a list whose head does not match is the first match of its tail. */
  lemma FirstWhereTail<T>(xs: seq<T>, p: T -> bool, found: Option<T>)
    requires |xs| > 0 && !p(xs[0]) && FirstWhere(xs[1..], p, found)
    ensures FirstWhere(xs, p, found)
  {
    if found.Some? {
      var i :| 0 <= i < |xs[1..]| && xs[1..][i] == found.value && p(xs[1..][i]) && forall j :: 0 <= j < i ==> !p(xs[1..][j]);
      assert xs[i + 1] == found.value && p(xs[i + 1]);
      forall j | 0 <= j < i + 1 ensures !p(xs[j]) {
        if j > 0 {
          assert xs[j] == xs[1..][j - 1];
        }
      }
    } else {
      assert forall j :: 1 <= j < |xs| ==> xs[j] == xs[1..][j - 1];
    }
  }

  /** The scan of the lookups: the first element that satisfies `p`. */
  function FindFirst<T>(xs: seq<T>, p: T -> bool): (r: Option<T>)
    ensures FirstWhere(xs, p, r)
  {
    if |xs| == 0 then None
    else if p(xs[0]) then Some(xs[0])
    else
      var r := FindFirst(xs[1..], p);
      FirstWhereTail(xs, p, r);
      r
  }

  /** An organization named `name` directly under `parentId`. */
  function NamedUnder(name: string, parentId: string): OrgDto -> bool {
    (o: OrgDto) => o.name == name && o.parentId == parentId
  }

  /** An application named `name` in organization `orgId`. */
  function AppNamedIn(name: string, orgId: string): AppDto -> bool {
    (a: AppDto) => a.name == name && a.organizationId == orgId
  }

  /** An organization named `name`, wherever it sits. */
  function Named(name: string): OrgDto -> bool {
    (o: OrgDto) => o.name == name
  }

  /**
   * `OrganizationExists`: after loading the cache (a loading error ends the
   * program), the first cached organization whose name is the sanitized
   * name and whose parent is `parentId`.
   */
  function OrganizationExists(u: Tables, s: Server, org: Organization, parentId: string): (r: Step<Option<OrgDto>>)
    ensures Extends(s, r.server) && r.server.visits == s.visits
    ensures r.outcome.Done? ==> r.server.cacheLoaded
    ensures r.outcome.Done? ==> FirstWhere(r.server.organizations, NamedUnder(OrganizationSafeName(u, org), parentId), r.outcome.value)
    ensures r.outcome.Exited? <==> InitCache(s).outcome.Done? && InitCache(s).outcome.value.Some?
    ensures s.cacheLoaded ==> r.server == s && r.outcome.Done?
    ensures LoadCalls(s.trace, r.server.trace)
  {
    var c := InitCache(s);
    match c.outcome
    case Done(err) =>
      if err.Some? then Step(Exited(err.value), c.server)
      else Step(Done(FindFirst(c.server.organizations, NamedUnder(OrganizationSafeName(u, org), parentId))), c.server)
    case _ => Step(Stalled, c.server)
  }

  /**
   * `ApplicationExists`: after loading the cache (a loading error ends the
   * program), the first cached application whose name is the sanitized name
   * and whose organization is `orgId`.
   */
  function ApplicationExists(u: Tables, s: Server, app: Application, orgId: string): (r: Step<Option<AppDto>>)
    ensures Extends(s, r.server) && r.server.visits == s.visits
    ensures r.outcome.Done? ==> r.server.cacheLoaded
    ensures r.outcome.Done? ==> FirstWhere(r.server.applications, AppNamedIn(ApplicationSafeName(u, app), orgId), r.outcome.value)
    ensures r.outcome.Exited? <==> InitCache(s).outcome.Done? && InitCache(s).outcome.value.Some?
    ensures s.cacheLoaded ==> r.server == s && r.outcome.Done?
    ensures LoadCalls(s.trace, r.server.trace)
  {
    var c := InitCache(s);
    match c.outcome
    case Done(err) =>
      if err.Some? then Step(Exited(err.value), c.server)
      else Step(Done(FindFirst(c.server.applications, AppNamedIn(ApplicationSafeName(u, app), orgId))), c.server)
    case _ => Step(Stalled, c.server)
  }

  /**
   * `ValidateOrganizationByName`: the first cached organization whose name
   * is exactly the given one, unsanitized and under any parent.
   */
  function ValidateOrganizationByName(s: Server, name: string): (r: Step<Option<OrgDto>>)
    ensures Extends(s, r.server) && r.server.visits == s.visits
    ensures r.outcome.Done? ==> r.server.cacheLoaded
    ensures r.outcome.Done? ==> FirstWhere(r.server.organizations, Named(name), r.outcome.value)
    ensures r.outcome.Exited? <==> InitCache(s).outcome.Done? && InitCache(s).outcome.value.Some?
  {
    var c := InitCache(s);
    match c.outcome
    case Done(err) =>
      if err.Some? then Step(Exited(err.value), c.server)
      else Step(Done(FindFirst(c.server.organizations, Named(name))), c.server)
    case _ => Step(Stalled, c.server)
  }

  /**
   * `getUniqueOrganizationId` and `getUniqueSafeApplicationId`: the
   * candidate itself, or the candidate with "-1" appended when it is among
   * the taken ids. The bumped value is not checked again.
   */
  function UniqueId(taken: seq<string>, id: string): (r: string)
    ensures (exists i :: 0 <= i < |taken| && taken[i] == id) ==> r == id + "-1"
    ensures (forall i :: 0 <= i < |taken| ==> taken[i] != id) ==> r == id
  {
    if |taken| == 0 then id
    else if taken[0] == id then id + "-1"
    else
      assert forall i :: 1 <= i < |taken| ==> taken[i] == taken[1..][i - 1];
      UniqueId(taken[1..], id)
  }

  /** The internal ids of the cached organizations, in order. */
  function OrganizationIds(orgs: seq<OrgDto>): seq<string> {
    seq(|orgs|, i requires 0 <= i < |orgs| => orgs[i].id)
  }

  /** The internal ids of the cached applications, in order. */
  function ApplicationIds(apps: seq<AppDto>): seq<string> {
    seq(|apps|, i requires 0 <= i < |apps| => apps[i].id)
  }

  /** `getUniqueOrganizationId`: the bump against the cached organizations' internal ids. */
  function UniqueOrganizationId(orgs: seq<OrgDto>, id: string): string {
    UniqueId(OrganizationIds(orgs), id)
  }

  /** `getUniqueSafeApplicationId`: the bump against the cached applications' internal ids. */
  function UniqueApplicationId(apps: seq<AppDto>, id: string): string {
    UniqueId(ApplicationIds(apps), id)
  }

  /** The bump happens once: when both the id and its "-1" form are taken, the taken "-1" form is still returned. */
  lemma UniqueIdNotRechecked(orgs: seq<OrgDto>, id: string, i: nat, j: nat)
    requires i < |orgs| && j < |orgs| && orgs[i].id == id && orgs[j].id == id + "-1"
    ensures UniqueOrganizationId(orgs, id) == id + "-1"
    ensures exists k :: 0 <= k < |orgs| && orgs[k].id == UniqueOrganizationId(orgs, id)
  {
    assert OrganizationIds(orgs)[i] == id;
    assert orgs[j].id == UniqueOrganizationId(orgs, id);
  }
}

=== FILE: create.dfy ===
/**
 * Creating organizations and applications (`iq/server.go`): the
 * create-with-retry calls, the reuse-or-create decision, the SCM calls
 * that follow, and the scans scheduled for applications.
 */
module Create {
  import opened Wrappers
  import opened Unicode
  import opened Text
  import opened ScmTypes
  import opened Gateway
  import opened Retry
  import opened Cache

  /** A 400 reply to an organization create whose body ends this way is a name collision. */
  predicate OrgCollision(body: string) {
    HasSuffix(body, "used as a name.")
  }

  /** A 400 reply to an application create whose body ends either way is an id or name collision. */
  predicate AppCollision(body: string) {
    HasSuffix(body, "as an ID.") || HasSuffix(body, "as a name.")
  }

  /** The public id and name an application create call sends. */
  datatype AppRequest = AppRequest(publicId: string, name: string)

  /** After a collision on attempt `k`, an organization is renamed to the unique id of its sanitized name, then `-k`. */
  function OrgBump(orgs: seq<OrgDto>, safeName: string): nat -> string {
    (k: nat) => UniqueOrganizationId(orgs, safeName) + "-" + Decimal(k)
  }

  /** After a collision on attempt `k`, an application's public id and name both get `-k`, from the sanitized values. */
  function AppBump(safeId: string, safeName: string): nat -> AppRequest {
    (k: nat) => AppRequest(safeId + "-" + Decimal(k), safeName + "-" + Decimal(k))
  }

  function OrgCalls(names: seq<string>, parentId: string): (calls: seq<Call>)
    ensures |calls| == |names|
    ensures forall i :: 0 <= i < |names| ==> calls[i] == AddOrganization(names[i], parentId)
  {
    seq(|names|, i requires 0 <= i < |names| => AddOrganization(names[i], parentId))
  }

  function AppCalls(requests: seq<AppRequest>, orgId: string): (calls: seq<Call>)
    ensures |calls| == |requests|
    ensures forall i :: 0 <= i < |requests| ==> calls[i] == AddApplication(requests[i].publicId, requests[i].name, orgId)
  {
    seq(|requests|, i requires 0 <= i < |requests| => AddApplication(requests[i].publicId, requests[i].name, orgId))
  }

  /** The run of the organization create loop on the scripted replies, for a sanitized name. */
  function OrgRun(s: Server, safeName: string): Run<OrgDto, string> {
    Loop(s.script.orgCreates, 0, UniqueOrganizationId(s.organizations, safeName), OrgBump(s.organizations, safeName), OrgCollision)
  }

  /** The run of the application create loop on the scripted replies, for a sanitized id and name. */
  function AppRun(s: Server, safeId: string, safeName: string): Run<AppDto, AppRequest> {
    var first := AppRequest(UniqueApplicationId(s.applications, safeId), safeName);
    Loop(s.script.appCreates, 0, first, AppBump(safeId, safeName), AppCollision)
  }

  /**
   * `createOrganization`, given the organization's sanitized name: one
   * create call per attempt, under `parentId`, as the loop decides; only
   * the create replies are consumed.
   */
  function CreateOrganizationLoop(s: Server, safeName: string, parentId: string): (r: Step<Result<OrgDto, Error>>)
    ensures Extends(s, r.server) && r.server.visits == s.visits
    ensures r.server.cacheLoaded == s.cacheLoaded && r.server.organizations == s.organizations && r.server.applications == s.applications
    ensures var run := OrgRun(s, safeName);
      && r.server.trace == s.trace + OrgCalls(run.requests, parentId)
      && r.server.script == s.script.(orgCreates := s.script.orgCreates[run.consumed..])
      && (r.outcome.Done? <==> run.result.Some?)
      && (r.outcome.Done? ==> r.outcome.value == run.result.value)
    ensures !r.outcome.Exited?
  {
    var run := OrgRun(s, safeName);
    var t := s.(trace := s.trace + OrgCalls(run.requests, parentId),
                script := s.script.(orgCreates := s.script.orgCreates[run.consumed..]));
    Step(if run.result.Some? then Done(run.result.value) else Stalled, t)
  }

  /**
   * `createApplication`, given the application's sanitized id and name:
   * one create call per attempt, in `orgId`, as the loop decides; only the
   * create replies are consumed.
   */
  function CreateApplicationLoop(s: Server, safeId: string, safeName: string, orgId: string): (r: Step<Result<AppDto, Error>>)
    ensures Extends(s, r.server) && r.server.visits == s.visits
    ensures r.server.cacheLoaded == s.cacheLoaded && r.server.organizations == s.organizations && r.server.applications == s.applications
    ensures var run := AppRun(s, safeId, safeName);
      && r.server.trace == s.trace + AppCalls(run.requests, orgId)
      && r.server.script == s.script.(appCreates := s.script.appCreates[run.consumed..])
      && (r.outcome.Done? <==> run.result.Some?)
      && (r.outcome.Done? ==> r.outcome.value == run.result.value)
    ensures NoScansFrom(r.server.trace, |s.trace|) && NoScmFrom(r.server.trace, |s.trace|)
    ensures !r.outcome.Exited?
  {
    var run := AppRun(s, safeId, safeName);
    var t := s.(trace := s.trace + AppCalls(run.requests, orgId),
                script := s.script.(appCreates := s.script.appCreates[run.consumed..]));
    Step(if run.result.Some? then Done(run.result.value) else Stalled, t)
  }

  lemma OrgCallsOfThree(a: string, b: string, c: string, parentId: string)
    ensures OrgCalls([a, b, c], parentId) == [AddOrganization(a, parentId), AddOrganization(b, parentId), AddOrganization(c, parentId)]
  {
    var calls := OrgCalls([a, b, c], parentId);
    assert calls[0] == AddOrganization(a, parentId);
    assert calls[1] == AddOrganization(b, parentId);
    assert calls[2] == AddOrganization(c, parentId);
  }

  lemma AppCallsOfTwo(a: AppRequest, b: AppRequest, orgId: string)
    ensures AppCalls([a, b], orgId) == [AddApplication(a.publicId, a.name, orgId), AddApplication(b.publicId, b.name, orgId)]
  {
    var calls := AppCalls([a, b], orgId);
    assert calls[0] == AddApplication(a.publicId, a.name, orgId);
    assert calls[1] == AddApplication(b.publicId, b.name, orgId);
  }

  /** The renaming suffixes of the first two attempts. */
  lemma DashNumbers(x: string)
    ensures x + "-" + Decimal(1) == x + "-1"
    ensures x + "-" + Decimal(2) == x + "-2"
  {
    assert Decimal(1) == "1" && Decimal(2) == "2";
    assert "-" + "1" == "-1" && "-" + "2" == "-2";
    assert x + "-" + "1" == x + ("-" + "1");
    assert x + "-" + "2" == x + ("-" + "2");
  }

  /**
   * Two name collisions and then a clean HTTP 200: exactly three create
   * calls, named X, X-1 and X-2 where X is the unique id of the sanitized
   * name, and the third reply's organization is returned.
   */
  lemma OrganizationTwoCollisions(s: Server, safeName: string, parentId: string)
    requires var q := s.script.orgCreates;
      && |q| >= 3
      && q[0].status == 400 && OrgCollision(q[0].body)
      && q[1].status == 400 && OrgCollision(q[1].body)
      && q[2].status == 200 && q[2].err.None?
    ensures var x := UniqueOrganizationId(s.organizations, safeName);
      var r := CreateOrganizationLoop(s, safeName, parentId);
      && r.outcome == Done(Success(s.script.orgCreates[2].entity))
      && r.server.trace == s.trace + [AddOrganization(x, parentId), AddOrganization(x + "-1", parentId), AddOrganization(x + "-2", parentId)]
      && r.server.script.orgCreates == s.script.orgCreates[3..]
  {
    var base := safeName;
    var x := UniqueOrganizationId(s.organizations, base);
    var bump := OrgBump(s.organizations, base);
    TwoCollisionsThenAccept(s.script.orgCreates, x, bump, OrgCollision);
    DashNumbers(x);
    assert bump(1) == x + "-1" && bump(2) == x + "-2";
    OrgCallsOfThree(x, x + "-1", x + "-2", parentId);
  }

  /**
   * Three replies that are errors but neither collisions nor HTTP 200:
   * three create calls with the same name, the third error returned, and
   * no fourth call.
   */
  lemma OrganizationGivesUpAfterThree(s: Server, safeName: string, parentId: string)
    requires var q := s.script.orgCreates;
      && |q| >= 3
      && forall j :: 0 <= j < 3 ==> q[j].err.Some? && q[j].status != 200 && !(q[j].status == 400 && OrgCollision(q[j].body))
    ensures var x := UniqueOrganizationId(s.organizations, safeName);
      var r := CreateOrganizationLoop(s, safeName, parentId);
      && r.outcome == Done(Failure(s.script.orgCreates[2].err.value))
      && r.server.trace == s.trace + [AddOrganization(x, parentId), AddOrganization(x, parentId), AddOrganization(x, parentId)]
      && r.server.script.orgCreates == s.script.orgCreates[3..]
  {
    var base := safeName;
    var x := UniqueOrganizationId(s.organizations, base);
    ThreeErrorsGiveUp(s.script.orgCreates, x, OrgBump(s.organizations, base), OrgCollision);
    OrgCallsOfThree(x, x, x, parentId);
  }

  /**
   * A collision on the first application attempt bumps both values from
   * the sanitized ones, without the unique-id check: when the sanitized id
   * was already bumped to `id-1`, the second call sends `id-1` again.
   */
  lemma ApplicationBumpSkipsUniqueCheck(s: Server, id: string, name: string, orgId: string)
    requires var q := s.script.appCreates;
      && |q| >= 2
      && q[0].status == 400 && AppCollision(q[0].body)
      && q[1].status == 200 && q[1].err.None?
    ensures var r := CreateApplicationLoop(s, id, name, orgId);
      && r.outcome == Done(Success(s.script.appCreates[1].entity))
      && r.server.trace == s.trace + [AddApplication(UniqueApplicationId(s.applications, id), name, orgId), AddApplication(id + "-1", name + "-1", orgId)]
  {
    var first := AppRequest(UniqueApplicationId(s.applications, id), name);
    var bump := AppBump(id, name);
    var q := s.script.appCreates;
    var second := Loop(q[1..], 1, bump(1), bump, AppCollision);
    assert second == Run(Some(Success(q[1].entity)), [bump(1)], 1);
    DashNumbers(id);
    DashNumbers(name);
    assert bump(1) == AppRequest(id + "-1", name + "-1");
    AppCallsOfTwo(first, bump(1), orgId);
  }

  /** Go's `(entity, error)` pair; nil is `None`. */
  datatype Created<T> = Created(entity: Option<T>, error: Option<Error>)

  /** Go's `(application, scm, error)` triple of `CreateApplication`. */
  datatype AppCreated = AppCreated(app: Option<AppDto>, scm: Option<ScmDto>, error: Option<Error>)

  /** The SCM fields sent for an organization: the configured credentials and provider. */
  function OrgScmPayload(cfg: ScmConfiguration): ScmPayload {
    OrgScm(cfg.username, cfg.password, cfg.scmType)
  }

  /** The SCM fields sent for an application: its repository and default branch. */
  function AppScmPayload(app: Application): ScmPayload {
    AppScm(app.repositoryUrl, app.defaultBranch)
  }

  predicate IsScmCall(c: Call) {
    c.AddScm? || c.UpdateScm?
  }

  /** No call from position `from` on schedules a scan. */
  predicate NoScansFrom(calls: seq<Call>, from: nat) {
    forall i :: from <= i < |calls| ==> !calls[i].EvaluateSource?
  }

  /** No call from position `from` on is an SCM call. */
  predicate NoScmFrom(calls: seq<Call>, from: nat) {
    forall i :: from <= i < |calls| ==> !IsScmCall(calls[i])
  }

  /**
   * The existing-organization branch of `CreateOrganization`: when asked
   * to, update the SCM configuration (`UpdateOrganizationScmConfiguration`)
   * and return its error alongside the organization.
   */
  function ReuseOrganization(s: Server, found: OrgDto, applyScm: bool, cfg: Option<ScmConfiguration>): (r: Step<Created<OrgDto>>)
    requires applyScm ==> cfg.Some?
    ensures Extends(s, r.server) && r.server.visits == s.visits
    ensures r.server.trace == s.trace + if applyScm then [UpdateScm(OrganizationOwner, found.id, OrgScmPayload(cfg.value))] else []
    ensures NoScansFrom(r.server.trace, |s.trace|)
    ensures r.outcome.Done? ==> r.outcome.value.entity == Some(found)
    ensures applyScm ==> (r.outcome.Done? <==> |s.script.scmReplies| > 0)
    ensures r.outcome.Done? && applyScm ==> r.outcome.value.error == s.script.scmReplies[0].err
    ensures !applyScm ==> r.outcome == Done(Created(Some(found), None))
    ensures !r.outcome.Exited?
  {
    if applyScm then
      var x := SendScm(s, UpdateScm(OrganizationOwner, found.id, OrgScmPayload(cfg.value)));
      if x.reply.None? then Step(Stalled, x.server)
      else Step(Done(Created(Some(found), x.reply.value.err)), x.server)
    else Step(Done(Created(Some(found), None)), s)
  }

  /**
   * The new-organization branch of `CreateOrganization`: create it with
   * retries and, once created and when asked to, add its SCM configuration
   * (`SetOrganizationScmConfiguration`).
   */
  function NewOrganization(s: Server, safeName: string, parentId: string, applyScm: bool, cfg: Option<ScmConfiguration>): (r: Step<Created<OrgDto>>)
    requires applyScm ==> cfg.Some?
    ensures Extends(s, r.server) && r.server.visits == s.visits
    ensures r.outcome.Done? && r.outcome.value.error.None? ==> r.outcome.value.entity.Some?
    ensures NoScansFrom(r.server.trace, |s.trace|)
    ensures var run := OrgRun(s, safeName);
      && s.trace + OrgCalls(run.requests, parentId) <= r.server.trace
      && r.server.trace == s.trace + OrgCalls(run.requests, parentId) + (
           if applyScm && run.result.Some? && run.result.value.Success?
           then [AddScm(OrganizationOwner, run.result.value.value.id, OrgScmPayload(cfg.value))]
           else [])
      && (run.result.Some? && run.result.value.Failure? ==> r.outcome == Done(Created(None, Some(run.result.value.error))))
      && (run.result.Some? && run.result.value.Success? && !applyScm ==> r.outcome == Done(Created(Some(run.result.value.value), None)))
      && (run.result.Some? && run.result.value.Success? && applyScm && r.outcome.Done? ==>
            |s.script.scmReplies| > 0 && r.outcome == Done(Created(Some(run.result.value.value), s.script.scmReplies[0].err)))
    ensures !r.outcome.Exited?
  {
    var c := CreateOrganizationLoop(s, safeName, parentId);
    if c.outcome.Stalled? then Step(Stalled, c.server)
    else if c.outcome.value.Failure? then Step(Done(Created(None, Some(c.outcome.value.error))), c.server)
    else
      var created := c.outcome.value.value;
      if applyScm then
        var x := SendScm(c.server, AddScm(OrganizationOwner, created.id, OrgScmPayload(cfg.value)));
        ExtendsTransitive(s, c.server, x.server);
        if x.reply.None? then Step(Stalled, x.server)
        else Step(Done(Created(Some(created), x.reply.value.err)), x.server)
      else Step(Done(Created(Some(created), None)), c.server)
  }

  /** The last call lies at or after position `from` and is an SCM call for the application with internal id `id`. */
  predicate LastIsAppScm(calls: seq<Call>, from: nat, id: string) {
    && |calls| > from
    && IsScmCall(calls[|calls| - 1])
    && calls[|calls| - 1].owner == ApplicationOwner
    && calls[|calls| - 1].ownerId == id
  }

  /**
   * `CreateOrganization`: reuse the organization the lookup finds, or
   * create a new one. Go dereferences the configuration whenever SCM is
   * applied, so it must then be present.
   */
  function CreateOrganization(u: Tables, s: Server, org: Organization, parentId: string, applyScm: bool, cfg: Option<ScmConfiguration>): (r: Step<Created<OrgDto>>)
    requires applyScm ==> cfg.Some?
    ensures Extends(s, r.server) && r.server.visits == s.visits
    ensures r.outcome.Done? && r.outcome.value.error.None? ==> r.outcome.value.entity.Some?
    ensures NoScansFrom(r.server.trace, |s.trace|)
  {
    var e := OrganizationExists(u, s, org, parentId);
    match e.outcome
    case Exited(err) => Step(Exited(err), e.server)
    case Stalled => Step(Stalled, e.server)
    case Done(found) =>
      var r := if found.Some? then ReuseOrganization(e.server, found.value, applyScm, cfg)
               else NewOrganization(e.server, OrganizationSafeName(u, org), parentId, applyScm, cfg);
      ExtendsTransitive(s, e.server, r.server);
      LoadThenCalls(s.trace, e.server.trace, r.server.trace);
      r
  }

  /** With the cache loaded, an organization the lookup finds is reused: no create call is made. */
  lemma CreateOrganizationReusesExisting(u: Tables, s: Server, org: Organization, parentId: string, applyScm: bool, cfg: Option<ScmConfiguration>, found: OrgDto)
    requires applyScm ==> cfg.Some?
    requires s.cacheLoaded && OrganizationExists(u, s, org, parentId).outcome == Done(Some(found))
    ensures CreateOrganization(u, s, org, parentId, applyScm, cfg) == ReuseOrganization(s, found, applyScm, cfg)
  {
  }

  /** With the cache loaded, an organization the lookup does not find is created under its sanitized name. */
  lemma CreateOrganizationCreatesMissing(u: Tables, s: Server, org: Organization, parentId: string, applyScm: bool, cfg: Option<ScmConfiguration>)
    requires applyScm ==> cfg.Some?
    requires s.cacheLoaded && OrganizationExists(u, s, org, parentId).outcome == Done(None)
    ensures CreateOrganization(u, s, org, parentId, applyScm, cfg) == NewOrganization(s, OrganizationSafeName(u, org), parentId, applyScm, cfg)
  {
  }

  /**
   * The existing-application branch of `CreateApplication`, taken only
   * when both gates pass: update the application's SCM configuration and
   * return the record the server answers with.
   */
  function UpdateExistingApplication(s: Server, found: AppDto, app: Application): (r: Step<AppCreated>)
    ensures Extends(s, r.server) && r.server.visits == s.visits
    ensures r.server.trace == s.trace + [UpdateScm(ApplicationOwner, found.id, AppScmPayload(app))]
    ensures r.outcome.Done? && r.outcome.value.scm.Some? ==> r.outcome.value.app == Some(found)
    ensures r.outcome.Done? <==> |s.script.scmReplies| > 0
    ensures r.outcome.Done? ==>
      var reply := s.script.scmReplies[0];
      r.outcome.value == if reply.err.Some? then AppCreated(None, None, reply.err) else AppCreated(Some(found), reply.dto, None)
  {
    var x := SendScm(s, UpdateScm(ApplicationOwner, found.id, AppScmPayload(app)));
    if x.reply.None? then Step(Stalled, x.server)
    else if x.reply.value.err.Some? then Step(Done(AppCreated(None, None, x.reply.value.err)), x.server)
    else Step(Done(AppCreated(Some(found), x.reply.value.dto, None)), x.server)
  }

  /**
   * The SCM step after `createApplication` succeeded: add the
   * application's SCM configuration only when both gates pass, and return
   * the record the server answers with.
   */
  function AttachApplicationScm(s: Server, created: AppDto, app: Application): (r: Step<AppCreated>)
    ensures Extends(s, r.server) && r.server.visits == s.visits
    ensures r.server.trace == s.trace + if ScmPermitted(app) then [AddScm(ApplicationOwner, created.id, AppScmPayload(app))] else []
    ensures !ScmPermitted(app) ==> r == Step(Done(AppCreated(Some(created), None, None)), s)
    ensures ScmPermitted(app) ==> (r.outcome.Done? <==> |s.script.scmReplies| > 0)
    ensures ScmPermitted(app) && r.outcome.Done? ==>
      var reply := s.script.scmReplies[0];
      r.outcome.value == if reply.err.Some? then AppCreated(None, None, reply.err) else AppCreated(Some(created), reply.dto, None)
    ensures r.outcome.Done? && r.outcome.value.scm.Some? ==> LastIsAppScm(r.server.trace, |s.trace|, created.id)
    ensures !r.outcome.Exited?
  {
    if ScmPermitted(app) then
      var x := SendScm(s, AddScm(ApplicationOwner, created.id, AppScmPayload(app)));
      if x.reply.None? then Step(Stalled, x.server)
      else if x.reply.value.err.Some? then Step(Done(AppCreated(None, None, x.reply.value.err)), x.server)
      else Step(Done(AppCreated(Some(created), x.reply.value.dto, None)), x.server)
    else Step(Done(AppCreated(Some(created), None, None)), s)
  }

  /**
   * The create branch of `CreateApplication`: create the application with
   * retries from its sanitized id and name and, once created, attach its
   * SCM configuration.
   */
  function NewApplication(s: Server, app: Application, safeId: string, safeName: string, orgId: string): (r: Step<AppCreated>)
    ensures Extends(s, r.server) && r.server.visits == s.visits
    ensures r.outcome.Done? ==> (r.outcome.value.error.None? <==> r.outcome.value.app.Some?)
    ensures r.outcome.Done? && r.outcome.value.error.Some? ==> r.outcome.value.scm.None?
    ensures NoScansFrom(r.server.trace, |s.trace|)
    ensures !ScmPermitted(app) ==> NoScmFrom(r.server.trace, |s.trace|)
    ensures r.outcome.Done? && r.outcome.value.scm.Some? ==>
      ScmPermitted(app) && r.outcome.value.app.Some? && LastIsAppScm(r.server.trace, |s.trace|, r.outcome.value.app.value.id)
    ensures !r.outcome.Exited?
  {
    var c := CreateApplicationLoop(s, safeId, safeName, orgId);
    if c.outcome.Stalled? then Step(Stalled, c.server)
    else if c.outcome.value.Failure? then Step(Done(AppCreated(None, None, Some(c.outcome.value.error))), c.server)
    else
      var r := AttachApplicationScm(c.server, c.outcome.value.value, app);
      ExtendsTransitive(s, c.server, r.server);
      r
  }

  /**
   * `NewApplication` runs the create loop first: its calls open the trace,
   * its failure is returned as the error, and its success goes on to the
   * SCM step.
   */
  lemma NewApplicationFollowsLoop(s: Server, app: Application, safeId: string, safeName: string, orgId: string)
    ensures var r := NewApplication(s, app, safeId, safeName, orgId);
      var c := CreateApplicationLoop(s, safeId, safeName, orgId);
      && c.server.trace <= r.server.trace
      && (c.outcome.Stalled? ==> r == Step(Stalled, c.server))
      && (c.outcome.Done? && c.outcome.value.Failure? ==> r == Step(Done(AppCreated(None, None, Some(c.outcome.value.error))), c.server))
      && (c.outcome.Done? && c.outcome.value.Success? ==> r == AttachApplicationScm(c.server, c.outcome.value.value, app))
  {
  }

  /** Calls added by a cache load are neither scans nor SCM calls. */
  lemma LoadThenCalls(before: seq<Call>, loaded: seq<Call>, after: seq<Call>)
    requires LoadCalls(before, loaded) && loaded <= after
    ensures NoScansFrom(after, |loaded|) ==> NoScansFrom(after, |before|)
    ensures NoScmFrom(after, |loaded|) ==> NoScmFrom(after, |before|)
    ensures forall id :: LastIsAppScm(after, |loaded|, id) ==> LastIsAppScm(after, |before|, id)
  {
  }

  /**
   * `CreateApplication` once the lookup has answered: an application it
   * found is updated when both gates pass; otherwise, found or not, one is
   * created.
   */
  function DecideApplication(s: Server, found: Option<AppDto>, app: Application, safeId: string, safeName: string, orgId: string): (r: Step<AppCreated>)
    ensures Extends(s, r.server) && r.server.visits == s.visits
    ensures r.outcome.Done? ==> (r.outcome.value.error.None? <==> r.outcome.value.app.Some?)
    ensures r.outcome.Done? && r.outcome.value.error.Some? ==> r.outcome.value.scm.None?
    ensures NoScansFrom(r.server.trace, |s.trace|)
    ensures !ScmPermitted(app) ==> NoScmFrom(r.server.trace, |s.trace|)
    ensures r.outcome.Done? && r.outcome.value.scm.Some? ==>
      ScmPermitted(app) && r.outcome.value.app.Some? && LastIsAppScm(r.server.trace, |s.trace|, r.outcome.value.app.value.id)
    ensures !r.outcome.Exited?
  {
    if found.Some? && ScmPermitted(app) then UpdateExistingApplication(s, found.value, app)
    else NewApplication(s, app, safeId, safeName, orgId)
  }

  /**
   * `CreateApplication`: look the application up, then update or create
   * it. Any error comes back alone, with neither application nor SCM
   * record; an SCM record comes back only when both gates pass, right
   * after the SCM call for that application.
   */
  function CreateApplication(u: Tables, s: Server, app: Application, orgId: string): (r: Step<AppCreated>)
    ensures Extends(s, r.server) && r.server.visits == s.visits
    ensures r.outcome.Done? ==> (r.outcome.value.error.None? <==> r.outcome.value.app.Some?)
    ensures r.outcome.Done? && r.outcome.value.error.Some? ==> r.outcome.value.scm.None?
    ensures NoScansFrom(r.server.trace, |s.trace|)
    ensures !ScmPermitted(app) ==> NoScmFrom(r.server.trace, |s.trace|)
    ensures r.outcome.Done? && r.outcome.value.scm.Some? ==>
      ScmPermitted(app) && r.outcome.value.app.Some? && LastIsAppScm(r.server.trace, |s.trace|, r.outcome.value.app.value.id)
  {
    var e := ApplicationExists(u, s, app, orgId);
    if e.outcome.Exited? then Step(Exited(e.outcome.error), e.server)
    else if e.outcome.Stalled? then Step(Stalled, e.server)
    else
      var r := DecideApplication(e.server, e.outcome.value, app, ApplicationSafeId(u, app), ApplicationSafeName(u, app), orgId);
      ExtendsTransitive(s, e.server, r.server);
      LoadThenCalls(s.trace, e.server.trace, r.server.trace);
      r
  }

  /** With the cache loaded, an application the lookup finds and whose SCM fields pass both gates is updated, not created. */
  lemma CreateApplicationUpdatesExisting(u: Tables, s: Server, app: Application, orgId: string, found: AppDto)
    requires s.cacheLoaded && ApplicationExists(u, s, app, orgId).outcome == Done(Some(found)) && ScmPermitted(app)
    ensures CreateApplication(u, s, app, orgId) == UpdateExistingApplication(s, found, app)
  {
  }

  /**
   * With the cache loaded, an application the lookup finds but whose SCM
   * fields fail a gate is not reused: a new application is created from
   * its sanitized id and name, as when none is found.
   */
  lemma CreateApplicationRecreatesUnpermitted(u: Tables, s: Server, app: Application, orgId: string, found: AppDto)
    requires s.cacheLoaded && ApplicationExists(u, s, app, orgId).outcome == Done(Some(found)) && !ScmPermitted(app)
    ensures CreateApplication(u, s, app, orgId) == NewApplication(s, app, ApplicationSafeId(u, app), ApplicationSafeName(u, app), orgId)
  {
  }

  /** With the cache loaded, an application the lookup does not find is created from its sanitized id and name. */
  lemma CreateApplicationCreatesMissing(u: Tables, s: Server, app: Application, orgId: string)
    requires s.cacheLoaded && ApplicationExists(u, s, app, orgId).outcome == Done(None)
    ensures CreateApplication(u, s, app, orgId) == NewApplication(s, app, ApplicationSafeId(u, app), ApplicationSafeName(u, app), orgId)
  {
  }
}

=== FILE: gates.dfy ===
/**
 * The permission gates of `scm/types.go`: `safeBranchName` and
 * `safeRepositoryUrl`, both built on the pattern `INVALID_BRANCH_NAME`
 * `^\.|([;$!*&|\(\)\[\]<>#?~%'])|[\./]$`, and the percent-decoding of
 * Go's `url.QueryUnescape` that the URL gate applies first.
 */
module Gates {
  import opened Wrappers
  import opened Unicode
  import opened Text

  /** The characters of the middle alternative of the pattern. */
  predicate IsMetaChar(c: char) {
    || c == ';' || c == '$' || c == '!' || c == '*' || c == '&' || c == '|' || c == '(' || c == ')'
    || c == '[' || c == ']' || c == '<' || c == '>' || c == '#' || c == '?' || c == '~' || c == '%' || c == '\''
  }

  /**
   * Whether some alternative of the pattern matches at position `i`:
   * `^\.` only at the start of the text, the character class anywhere, and
   * `[\./]$` only on the last character (`$` is end of text, not end of line).
   */
  predicate MatchesAt(s: string, i: nat)
    requires i < |s|
  {
    || (i == 0 && s[i] == '.')
    || IsMetaChar(s[i])
    || (i == |s| - 1 && (s[i] == '.' || s[i] == '/'))
  }

  /** `INVALID_BRANCH_NAME.MatchString`: the search tries every start position from `i` on. */
  predicate MatchesFrom(s: string, i: nat)
    requires i <= |s|
    decreases |s| - i
  {
    i < |s| && (MatchesAt(s, i) || MatchesFrom(s, i + 1))
  }

  predicate Dangerous(s: string) {
    MatchesFrom(s, 0)
  }

  /**
   * The search finds a match exactly when the text starts with `.`, ends
   * with `.` or `/`, or holds a metacharacter anywhere.
   */
  lemma {:induction false} DangerousIff(s: string)
    ensures Dangerous(s) <==>
      || (|s| > 0 && s[0] == '.')
      || (|s| > 0 && (s[|s| - 1] == '.' || s[|s| - 1] == '/'))
      || (exists i :: 0 <= i < |s| && IsMetaChar(s[i]))
  {
    MatchesFromIff(s, 0);
    if exists i :: 0 <= i < |s| && IsMetaChar(s[i]) {
      var i :| 0 <= i < |s| && IsMetaChar(s[i]);
      assert MatchesAt(s, i);
    }
    if |s| > 0 && (s[|s| - 1] == '.' || s[|s| - 1] == '/') {
      assert MatchesAt(s, |s| - 1);
    }
    if |s| > 0 && s[0] == '.' {
      assert MatchesAt(s, 0);
    }
  }

  lemma {:induction false} MatchesFromIff(s: string, k: nat)
    requires k <= |s|
    ensures MatchesFrom(s, k) <==> exists i :: k <= i < |s| && MatchesAt(s, i)
    decreases |s| - k
  {
    if k < |s| {
      MatchesFromIff(s, k + 1);
      if MatchesFrom(s, k) && !MatchesAt(s, k) {
        var i :| k + 1 <= i < |s| && MatchesAt(s, i);
      }
    }
  }

  /** `safeBranchName`: a branch is safe when it is not blank and the pattern finds nothing. */
  predicate SafeBranchName(s: string) {
    if TrimSpace(s) == [] then false else !Dangerous(s)
  }

  /**
   * A branch name is permitted exactly when it has a non-space character,
   * does not start with `.`, does not end with `.` or `/`, and holds no
   * metacharacter.
   */
  lemma SafeBranchNameIff(s: string)
    ensures SafeBranchName(s) <==>
      && (exists i :: 0 <= i < |s| && !IsSpace(s[i]))
      && !(|s| > 0 && s[0] == '.')
      && !(|s| > 0 && (s[|s| - 1] == '.' || s[|s| - 1] == '/'))
      && (forall i :: 0 <= i < |s| ==> !IsMetaChar(s[i]))
  {
    TrimSpaceEmpty(s);
    DangerousIff(s);
  }

  predicate IsHex(c: char) {
    '0' <= c <= '9' || 'a' <= c <= 'f' || 'A' <= c <= 'F'
  }

  function UnHex(c: char): (d: nat)
    requires IsHex(c)
    ensures d < 16
  {
    if '0' <= c <= '9' then c as int - '0' as int
    else if 'a' <= c <= 'f' then c as int - 'a' as int + 10
    else c as int - 'A' as int + 10
  }

  /** Whether position `i` holds a `%` followed by two hexadecimal digits. */
  predicate IsEscapeAt(s: string, i: nat)
    requires i < |s|
  {
    s[i] == '%' && i + 2 < |s| && IsHex(s[i + 1]) && IsHex(s[i + 2])
  }

  /**
   * `url.QueryUnescape`: `%XY` becomes the byte `XY` (read as the character
   * with that code), `+` becomes a space, and a `%` without two hexadecimal
   * digits after it is an error carrying the offending text, at most three
   * characters long.
   */
  function QueryUnescape(s: string): (r: Result<string, string>)
    ensures r.Success? ==> |r.value| <= |s|
    ensures r.Failure? ==> 0 < |r.error| <= 3 && r.error[0] == '%'
  {
    if |s| == 0 then Success([])
    else if s[0] == '%' then
      if !IsEscapeAt(s, 0) then Failure(if |s| > 3 then s[..3] else s)
      else
        match QueryUnescape(s[3..])
        case Failure(e) => Failure(e)
        case Success(rest) => Success([(16 * UnHex(s[1]) + UnHex(s[2])) as char] + rest)
    else
      match QueryUnescape(s[1..])
      case Failure(e) => Failure(e)
      case Success(rest) => Success([if s[0] == '+' then ' ' else s[0]] + rest)
  }

  /**
   * Decoding fails exactly when some `%` is not followed by two hexadecimal
   * digits. (A `%` can never sit inside an earlier escape, whose two
   * following characters are digits.)
   */
  lemma {:induction false} QueryUnescapeFailsIff(s: string)
    ensures QueryUnescape(s).Failure? <==> exists i :: 0 <= i < |s| && s[i] == '%' && !IsEscapeAt(s, i)
  {
    if |s| > 0 {
      var k := if s[0] == '%' && IsEscapeAt(s, 0) then 3 else 1;
      if s[0] != '%' || IsEscapeAt(s, 0) {
        QueryUnescapeFailsIff(s[k..]);
        assert forall i :: k <= i < |s| ==> (IsEscapeAt(s, i) <==> IsEscapeAt(s[k..], i - k));
        if exists i :: 0 <= i < |s| && s[i] == '%' && !IsEscapeAt(s, i) {
          var i :| 0 <= i < |s| && s[i] == '%' && !IsEscapeAt(s, i);
          assert i >= k;
          assert s[k..][i - k] == '%';
        }
        if exists j :: 0 <= j < |s[k..]| && s[k..][j] == '%' && !IsEscapeAt(s[k..], j) {
          var j :| 0 <= j < |s[k..]| && s[k..][j] == '%' && !IsEscapeAt(s[k..], j);
          assert s[k + j] == '%' && !IsEscapeAt(s, k + j);
        }
      }
    }
  }

  /** A string without `%` or `+` decodes to itself. */
  lemma {:induction false} QueryUnescapePlain(s: string)
    requires forall i :: 0 <= i < |s| ==> s[i] != '%' && s[i] != '+'
    ensures QueryUnescape(s) == Success(s)
  {
    if |s| > 0 {
      QueryUnescapePlain(s[1..]);
      assert s == [s[0]] + s[1..];
    }
  }

  /** A prefix without `%` or `+` passes through decoding unchanged, whatever follows it. */
  lemma {:induction false} QueryUnescapePlainPrefix(a: string, b: string)
    requires forall i :: 0 <= i < |a| ==> a[i] != '%' && a[i] != '+'
    ensures QueryUnescape(a + b) == (match QueryUnescape(b) case Success(d) => Success(a + d) case Failure(e) => Failure(e))
  {
    if |a| == 0 {
      assert a + b == b;
      match QueryUnescape(b)
      case Failure(_) =>
      case Success(d) =>
        assert a + d == d;
    } else {
      assert (a + b)[1..] == a[1..] + b;
      QueryUnescapePlainPrefix(a[1..], b);
      match QueryUnescape(b)
      case Failure(_) =>
      case Success(d) =>
        assert a + d == [a[0]] + (a[1..] + d);
    }
  }

  /** Upper-case hexadecimal digit, as `url.QueryEscape` writes it. */
  function HexDigit(d: nat): (c: char)
    requires d < 16
    ensures IsHex(c) && UnHex(c) == d
  {
    if d < 10 then ('0' as int + d) as char else ('A' as int + d - 10) as char
  }

  /** The characters `url.QueryEscape` writes as themselves. */
  predicate IsUnreserved(c: char) {
    'a' <= c <= 'z' || 'A' <= c <= 'Z' || '0' <= c <= '9' || c == '-' || c == '_' || c == '.' || c == '~'
  }

  /**
   * One character of code below 256 as one escaped byte: unreserved as is,
   * space as `+`, else `%XY` with XY its code. On ASCII this is what
   * `url.QueryEscape` writes; from U+0080 on, `url.QueryEscape` escapes the
   * character's two UTF-8 bytes instead, while this writes its Latin-1 code.
   */
  function EscapeChar(c: char): (r: string)
    requires c < '\U{100}'
  {
    if IsUnreserved(c) then [c]
    else if c == ' ' then "+"
    else ['%', HexDigit(c as int / 16), HexDigit(c as int % 16)]
  }

  /**
   * A Latin-1 query escaper, one byte per character: the encoder that
   * `QueryUnescape` inverts, used to state the decoder's round trip. On
   * ASCII text it agrees with `url.QueryEscape`.
   */
  function QueryEscape(s: string): string
    requires forall i :: 0 <= i < |s| ==> s[i] < '\U{100}'
  {
    if |s| == 0 then [] else EscapeChar(s[0]) + QueryEscape(s[1..])
  }

  /** Decoding undoes encoding: every text of codes below 256 survives the Latin-1 round trip. */
  lemma {:induction false} QueryUnescapeRoundTrip(s: string)
    requires forall i :: 0 <= i < |s| ==> s[i] < '\U{100}'
    ensures QueryUnescape(QueryEscape(s)) == Success(s)
  {
    if |s| > 0 {
      var c := s[0];
      var rest := QueryEscape(s[1..]);
      var e := EscapeChar(c);
      var t := e + rest;
      QueryUnescapeRoundTrip(s[1..]);
      if IsUnreserved(c) || c == ' ' {
        assert t[1..] == rest;
      } else {
        assert t[3..] == rest;
        assert IsEscapeAt(t, 0);
        assert 16 * UnHex(t[1]) + UnHex(t[2]) == c as int;
      }
      assert s == [c] + s[1..];
    }
  }

  /** `safeRepositoryUrl`: the URL must decode, and its decoded form must not match the pattern. */
  predicate SafeRepositoryUrl(s: string) {
    match QueryUnescape(s)
    case Failure(_) => false
    case Success(decoded) => !Dangerous(decoded)
  }

  /** A URL with a `%` that is not followed by two hexadecimal digits is rejected. */
  lemma SafeRepositoryUrlRejectsBadEscape(s: string, i: nat)
    requires i < |s| && s[i] == '%' && !IsEscapeAt(s, i)
    ensures !SafeRepositoryUrl(s)
  {
    QueryUnescapeFailsIff(s);
  }

  /**
   * A URL with no `%` and no `+` is judged on its own text by the pattern
   * alone; unlike a branch name, a blank URL is not rejected.
   */
  lemma SafeRepositoryUrlPlain(s: string)
    requires forall i :: 0 <= i < |s| ==> s[i] != '%' && s[i] != '+'
    ensures SafeRepositoryUrl(s) <==> !Dangerous(s)
  {
    QueryUnescapePlain(s);
  }

  /**
   * A percent-escaped metacharacter after a plain prefix is caught once
   * decoded, whatever follows it.
   */
  lemma SafeRepositoryUrlRejectsEscapedMeta(a: string, escape: string, b: string)
    requires forall i :: 0 <= i < |a| ==> a[i] != '%' && a[i] != '+'
    requires |escape| == 3 && IsEscapeAt(escape, 0)
    requires IsMetaChar((16 * UnHex(escape[1]) + UnHex(escape[2])) as char)
    ensures !SafeRepositoryUrl(a + escape + b)
  {
    assert a + escape + b == a + (escape + b);
    QueryUnescapePlainPrefix(a, escape + b);
    assert (escape + b)[3..] == b;
    match QueryUnescape(b)
    case Failure(_) =>
    case Success(d) =>
      var decoded := a + ([(16 * UnHex(escape[1]) + UnHex(escape[2])) as char] + d);
      assert IsMetaChar(decoded[|a|]);
      DangerousIff(decoded);
  }
}

=== FILE: gateway.dfy ===
/**
 * The Sonatype Lifecycle REST client, seen from the reconciler: every call
 * is recorded in a trace, and its reply is taken from a script with one
 * queue per endpoint. A call whose queue is empty has no reply; the run is
 * then `Stalled` (the server would have had to answer more calls than
 * scripted).
 */
module Gateway {
  import opened Wrappers
  import opened ScmTypes

  type Error = string

  /** An organization as the server lists or creates it. */
  datatype OrgDto = OrgDto(id: string, name: string, parentId: string)

  /** An application as the server lists or creates it: `id` is internal, `publicId` is chosen by the client. */
  datatype AppDto = AppDto(id: string, publicId: string, name: string, organizationId: string)

  /** The source-control record the server answers an SCM call with. */
  datatype ScmDto = ScmDto(id: string, repositoryUrl: string)

  datatype Owner = OrganizationOwner | ApplicationOwner

  /** The fields of an SCM call the reconciler fills in. */
  datatype ScmPayload =
    | OrgScm(username: string, token: string, provider: string)
    | AppScm(repositoryUrl: string, baseBranch: Option<string>)

  datatype Call =
    | ListOrganizations
    | ListApplications
    | AddOrganization(name: string, parentId: string)
    | AddApplication(publicId: string, name: string, organizationId: string)
    | AddScm(owner: Owner, ownerId: string, payload: ScmPayload)
    | UpdateScm(owner: Owner, ownerId: string, payload: ScmPayload)
    | EvaluateSource(applicationId: string, branch: Option<string>, stage: string)

  datatype ListReply<T> = ListReply(items: seq<T>, err: Option<Error>)

  /** The reply to a create call: the decoded entity, the HTTP status, the response body and the client error. */
  datatype CreateReply<T> = CreateReply(entity: T, status: int, body: string, err: Option<Error>)

  datatype ScmReply = ScmReply(dto: Option<ScmDto>, err: Option<Error>)

  /** The replies the server will give, per endpoint, in order. SCM calls of either kind share one queue. */
  datatype Script = Script(
    orgLists: seq<ListReply<OrgDto>>,
    appLists: seq<ListReply<AppDto>>,
    orgCreates: seq<CreateReply<OrgDto>>,
    appCreates: seq<CreateReply<AppDto>>,
    scmReplies: seq<ScmReply>)

  /** The reconciler's position in `ApplyOrgContents`: which entity it turned to, under which parent. */
  datatype Visit =
    | OrgVisit(org: Organization, parentId: string, applyScm: bool)
    | AppVisit(app: Application, organizationId: string)

  /**
   * The reconciler's state: the load-once cache of what the server already
   * holds, the replies still to come, the calls issued so far and the
   * entities visited so far.
   */
  datatype Server = Server(
    cacheLoaded: bool,
    organizations: seq<OrgDto>,
    applications: seq<AppDto>,
    script: Script,
    trace: seq<Call>,
    visits: seq<Visit>)

  /** How a call of the reconciler ends: with Go's return values, through `log.Fatalln`, or with the script exhausted. */
  datatype Outcome<T> = Done(value: T) | Exited(error: Error) | Stalled

  datatype Step<T> = Step(outcome: Outcome<T>, server: Server)

  /** A call issued and its reply, if the script had one. */
  datatype Exchange<R> = Exchange(reply: Option<R>, server: Server)

  /**
   * What every operation of the reconciler keeps: calls and visits are only
   * appended, and a loaded cache is never written.
   */
  predicate Extends(s: Server, t: Server) {
    && s.trace <= t.trace
    && s.visits <= t.visits
    && (s.cacheLoaded ==> t.cacheLoaded && t.organizations == s.organizations && t.applications == s.applications)
  }

  /** The calls a cache load may add: none, the organization listing, or both listings. */
  predicate LoadCalls(before: seq<Call>, after: seq<Call>) {
    after == before || after == before + [ListOrganizations] || after == before + [ListOrganizations, ListApplications]
  }

  lemma ExtendsTransitive(s: Server, t: Server, w: Server)
    requires Extends(s, t) && Extends(t, w)
    ensures Extends(s, w)
  {
  }

  function Issue(s: Server, c: Call): (t: Server)
    ensures t.trace == s.trace + [c]
  {
    s.(trace := s.trace + [c])
  }

  function SendListOrganizations(s: Server): (x: Exchange<ListReply<OrgDto>>)
    ensures x.server.trace == s.trace + [ListOrganizations]
    ensures x.reply.Some? <==> |s.script.orgLists| > 0
    ensures x.reply.Some? ==> x.reply.value == s.script.orgLists[0]
    ensures Extends(s, x.server) && x.server.cacheLoaded == s.cacheLoaded
    ensures x.server.organizations == s.organizations && x.server.applications == s.applications
    ensures |s.script.orgLists| > 0 ==> x.server.script == s.script.(orgLists := s.script.orgLists[1..])
    ensures |s.script.orgLists| == 0 ==> x.server.script == s.script
  {
    var q := s.script.orgLists;
    var t := Issue(s, ListOrganizations);
    if |q| == 0 then Exchange(None, t)
    else Exchange(Some(q[0]), t.(script := t.script.(orgLists := q[1..])))
  }

  function SendListApplications(s: Server): (x: Exchange<ListReply<AppDto>>)
    ensures x.server.trace == s.trace + [ListApplications]
    ensures x.reply.Some? <==> |s.script.appLists| > 0
    ensures x.reply.Some? ==> x.reply.value == s.script.appLists[0]
    ensures Extends(s, x.server) && x.server.cacheLoaded == s.cacheLoaded
    ensures x.server.organizations == s.organizations && x.server.applications == s.applications
    ensures x.server.script.orgLists == s.script.orgLists
    ensures |s.script.appLists| > 0 ==> x.server.script == s.script.(appLists := s.script.appLists[1..])
    ensures |s.script.appLists| == 0 ==> x.server.script == s.script
  {
    var q := s.script.appLists;
    var t := Issue(s, ListApplications);
    if |q| == 0 then Exchange(None, t)
    else Exchange(Some(q[0]), t.(script := t.script.(appLists := q[1..])))
  }

  /** An SCM call of either kind, answered from the SCM queue. */
  function SendScm(s: Server, c: Call): (x: Exchange<ScmReply>)
    requires c.AddScm? || c.UpdateScm?
    ensures x.server.trace == s.trace + [c]
    ensures x.reply.Some? <==> |s.script.scmReplies| > 0
    ensures x.reply.Some? ==> x.reply.value == s.script.scmReplies[0]
    ensures Extends(s, x.server) && x.server.cacheLoaded == s.cacheLoaded
    ensures x.server.organizations == s.organizations && x.server.applications == s.applications
    ensures x.server.visits == s.visits
    ensures |s.script.scmReplies| > 0 ==> x.server.script == s.script.(scmReplies := s.script.scmReplies[1..])
    ensures |s.script.scmReplies| == 0 ==> x.server.script == s.script
  {
    var q := s.script.scmReplies;
    var t := Issue(s, c);
    if |q| == 0 then Exchange(None, t)
    else Exchange(Some(q[0]), t.(script := t.script.(scmReplies := q[1..])))
  }
}

=== FILE: reconcile.dfy ===
/**
 * The traversal of `NxiqServer` (`iq/server.go`): `ApplyOrgContents` walks
 * the discovered organizations, their applications and their direct
 * sub-organizations in order, creating or reusing each, and stops at the
 * first error. `createAppsInOrg` schedules a source-stage scan for every
 * application that came back with an SCM record.
 */
module Reconcile {
  import opened Wrappers
  import opened Unicode
  import opened ScmTypes
  import opened Gateway
  import opened Create

  /** The scan `scheduleSourceStageScan` asks for: the application's default branch on the "source" stage. */
  function ScanCall(app: AppDto, a: Application): Call {
    EvaluateSource(app.id, a.defaultBranch, "source")
  }

  /**
   * Every scan from position `from` on comes right after an SCM call, also
   * from position `from` on, for the same application.
   */
  predicate ScansFollowScm(calls: seq<Call>, from: nat) {
    forall i :: from <= i < |calls| && calls[i].EvaluateSource? ==>
      && from < i
      && IsScmCall(calls[i - 1])
      && calls[i - 1].owner == ApplicationOwner
      && calls[i - 1].ownerId == calls[i].applicationId
  }

  /** Appending calls that are not scans keeps every earlier scan right after its SCM call. */
  lemma ScansFollowScmExtend(t: seq<Call>, w: seq<Call>, from: nat)
    requires ScansFollowScm(t, from) && t <= w && NoScansFrom(w, |t|) && from <= |t|
    ensures ScansFollowScm(w, from)
  {
    forall i | from <= i < |w| && w[i].EvaluateSource?
      ensures from < i && IsScmCall(w[i - 1]) && w[i - 1].owner == ApplicationOwner && w[i - 1].ownerId == w[i].applicationId
    {
      assert i < |t| && t[i] == w[i];
      assert t[i - 1] == w[i - 1];
    }
  }

  /** A scan right after an SCM call for the same application keeps the property. */
  lemma ScansFollowScmScan(t: seq<Call>, from: nat, app: AppDto, a: Application)
    requires ScansFollowScm(t, from) && LastIsAppScm(t, from, app.id)
    ensures ScansFollowScm(t + [ScanCall(app, a)], from)
  {
    var w := t + [ScanCall(app, a)];
    forall i | from <= i < |w| && w[i].EvaluateSource?
      ensures from < i && IsScmCall(w[i - 1]) && w[i - 1].owner == ApplicationOwner && w[i - 1].ownerId == w[i].applicationId
    {
      if i < |t| {
        assert t[i] == w[i] && t[i - 1] == w[i - 1];
      }
    }
  }

  /** Scans that follow their SCM calls up to `t`, and from `t` on, follow them throughout. */
  lemma ScansFollowScmJoin(t: seq<Call>, w: seq<Call>, from: nat)
    requires ScansFollowScm(t, from) && t <= w && ScansFollowScm(w, |t|) && from <= |t|
    ensures ScansFollowScm(w, from)
  {
    forall i | from <= i < |w| && w[i].EvaluateSource?
      ensures from < i && IsScmCall(w[i - 1]) && w[i - 1].owner == ApplicationOwner && w[i - 1].ownerId == w[i].applicationId
    {
      if i < |t| {
        assert t[i] == w[i] && t[i - 1] == w[i - 1];
      }
    }
  }

  /** The visits `createAppsInOrg` makes when every application succeeds. */
  function AppVisits(apps: seq<Application>, orgId: string): (vs: seq<Visit>)
    ensures |vs| == |apps|
    ensures forall i :: 0 <= i < |apps| ==> vs[i] == AppVisit(apps[i], orgId)
  {
    seq(|apps|, i requires 0 <= i < |apps| => AppVisit(apps[i], orgId))
  }

  /** The visits of a non-empty list: its head's, then its tail's, appended to any log. */
  lemma AppVisitsCons(vs: seq<Visit>, apps: seq<Application>, orgId: string)
    requires |apps| > 0
    ensures AppVisits(apps, orgId) == [AppVisit(apps[0], orgId)] + AppVisits(apps[1..], orgId)
    ensures vs + AppVisits(apps, orgId) == (vs + [AppVisit(apps[0], orgId)]) + AppVisits(apps[1..], orgId)
  {
    var head := [AppVisit(apps[0], orgId)];
    var all := AppVisits(apps, orgId);
    var tail := AppVisits(apps[1..], orgId);
    assert all == head + tail by {
      forall i | 0 < i < |apps| ensures all[i] == (head + tail)[i] {
        assert tail[i - 1] == AppVisit(apps[1..][i - 1], orgId);
      }
    }
    AppendAssociates(vs, head, tail);
  }

  lemma AppendAssociates<T>(a: seq<T>, b: seq<T>, c: seq<T>)
    ensures a + (b + c) == (a + b) + c
  {
  }

  /**
   * The visits of the first application followed by a prefix of the visits
   * of the others are a prefix of the visits of all of them.
   */
  lemma AppVisitsStep(before: seq<Visit>, apps: seq<Application>, orgId: string, mid: seq<Visit>, after: seq<Visit>)
    requires |apps| > 0 && mid == before + [AppVisit(apps[0], orgId)]
    requires mid <= after && after[|mid|..] <= AppVisits(apps[1..], orgId)
    ensures after[|before|..] <= AppVisits(apps, orgId)
    ensures after == mid + AppVisits(apps[1..], orgId) ==> after == before + AppVisits(apps, orgId)
  {
    AppVisitsCons(before, apps, orgId);
    VisitThenMore(before, AppVisit(apps[0], orgId), after);
  }

  /** What a visit appended and later calls leave of the visit log after `before`. */
  lemma VisitThenMore<T>(before: seq<T>, x: T, after: seq<T>)
    requires before + [x] <= after
    ensures after[|before|..] == [x] + after[|before| + 1..]
  {
    assert after[|before|..][0] == x;
  }

  /**
   * One turn of `createAppsInOrg`'s loop: record the visit, create or
   * update the application and, when it came back with an SCM record,
   * schedule its scan.
   */
  function CreateAppStep(u: Tables, s: Server, orgId: string, a: Application): (r: Step<Option<Error>>)
    ensures Extends(s, r.server)
    ensures r.server.visits == s.visits + [AppVisit(a, orgId)]
    ensures ScansFollowScm(r.server.trace, |s.trace|)
    ensures var c := CreateApplication(u, s.(visits := s.visits + [AppVisit(a, orgId)]), a, orgId);
      c.outcome.Done? ==> r.outcome == Done(c.outcome.value.error)
    ensures var c := CreateApplication(u, s.(visits := s.visits + [AppVisit(a, orgId)]), a, orgId);
      c.outcome.Done? && c.outcome.value.error.Some? ==> r.server == c.server
  {
    var v := s.(visits := s.visits + [AppVisit(a, orgId)]);
    var c := CreateApplication(u, v, a, orgId);
    ScansFollowScmExtend(s.trace, c.server.trace, |s.trace|);
    ScheduleScan(s, c, a)
  }

  /**
   * The end of a turn of `createAppsInOrg`'s loop, given how the
   * application's creation or update `c` ended: an application that came
   * back with an SCM record has its scan scheduled right after that record.
   */
  function ScheduleScan(s: Server, c: Step<AppCreated>, a: Application): (r: Step<Option<Error>>)
    requires Extends(s, c.server) && ScansFollowScm(c.server.trace, |s.trace|)
    requires c.outcome.Done? && c.outcome.value.scm.Some? ==>
      c.outcome.value.app.Some? && LastIsAppScm(c.server.trace, |s.trace|, c.outcome.value.app.value.id)
    ensures Extends(s, r.server) && r.server.visits == c.server.visits
    ensures ScansFollowScm(r.server.trace, |s.trace|)
    ensures r.outcome.Done? <==> c.outcome.Done?
    ensures c.outcome.Done? ==> r.outcome == Done(c.outcome.value.error)
    ensures c.outcome.Exited? ==> r.outcome == Exited(c.outcome.error)
    ensures c.outcome.Stalled? ==> r.outcome == Stalled
    ensures c.outcome.Done? && c.outcome.value.scm.Some? && c.outcome.value.error.None? ==>
      r.server.trace == c.server.trace + [ScanCall(c.outcome.value.app.value, a)]
    ensures !(c.outcome.Done? && c.outcome.value.scm.Some? && c.outcome.value.error.None?) ==> r.server.trace == c.server.trace
  {
    match c.outcome
    case Exited(e) => Step(Exited(e), c.server)
    case Stalled => Step(Stalled, c.server)
    case Done(created) =>
      if created.error.Some? || created.scm.None? then Step(Done(created.error), c.server)
      else
        ScansFollowScmScan(c.server.trace, |s.trace|, created.app.value, a);
        Step(Done(None), Issue(c.server, ScanCall(created.app.value, a)))
  }

  /**
   * `createAppsInOrg`: create or update each application in order, under
   * `orgId`; the first error is returned and nothing after it is visited.
   */
  function CreateAppsInOrg(u: Tables, s: Server, orgId: string, apps: seq<Application>): (r: Step<Option<Error>>)
    ensures Extends(s, r.server)
    ensures r.server.visits[|s.visits|..] <= AppVisits(apps, orgId)
    ensures r.outcome == Done(None) ==> r.server.visits == s.visits + AppVisits(apps, orgId)
    ensures ScansFollowScm(r.server.trace, |s.trace|)
    decreases |apps|
  {
    if |apps| == 0 then
      assert s.visits + AppVisits(apps, orgId) == s.visits;
      Step(Done(None), s)
    else
      var t := CreateAppStep(u, s, orgId, apps[0]);
      AppVisitsStep(s.visits, apps, orgId, t.server.visits, t.server.visits);
      if t.outcome != Done(None) then t
      else
        var rest := CreateAppsInOrg(u, t.server, orgId, apps[1..]);
        ExtendsTransitive(s, t.server, rest.server);
        ScansFollowScmJoin(t.server.trace, rest.server.trace, |s.trace|);
        AppVisitsStep(s.visits, apps, orgId, t.server.visits, rest.server.visits);
        rest
  }

  /** A visit with the server-chosen ids left out: what `ApplyOrgContents` turns to, in order. */
  datatype Task = OrgTask(org: Organization, applyScm: bool) | AppTask(app: Application)

  function TaskOf(v: Visit): Task {
    match v
    case OrgVisit(o, _, applyScm) => OrgTask(o, applyScm)
    case AppVisit(a, _) => AppTask(a)
  }

  function Tasks(vs: seq<Visit>): (ts: seq<Task>)
    ensures |ts| == |vs|
    ensures forall i :: 0 <= i < |vs| ==> ts[i] == TaskOf(vs[i])
  {
    seq(|vs|, i requires 0 <= i < |vs| => TaskOf(vs[i]))
  }

  lemma TasksAppend(a: seq<Visit>, b: seq<Visit>)
    ensures Tasks(a + b) == Tasks(a) + Tasks(b)
  {
  }

  lemma TasksPrefix(a: seq<Visit>, b: seq<Visit>)
    requires a <= b
    ensures Tasks(a) <= Tasks(b)
  {
    assert Tasks(b)[..|a|] == Tasks(a);
  }

  function AppTasks(apps: seq<Application>): (ts: seq<Task>)
    ensures |ts| == |apps|
    ensures forall i :: 0 <= i < |apps| ==> ts[i] == AppTask(apps[i])
  {
    seq(|apps|, i requires 0 <= i < |apps| => AppTask(apps[i]))
  }

  lemma AppVisitsTasks(apps: seq<Application>, orgId: string)
    ensures Tasks(AppVisits(apps, orgId)) == AppTasks(apps)
  {
  }

  /** The order `ApplyOrgContents` visits direct sub-organizations in: each one, then its applications. */
  function SubSchedule(subs: seq<Organization>): seq<Task>
    decreases |subs|
  {
    if |subs| == 0 then []
    else [OrgTask(subs[0], false)] + AppTasks(subs[0].applications) + SubSchedule(subs[1..])
  }

  /**
   * The order `ApplyOrgContents` visits a tree in: each top-level
   * organization (with SCM applied), its applications, then its direct
   * sub-organizations; deeper organizations are never visited.
   */
  function Schedule(orgs: seq<Organization>): seq<Task>
    decreases |orgs|
  {
    if |orgs| == 0 then []
    else [OrgTask(orgs[0], true)] + AppTasks(orgs[0].applications) + SubSchedule(orgs[0].subOrganizations) + Schedule(orgs[1..])
  }

  /** A log that extends `a` is `a` followed by what came after it. */
  lemma PrefixThenRest<T>(a: seq<T>, b: seq<T>)
    requires a <= b
    ensures b == a + b[|a|..]
  {
  }

  /** The log after `a` and up to `c`, cut at `b`. */
  lemma SliceSplit<T>(a: seq<T>, b: seq<T>, c: seq<T>)
    requires a <= b <= c
    ensures c[|a|..] == b[|a|..] + c[|b|..]
  {
  }

  /**
   * A walk that stopped inside `x` went no further; one that finished `x`
   * went on into `y`.
   */
  lemma PrefixThen<T>(a: seq<T>, x: seq<T>, b: seq<T>, y: seq<T>)
    requires a <= x && b <= y && (|b| > 0 ==> a == x)
    ensures a + b <= x + y
  {
    if |b| > 0 {
      assert x + y == a + y;
    }
  }

  /** Visits made after `s` by a step ending in `t`. */
  function NewVisits(s: Server, t: Server): seq<Visit>
    requires s.visits <= t.visits
  {
    t.visits[|s.visits|..]
  }

  /**
   * The tasks after an organization's visit: the visit's own, then a
   * prefix of its applications', all of them when the visits made under
   * the organization are all of its applications' visits.
   */
  lemma OrganizationVisitTasks(before: seq<Visit>, visit: Visit, appVisits: seq<Visit>, after: seq<Visit>, apps: seq<Application>, orgId: string)
    requires after == before + [visit] + appVisits && appVisits <= AppVisits(apps, orgId)
    ensures Tasks(after[|before|..]) <= [TaskOf(visit)] + AppTasks(apps)
    ensures appVisits == AppVisits(apps, orgId) ==> Tasks(after[|before|..]) == [TaskOf(visit)] + AppTasks(apps)
  {
    assert after[|before|..] == [visit] + appVisits;
    TasksAppend([visit], appVisits);
    TasksPrefix(appVisits, AppVisits(apps, orgId));
    AppVisitsTasks(apps, orgId);
    PrefixThen([TaskOf(visit)], [TaskOf(visit)], Tasks(appVisits), AppTasks(apps));
  }

  /**
   * An organization's applications, once `CreateOrganization` answered
   * `c` after the organization's visit was recorded: an error ends the
   * walk, a success goes on with the applications under the organization's
   * id.
   */
  function OrganizationApps(u: Tables, s: Server, visit: Visit, c: Step<Created<OrgDto>>, apps: seq<Application>): (r: Step<Result<OrgDto, Error>>)
    requires Extends(s, c.server) && c.server.visits == s.visits + [visit]
    requires ScansFollowScm(c.server.trace, |s.trace|)
    requires c.outcome.Done? && c.outcome.value.error.None? ==> c.outcome.value.entity.Some?
    ensures Extends(s, r.server)
    ensures Tasks(NewVisits(s, r.server)) <= [TaskOf(visit)] + AppTasks(apps)
    ensures r.outcome.Done? && r.outcome.value.Success? ==> Tasks(NewVisits(s, r.server)) == [TaskOf(visit)] + AppTasks(apps)
    ensures ScansFollowScm(r.server.trace, |s.trace|)
    ensures c.outcome.Done? && c.outcome.value.error.Some? ==> r == Step(Done(Failure(c.outcome.value.error.value)), c.server)
    ensures c.outcome.Done? && c.outcome.value.error.None? ==>
      var org := c.outcome.value.entity.value;
      var a := CreateAppsInOrg(u, c.server, org.id, apps);
      && r.server == a.server && ErrorOf(r.outcome) == a.outcome
      && c.server.visits <= r.server.visits
      && r.server.visits[|c.server.visits|..] <= AppVisits(apps, org.id)
      && (r.outcome.Done? && r.outcome.value.Success? ==> r.outcome.value.value == org)
    ensures c.outcome.Exited? ==> r == Step(Exited(c.outcome.error), c.server)
    ensures c.outcome.Stalled? ==> r == Step(Stalled, c.server)
  {
    if c.outcome.Done? && c.outcome.value.error.None? then
      AppsUnder(u, s, visit, c.server, c.outcome.value.entity.value, apps)
    else
      OrganizationVisitTasks(s.visits, visit, [], c.server.visits, apps, "");
      var outcome := match c.outcome
        case Done(created) => Done(Failure(created.error.value))
        case Exited(e) => Exited(e)
        case Stalled => Stalled;
      Step(outcome, c.server)
  }

  /**
   * The applications of an organization `org` that was created or reused,
   * on the server `m` that left: they go under `org`'s id, and the walk
   * yields `org` when all of them succeed.
   */
  function AppsUnder(u: Tables, s: Server, visit: Visit, m: Server, org: OrgDto, apps: seq<Application>): (r: Step<Result<OrgDto, Error>>)
    requires Extends(s, m) && m.visits == s.visits + [visit]
    requires ScansFollowScm(m.trace, |s.trace|)
    ensures Extends(s, r.server)
    ensures Tasks(NewVisits(s, r.server)) <= [TaskOf(visit)] + AppTasks(apps)
    ensures r.outcome.Done? && r.outcome.value.Success? ==> Tasks(NewVisits(s, r.server)) == [TaskOf(visit)] + AppTasks(apps)
    ensures r.outcome.Done? && r.outcome.value.Success? ==> r.outcome.value.value == org
    ensures ScansFollowScm(r.server.trace, |s.trace|)
    ensures var a := CreateAppsInOrg(u, m, org.id, apps);
      r.server == a.server && ErrorOf(r.outcome) == a.outcome
    ensures m.visits <= r.server.visits && r.server.visits[|m.visits|..] <= AppVisits(apps, org.id)
  {
    var a := CreateAppsInOrg(u, m, org.id, apps);
    PrefixThenRest(m.visits, a.server.visits);
    OrganizationVisitTasks(s.visits, visit, NewVisits(m, a.server), a.server.visits, apps, org.id);
    ScansFollowScmJoin(m.trace, a.server.trace, |s.trace|);
    var outcome := match a.outcome
      case Done(None) => Done(Success(org))
      case Done(Some(e)) => Done(Failure(e))
      case Exited(e) => Exited(e)
      case Stalled => Stalled;
    Step(outcome, a.server)
  }

  /**
   * One sub-organization: record the visit, create or reuse it under
   * `parentId` without SCM configuration, then its applications.
   */
  function SubOrganizationStep(u: Tables, s: Server, so: Organization, parentId: string): (r: Step<Result<OrgDto, Error>>)
    ensures Extends(s, r.server)
    ensures Tasks(NewVisits(s, r.server)) <= [OrgTask(so, false)] + AppTasks(so.applications)
    ensures r.outcome.Done? && r.outcome.value.Success? ==> Tasks(NewVisits(s, r.server)) == [OrgTask(so, false)] + AppTasks(so.applications)
    ensures ScansFollowScm(r.server.trace, |s.trace|)
  {
    var visit := OrgVisit(so, parentId, false);
    var c := CreateOrganization(u, s.(visits := s.visits + [visit]), so, parentId, false, None);
    ScansFollowScmExtend(s.trace, c.server.trace, |s.trace|);
    OrganizationApps(u, s, visit, c, so.applications)
  }

  /** A walk that stopped inside `x` is a prefix of any walk that starts with `x`. */
  lemma PrefixGrow<T>(a: seq<T>, x: seq<T>, y: seq<T>)
    requires a <= x
    ensures a <= x + y
  {
    assert (x + y)[..|a|] == x[..|a|];
  }

  /**
   * The tasks of two steps in a row: a first step that did all of `x`,
   * then a second that did a prefix of `y` (all of it when it finished).
   */
  lemma StepTasks(before: seq<Visit>, mid: seq<Visit>, after: seq<Visit>, x: seq<Task>, y: seq<Task>)
    requires before <= mid <= after
    requires Tasks(mid[|before|..]) == x && Tasks(after[|mid|..]) <= y
    ensures Tasks(after[|before|..]) <= x + y
    ensures Tasks(after[|mid|..]) == y ==> Tasks(after[|before|..]) == x + y
  {
    SliceSplit(before, mid, after);
    TasksAppend(mid[|before|..], after[|mid|..]);
    PrefixThen(x, x, Tasks(after[|mid|..]), y);
  }

  /** Go's error return of a step that either yields a value or fails. */
  function ErrorOf<T>(o: Outcome<Result<T, Error>>): (r: Outcome<Option<Error>>)
    ensures r == Done(None) <==> o.Done? && o.value.Success?
  {
    match o
    case Done(Success(_)) => Done(None)
    case Done(Failure(e)) => Done(Some(e))
    case Exited(e) => Exited(e)
    case Stalled => Stalled
  }

  /**
   * The loop over the direct sub-organizations of one organization, all
   * created or reused under `parentId`: the first error ends it.
   */
  function ApplySubOrganizations(u: Tables, s: Server, subs: seq<Organization>, parentId: string): (r: Step<Option<Error>>)
    ensures Extends(s, r.server)
    ensures Tasks(NewVisits(s, r.server)) <= SubSchedule(subs)
    ensures r.outcome == Done(None) ==> Tasks(NewVisits(s, r.server)) == SubSchedule(subs)
    ensures ScansFollowScm(r.server.trace, |s.trace|)
    decreases |subs|
  {
    if |subs| == 0 then Step(Done(None), s)
    else
      var t := SubOrganizationStep(u, s, subs[0], parentId);
      var x := [OrgTask(subs[0], false)] + AppTasks(subs[0].applications);
      if ErrorOf(t.outcome) != Done(None) then
        PrefixGrow(Tasks(NewVisits(s, t.server)), x, SubSchedule(subs[1..]));
        Step(ErrorOf(t.outcome), t.server)
      else
        var rest := ApplySubOrganizations(u, t.server, subs[1..], parentId);
        ExtendsTransitive(s, t.server, rest.server);
        StepTasks(s.visits, t.server.visits, rest.server.visits, x, SubSchedule(subs[1..]));
        ScansFollowScmJoin(t.server.trace, rest.server.trace, |s.trace|);
        rest
  }

  /** The tasks of a top-level organization: itself with SCM, its applications, its direct sub-organizations. */
  function OrganizationSchedule(o: Organization): seq<Task> {
    [OrgTask(o, true)] + AppTasks(o.applications) + SubSchedule(o.subOrganizations)
  }

  /**
   * A top-level organization after it and its applications were handled
   * (`a`): on success, its direct sub-organizations under its id.
   */
  function SubOrganizationsAfter(u: Tables, s: Server, o: Organization, a: Step<Result<OrgDto, Error>>): (r: Step<Option<Error>>)
    requires Extends(s, a.server) && ScansFollowScm(a.server.trace, |s.trace|)
    requires Tasks(NewVisits(s, a.server)) <= [OrgTask(o, true)] + AppTasks(o.applications)
    requires a.outcome.Done? && a.outcome.value.Success? ==> Tasks(NewVisits(s, a.server)) == [OrgTask(o, true)] + AppTasks(o.applications)
    ensures Extends(s, r.server)
    ensures Tasks(NewVisits(s, r.server)) <= OrganizationSchedule(o)
    ensures r.outcome == Done(None) ==> Tasks(NewVisits(s, r.server)) == OrganizationSchedule(o)
    ensures ScansFollowScm(r.server.trace, |s.trace|)
    ensures ErrorOf(a.outcome) != Done(None) ==> r == Step(ErrorOf(a.outcome), a.server)
    ensures ErrorOf(a.outcome) == Done(None) ==>
      r == ApplySubOrganizations(u, a.server, o.subOrganizations, a.outcome.value.value.id)
  {
    var x := [OrgTask(o, true)] + AppTasks(o.applications);
    if ErrorOf(a.outcome) != Done(None) then
      PrefixGrow(Tasks(NewVisits(s, a.server)), x, SubSchedule(o.subOrganizations));
      Step(ErrorOf(a.outcome), a.server)
    else
      var rest := ApplySubOrganizations(u, a.server, o.subOrganizations, a.outcome.value.value.id);
      ExtendsTransitive(s, a.server, rest.server);
      StepTasks(s.visits, a.server.visits, rest.server.visits, x, SubSchedule(o.subOrganizations));
      ScansFollowScmJoin(a.server.trace, rest.server.trace, |s.trace|);
      rest
  }

  /**
   * One top-level organization: record the visit, create or reuse it under
   * the root with the SCM configuration applied, then its applications,
   * then its direct sub-organizations.
   */
  function TopOrganizationStep(u: Tables, s: Server, o: Organization, rootId: string, cfg: ScmConfiguration): (r: Step<Option<Error>>)
    ensures Extends(s, r.server)
    ensures Tasks(NewVisits(s, r.server)) <= OrganizationSchedule(o)
    ensures r.outcome == Done(None) ==> Tasks(NewVisits(s, r.server)) == OrganizationSchedule(o)
    ensures ScansFollowScm(r.server.trace, |s.trace|)
  {
    var visit := OrgVisit(o, rootId, true);
    var c := CreateOrganization(u, s.(visits := s.visits + [visit]), o, rootId, true, Some(cfg));
    ScansFollowScmExtend(s.trace, c.server.trace, |s.trace|);
    var a := OrganizationApps(u, s, visit, c, o.applications);
    SubOrganizationsAfter(u, s, o, a)
  }

  /** The loop over the top-level organizations: the first error ends it. */
  function ApplyOrganizations(u: Tables, s: Server, orgs: seq<Organization>, rootId: string, cfg: ScmConfiguration): (r: Step<Option<Error>>)
    ensures Extends(s, r.server)
    ensures Tasks(NewVisits(s, r.server)) <= Schedule(orgs)
    ensures r.outcome == Done(None) ==> Tasks(NewVisits(s, r.server)) == Schedule(orgs)
    ensures ScansFollowScm(r.server.trace, |s.trace|)
    decreases |orgs|
  {
    if |orgs| == 0 then Step(Done(None), s)
    else
      var t := TopOrganizationStep(u, s, orgs[0], rootId, cfg);
      assert Schedule(orgs) == OrganizationSchedule(orgs[0]) + Schedule(orgs[1..]);
      if t.outcome != Done(None) then
        PrefixGrow(Tasks(NewVisits(s, t.server)), OrganizationSchedule(orgs[0]), Schedule(orgs[1..]));
        t
      else
        var rest := ApplyOrganizations(u, t.server, orgs[1..], rootId, cfg);
        ExtendsTransitive(s, t.server, rest.server);
        StepTasks(s.visits, t.server.visits, rest.server.visits, OrganizationSchedule(orgs[0]), Schedule(orgs[1..]));
        ScansFollowScmJoin(t.server.trace, rest.server.trace, |s.trace|);
        rest
  }

  /**
   * `createAppsInOrg` returns as soon as one application fails: the result
   * is that application's step, and nothing after it is visited. An
   * application that succeeds hands the server on to the rest.
   */
  lemma AppsStopAtFirstError(u: Tables, s: Server, orgId: string, apps: seq<Application>)
    requires |apps| > 0
    ensures var t := CreateAppStep(u, s, orgId, apps[0]);
      t.outcome != Done(None) ==> CreateAppsInOrg(u, s, orgId, apps) == t
    ensures var t := CreateAppStep(u, s, orgId, apps[0]);
      t.outcome == Done(None) ==> CreateAppsInOrg(u, s, orgId, apps) == CreateAppsInOrg(u, t.server, orgId, apps[1..])
  {
  }

  /**
   * An error from `CreateApplication` ends `createAppsInOrg` at once: it is
   * the loop's result, no scan follows, and no later application is
   * visited.
   */
  lemma AppsReturnFirstError(u: Tables, s: Server, orgId: string, apps: seq<Application>)
    requires |apps| > 0
    ensures var c := CreateApplication(u, s.(visits := s.visits + [AppVisit(apps[0], orgId)]), apps[0], orgId);
      c.outcome.Done? && c.outcome.value.error.Some? ==>
        CreateAppsInOrg(u, s, orgId, apps) == Step(Done(c.outcome.value.error), c.server)
  {
    AppsStopAtFirstError(u, s, orgId, apps);
  }

  /**
   * The sub-organization loop returns the first sub-organization's error
   * (or exit) at once, on the server that sub-organization left; one that
   * succeeds hands the server on to its siblings.
   */
  lemma SubOrganizationsStopAtFirstError(u: Tables, s: Server, subs: seq<Organization>, parentId: string)
    requires |subs| > 0
    ensures var t := SubOrganizationStep(u, s, subs[0], parentId);
      ErrorOf(t.outcome) != Done(None) ==> ApplySubOrganizations(u, s, subs, parentId) == Step(ErrorOf(t.outcome), t.server)
    ensures var t := SubOrganizationStep(u, s, subs[0], parentId);
      ErrorOf(t.outcome) == Done(None) ==> ApplySubOrganizations(u, s, subs, parentId) == ApplySubOrganizations(u, t.server, subs[1..], parentId)
  {
  }

  /**
   * The top-level loop returns as soon as one organization's step does not
   * end in `Done(None)`: the later organizations are not visited.
   */
  lemma OrganizationsStopAtFirstError(u: Tables, s: Server, orgs: seq<Organization>, rootId: string, cfg: ScmConfiguration)
    requires |orgs| > 0
    ensures var t := TopOrganizationStep(u, s, orgs[0], rootId, cfg);
      t.outcome != Done(None) ==> ApplyOrganizations(u, s, orgs, rootId, cfg) == t
    ensures var t := TopOrganizationStep(u, s, orgs[0], rootId, cfg);
      t.outcome == Done(None) ==> ApplyOrganizations(u, s, orgs, rootId, cfg) == ApplyOrganizations(u, t.server, orgs[1..], rootId, cfg)
  {
  }

  /**
   * `ApplyOrgContents`: every discovered top-level organization under the
   * root organization `rootId`, with the SCM configuration `cfg` applied
   * to those organizations only.
   */
  function ApplyOrgContents(u: Tables, s: Server, contents: OrgContents, rootId: string, cfg: ScmConfiguration): (r: Step<Option<Error>>)
    ensures Extends(s, r.server)
    ensures Tasks(NewVisits(s, r.server)) <= Schedule(contents.organizations)
    ensures r.outcome == Done(None) ==> Tasks(NewVisits(s, r.server)) == Schedule(contents.organizations)
    ensures ScansFollowScm(r.server.trace, |s.trace|)
  {
    ApplyOrganizations(u, s, contents.organizations, rootId, cfg)
  }

  /**
   * A scan is scheduled for an application exactly when `CreateApplication`
   * returned it with an SCM record, right after that call; an application
   * failing a gate gets neither an SCM call nor a scan.
   */
  lemma CreateAppStepScans(u: Tables, s: Server, orgId: string, a: Application)
    ensures var c := CreateApplication(u, s.(visits := s.visits + [AppVisit(a, orgId)]), a, orgId);
      var r := CreateAppStep(u, s, orgId, a);
      c.outcome.Done? && c.outcome.value.error.None? ==>
        && r.outcome == Done(None)
        && r.server.trace == c.server.trace + if c.outcome.value.scm.Some? then [ScanCall(c.outcome.value.app.value, a)] else []
    ensures !ScmPermitted(a) ==>
      var r := CreateAppStep(u, s, orgId, a);
      NoScansFrom(r.server.trace, |s.trace|) && NoScmFrom(r.server.trace, |s.trace|)
  {
  }

  /**
   * When the first top-level organization cannot be created or configured,
   * its error is returned at once: none of its applications, its
   * sub-organizations or the later organizations is visited.
   */
  lemma FirstOrganizationFails(u: Tables, s: Server, contents: OrgContents, rootId: string, cfg: ScmConfiguration, err: Error)
    requires |contents.organizations| > 0
    requires var o := contents.organizations[0];
      var c := CreateOrganization(u, s.(visits := s.visits + [OrgVisit(o, rootId, true)]), o, rootId, true, Some(cfg));
      c.outcome.Done? && c.outcome.value.error == Some(err)
    ensures var o := contents.organizations[0];
      var c := CreateOrganization(u, s.(visits := s.visits + [OrgVisit(o, rootId, true)]), o, rootId, true, Some(cfg));
      ApplyOrgContents(u, s, contents, rootId, cfg) == Step(Done(Some(err)), c.server)
  {
  }

  /**
   * An error from `CreateApplication` for the first application of the
   * first organization ends the whole walk: nothing after it is visited,
   * and the error is the walk's result.
   */
  lemma FirstApplicationFails(u: Tables, s: Server, contents: OrgContents, rootId: string, cfg: ScmConfiguration, err: Error)
    requires |contents.organizations| > 0 && |contents.organizations[0].applications| > 0
    requires var o := contents.organizations[0];
      var c := CreateOrganization(u, s.(visits := s.visits + [OrgVisit(o, rootId, true)]), o, rootId, true, Some(cfg));
      c.outcome.Done? && c.outcome.value.error.None?
    requires var o := contents.organizations[0];
      var c := CreateOrganization(u, s.(visits := s.visits + [OrgVisit(o, rootId, true)]), o, rootId, true, Some(cfg));
      var orgId := c.outcome.value.entity.value.id;
      var a := CreateApplication(u, c.server.(visits := c.server.visits + [AppVisit(o.applications[0], orgId)]), o.applications[0], orgId);
      a.outcome.Done? && a.outcome.value.error == Some(err)
    ensures var o := contents.organizations[0];
      var c := CreateOrganization(u, s.(visits := s.visits + [OrgVisit(o, rootId, true)]), o, rootId, true, Some(cfg));
      var orgId := c.outcome.value.entity.value.id;
      var a := CreateApplication(u, c.server.(visits := c.server.visits + [AppVisit(o.applications[0], orgId)]), o.applications[0], orgId);
      ApplyOrgContents(u, s, contents, rootId, cfg) == Step(Done(Some(err)), a.server)
  {
  }
}

=== FILE: retry.dfy ===
/**
 * The create-with-retry loop shared by `createOrganization` and
 * `createApplication` in `iq/server.go`: after each reply the loop either
 * renames and tries again (a collision), gives up (an error from the third
 * attempt on), accepts (HTTP 200), or tries again unchanged.
 */
module Retry {
  import opened Wrappers
  import opened Gateway

  /** What the loop makes of the reply to a given attempt (attempts count from 1). */
  datatype Verdict = Bump | Again | Fail | Accept

  function Judge<T>(r: CreateReply<T>, attempt: nat, collision: string -> bool): Verdict {
    if r.status == 400 && collision(r.body) then Bump
    else if attempt > 2 && r.err.Some? then Fail
    else if r.status == 200 then Accept
    else Again
  }

  predicate Stops(v: Verdict) {
    v == Fail || v == Accept
  }

  /**
   * A run of the loop: its result (`None` when the replies ran out, i.e. a
   * call went unanswered), the request sent on each attempt, and how many
   * replies it consumed.
   */
  datatype Run<T, N> = Run(result: Option<Result<T, Error>>, requests: seq<N>, consumed: nat)

  /**
   * The loop, `done` attempts already made and `current` about to be sent;
   * `bump(k)` is the request that follows a collision on attempt `k`.
   */
  function Loop<T, N>(replies: seq<CreateReply<T>>, done: nat, current: N, bump: nat -> N, collision: string -> bool): (r: Run<T, N>)
    ensures r.consumed <= |replies|
    ensures |r.requests| == (if r.result.None? then r.consumed + 1 else r.consumed)
    ensures |r.requests| > 0 && r.requests[0] == current
    ensures r.result.None? ==> r.consumed == |replies|
    ensures r.result.Some? ==> r.consumed > 0
    decreases |replies|
  {
    if |replies| == 0 then Run(None, [current], 0)
    else
      var attempt := done + 1;
      var v := Judge(replies[0], attempt, collision);
      if v == Accept then Run(Some(Success(replies[0].entity)), [current], 1)
      else if v == Fail then Run(Some(Failure(replies[0].err.value)), [current], 1)
      else
        var next := if v == Bump then bump(attempt) else current;
        var rest := Loop(replies[1..], attempt, next, bump, collision);
        Run(rest.result, [current] + rest.requests, rest.consumed + 1)
  }

  /** The loop is left without a reply exactly when no reply stops it. */
  lemma {:induction false} LoopUnanswered<T, N>(replies: seq<CreateReply<T>>, done: nat, current: N, bump: nat -> N, collision: string -> bool)
    ensures Loop(replies, done, current, bump, collision).result.None? <==>
      forall j :: 0 <= j < |replies| ==> !Stops(Judge(replies[j], done + j + 1, collision))
    decreases |replies|
  {
    if |replies| > 0 {
      var v := Judge(replies[0], done + 1, collision);
      if !Stops(v) {
        var next := if v == Bump then bump(done + 1) else current;
        LoopUnanswered(replies[1..], done + 1, next, bump, collision);
        forall j | 1 <= j < |replies| ensures replies[j] == replies[1..][j - 1] {
        }
      }
    }
  }

  /**
   * Reply `n` (counting from 1) is the first that stops the loop, when
   * `done` attempts came before the first reply.
   */
  predicate FirstStopAt<T>(replies: seq<CreateReply<T>>, done: nat, n: nat, collision: string -> bool) {
    && 0 < n <= |replies|
    && Stops(Judge(replies[n - 1], done + n, collision))
    && forall j :: 0 <= j < n - 1 ==> !Stops(Judge(replies[j], done + j + 1, collision))
  }

  /**
   * The loop runs until the first reply that stops it: when it ends with a
   * result, it consumed the replies up to and including the first stopping
   * one, whose verdict decides the result.
   */
  lemma {:induction false} LoopStopsAtFirst<T, N>(replies: seq<CreateReply<T>>, done: nat, current: N, bump: nat -> N, collision: string -> bool)
    ensures var r := Loop(replies, done, current, bump, collision);
      r.result.Some? ==> FirstStopAt(replies, done, r.consumed, collision)
    decreases |replies|
  {
    if |replies| > 0 {
      var v := Judge(replies[0], done + 1, collision);
      if !Stops(v) {
        var next := if v == Bump then bump(done + 1) else current;
        LoopStopsAtFirst(replies[1..], done + 1, next, bump, collision);
        LoopAgain(replies, done, current, bump, collision);
        var rest := Loop(replies[1..], done + 1, next, bump, collision);
        if rest.result.Some? {
          FirstStopShifted(replies, done, rest.consumed, collision);
        }
      }
    }
  }

  /** A first reply that does not stop the loop moves the first stop one place on. */
  lemma FirstStopShifted<T>(replies: seq<CreateReply<T>>, done: nat, n: nat, collision: string -> bool)
    requires |replies| > 0 && !Stops(Judge(replies[0], done + 1, collision))
    requires FirstStopAt(replies[1..], done + 1, n, collision)
    ensures FirstStopAt(replies, done, n + 1, collision)
  {
    assert replies[n] == replies[1..][n - 1];
    assert done + (n + 1) == (done + 1) + n;
    forall j | 0 < j < n ensures !Stops(Judge(replies[j], done + j + 1, collision)) {
      assert replies[j] == replies[1..][j - 1];
      assert (done + 1) + (j - 1) + 1 == done + j + 1;
    }
  }

  /** A reply that does not stop the loop hands the next request on to the loop over the remaining replies. */
  lemma LoopAgain<T, N>(replies: seq<CreateReply<T>>, done: nat, current: N, bump: nat -> N, collision: string -> bool)
    requires |replies| > 0 && !Stops(Judge(replies[0], done + 1, collision))
    ensures var v := Judge(replies[0], done + 1, collision);
      var rest := Loop(replies[1..], done + 1, if v == Bump then bump(done + 1) else current, bump, collision);
      var r := Loop(replies, done, current, bump, collision);
      r.result == rest.result && r.consumed == rest.consumed + 1 && r.requests == [current] + rest.requests
  {
  }

  /**
   * The result is that of the stopping reply: acceptance returns its
   * entity after an HTTP 200; failure returns its error, and only from the
   * third attempt on and never on a collision.
   */
  lemma {:induction false} LoopResult<T, N>(replies: seq<CreateReply<T>>, done: nat, current: N, bump: nat -> N, collision: string -> bool)
    ensures var r := Loop(replies, done, current, bump, collision);
      r.result.Some? ==> 0 < r.consumed && ResultFrom(replies[r.consumed - 1], done + r.consumed, r.result.value, collision)
    decreases |replies|
  {
    if |replies| > 0 {
      var v := Judge(replies[0], done + 1, collision);
      if !Stops(v) {
        var next := if v == Bump then bump(done + 1) else current;
        LoopResult(replies[1..], done + 1, next, bump, collision);
        LoopAgain(replies, done, current, bump, collision);
        var r := Loop(replies[1..], done + 1, next, bump, collision);
        if r.result.Some? {
          assert replies[r.consumed] == replies[1..][r.consumed - 1];
          assert done + r.consumed + 1 == (done + 1) + r.consumed;
        }
      }
    }
  }

  /**
   * The result `result` taken from the reply `last` to attempt `attempt`:
   * never a collision; an accepted entity after an HTTP 200; a failure
   * only from the third attempt on, carrying the client's error; and
   * acceptance exactly when the reply is judged `Accept`.
   */
  ghost predicate ResultFrom<T>(last: CreateReply<T>, attempt: nat, result: Result<T, Error>, collision: string -> bool) {
    && !(last.status == 400 && collision(last.body))
    && (result.Success? ==> last.status == 200 && result.value == last.entity)
    && (result.Failure? ==> attempt > 2 && last.err == Some(result.error))
    && (result.Success? <==> Judge(last, attempt, collision) == Accept)
  }

  /**
   * The request of attempt `i + 1`: renamed by `bump` when attempt `i`
   * collided, the same as attempt `i`'s otherwise.
   */
  ghost predicate RenamedAfter<T, N>(requests: seq<N>, replies: seq<CreateReply<T>>, done: nat, bump: nat -> N, collision: string -> bool, i: nat)
    requires 0 < i < |requests| && i <= |replies|
  {
    requests[i] == if Judge(replies[i - 1], done + i, collision) == Bump then bump(done + i) else requests[i - 1]
  }

  ghost predicate RequestsFollow<T, N>(requests: seq<N>, replies: seq<CreateReply<T>>, done: nat, bump: nat -> N, collision: string -> bool) {
    forall i :: 0 < i < |requests| ==> i <= |replies| && RenamedAfter(requests, replies, done, bump, collision, i)
  }

  lemma {:induction false} LoopRequests<T, N>(replies: seq<CreateReply<T>>, done: nat, current: N, bump: nat -> N, collision: string -> bool)
    ensures RequestsFollow(Loop(replies, done, current, bump, collision).requests, replies, done, bump, collision)
    decreases |replies|
  {
    if |replies| > 0 {
      var v := Judge(replies[0], done + 1, collision);
      if !Stops(v) {
        var next := if v == Bump then bump(done + 1) else current;
        LoopRequests(replies[1..], done + 1, next, bump, collision);
        var rest := Loop(replies[1..], done + 1, next, bump, collision);
        var r := Loop(replies, done, current, bump, collision);
        LoopAgain(replies, done, current, bump, collision);
        assert RequestsFollow(rest.requests, replies[1..], done + 1, bump, collision);
        forall i | 0 < i < |r.requests|
          ensures i <= |replies| && RenamedAfter(r.requests, replies, done, bump, collision, i)
        {
          if i == 1 {
            assert r.requests[1] == rest.requests[0];
          } else {
            assert RenamedAfter(rest.requests, replies[1..], done + 1, bump, collision, i - 1);
            assert replies[i - 1] == replies[1..][i - 2];
            assert r.requests[i] == rest.requests[i - 1] && r.requests[i - 1] == rest.requests[i - 2];
          }
        }
      }
    }
  }

  /** Two collisions and then a clean HTTP 200: three attempts, the second and third renamed by the attempt before them. */
  lemma TwoCollisionsThenAccept<T, N>(replies: seq<CreateReply<T>>, x: N, bump: nat -> N, collision: string -> bool)
    requires |replies| >= 3
    requires replies[0].status == 400 && collision(replies[0].body)
    requires replies[1].status == 400 && collision(replies[1].body)
    requires replies[2].status == 200 && replies[2].err.None?
    ensures Loop(replies, 0, x, bump, collision) == Run(Some(Success(replies[2].entity)), [x, bump(1), bump(2)], 3)
  {
    var third := Loop(replies[2..], 2, bump(2), bump, collision);
    assert third == Run(Some(Success(replies[2].entity)), [bump(2)], 1);
    assert replies[1..][1..] == replies[2..];
    var second := Loop(replies[1..], 1, bump(1), bump, collision);
    assert second == Run(Some(Success(replies[2].entity)), [bump(1), bump(2)], 2);
  }

  /**
   * Three replies that are errors but not collisions or HTTP 200: the same
   * request three times, then the third error; the fourth reply is left.
   */
  lemma ThreeErrorsGiveUp<T, N>(replies: seq<CreateReply<T>>, x: N, bump: nat -> N, collision: string -> bool)
    requires |replies| >= 3
    requires forall j :: 0 <= j < 3 ==>
      replies[j].err.Some? && replies[j].status != 200 && !(replies[j].status == 400 && collision(replies[j].body))
    ensures Loop(replies, 0, x, bump, collision) == Run(Some(Failure(replies[2].err.value)), [x, x, x], 3)
  {
    var third := Loop(replies[2..], 2, x, bump, collision);
    assert third == Run(Some(Failure(replies[2].err.value)), [x], 1);
    assert replies[1..][1..] == replies[2..];
    var second := Loop(replies[1..], 1, x, bump, collision);
    assert second == Run(Some(Failure(replies[2].err.value)), [x, x], 2);
  }

  /** An HTTP 200 on the first attempt is accepted, even when the client also reported an error. */
  lemma EarlyAcceptIgnoresError<T, N>(replies: seq<CreateReply<T>>, x: N, bump: nat -> N, collision: string -> bool)
    requires |replies| >= 1 && replies[0].status == 200
    ensures Loop(replies, 0, x, bump, collision) == Run(Some(Success(replies[0].entity)), [x], 1)
  {
  }

  /** Collisions alone never end the loop: a script of nothing but collisions leaves the last request unanswered. */
  lemma {:induction false} CollisionsNeverStop<T, N>(replies: seq<CreateReply<T>>, done: nat, x: N, bump: nat -> N, collision: string -> bool)
    requires forall j :: 0 <= j < |replies| ==> replies[j].status == 400 && collision(replies[j].body)
    ensures Loop(replies, done, x, bump, collision).result.None?
    ensures Loop(replies, done, x, bump, collision).consumed == |replies|
    decreases |replies|
  {
    if |replies| > 0 {
      assert forall j :: 0 <= j < |replies[1..]| ==> replies[1..][j] == replies[j + 1];
      CollisionsNeverStop(replies[1..], done + 1, bump(done + 1), bump, collision);
    }
  }
}

=== FILE: sanitizer.dfy ===
/**
 * The name sanitizer of `scm/types.go`: `safeName` and the application
 * public id derived from it.
 *
 * `safeName` applies four steps in order: `strings.TrimSpace`, every tab
 * becomes `-`, every character outside the allowlist `[\pL\pN._,\-\s]`
 * becomes `-`, and every run of two or more `\s` characters becomes one `-`.
 */
module Sanitizer {
  import opened Unicode
  import opened Text

  /** The characters the allowlist pattern `[^\pL\pN._,\-\s]` does not match. */
  predicate IsAllowed(u: Tables, c: char) {
    IsLetter(u, c) || IsNumber(u, c) || c == '.' || c == '_' || c == ',' || c == '-' || IsRegexSpace(c)
  }

  function TabToDash(c: char): char {
    if c == '\t' then '-' else c
  }

  function SpaceToDash(c: char): char {
    if c == ' ' then '-' else c
  }

  /** Step 2: `strings.ReplaceAll(s, "\t", "-")`. */
  function ReplaceTabs(s: string): (r: string)
    ensures |r| == |s|
    ensures forall i :: 0 <= i < |s| ==> r[i] == (if s[i] == '\t' then '-' else s[i])
  {
    Map(TabToDash, s)
  }

  /** A string without tabs is left alone by the tab step. */
  lemma ReplaceTabsNoTab(s: string)
    requires forall i :: 0 <= i < |s| ==> s[i] != '\t'
    ensures ReplaceTabs(s) == s
  {
  }

  /** Step 3: every character outside the allowlist becomes exactly one `-`; the rest stay in place. */
  function ReplaceDisallowed(u: Tables, s: string): (r: string)
    ensures |r| == |s|
    ensures forall i :: 0 <= i < |s| ==> r[i] == (if IsAllowed(u, s[i]) then s[i] else '-')
  {
    Map(c => if IsAllowed(u, c) then c else '-', s)
  }

  /** A string of allowed characters is left alone by the allowlist step. */
  lemma ReplaceDisallowedAllowed(u: Tables, s: string)
    requires forall i :: 0 <= i < |s| ==> IsAllowed(u, s[i])
    ensures ReplaceDisallowed(u, s) == s
  {
  }

  /** Length of the run of `\s` characters that `s` starts with. */
  function SpaceRun(s: string): (n: nat)
    ensures n <= |s|
    ensures forall i :: 0 <= i < n ==> IsRegexSpace(s[i])
    ensures n < |s| ==> !IsRegexSpace(s[n])
  {
    if |s| > 0 && IsRegexSpace(s[0]) then 1 + SpaceRun(s[1..]) else 0
  }

  /** The characters at `i - 1` and `i` are both `\s`. */
  predicate SpacePairAt(s: string, i: nat)
    requires 0 < i < |s|
  {
    IsRegexSpace(s[i - 1]) && IsRegexSpace(s[i])
  }

  /** No two neighbouring characters are both `\s`. */
  predicate NoAdjacentSpaces(s: string) {
    forall i :: 0 < i < |s| ==> !SpacePairAt(s, i)
  }

  /**
   * Step 4: `\s(\s+)` replaced by `-`. The leftmost-first greedy scan takes
   * a whole run of two or more `\s` at once and steps over everything else.
   */
  function CollapseSpaces(s: string): (r: string)
    ensures |r| <= |s|
    decreases |s|
  {
    if |s| == 0 then []
    else if |s| >= 2 && IsRegexSpace(s[0]) && IsRegexSpace(s[1]) then "-" + CollapseSpaces(s[SpaceRun(s)..])
    else [s[0]] + CollapseSpaces(s[1..])
  }

  /** Collapsing keeps a first or last character that is not whitespace. */
  lemma {:induction false} CollapseSpacesEnds(s: string)
    ensures |s| > 0 && !IsRegexSpace(s[0]) ==> |CollapseSpaces(s)| > 0 && CollapseSpaces(s)[0] == s[0]
    ensures |s| > 0 && !IsRegexSpace(s[|s| - 1]) ==> |CollapseSpaces(s)| > 0 && CollapseSpaces(s)[|CollapseSpaces(s)| - 1] == s[|s| - 1]
    decreases |s|
  {
    if |s| > 0 {
      var run := |s| >= 2 && IsRegexSpace(s[0]) && IsRegexSpace(s[1]);
      var rest := if run then s[SpaceRun(s)..] else s[1..];
      CollapseSpacesEnds(rest);
      if |rest| > 0 {
        assert rest[|rest| - 1] == s[|s| - 1];
      }
    }
  }

  /** After collapsing, no two neighbouring characters are both whitespace. */
  lemma {:induction false} CollapseSpacesNoAdjacent(s: string)
    ensures NoAdjacentSpaces(CollapseSpaces(s))
    decreases |s|
  {
    if |s| > 0 {
      var run := |s| >= 2 && IsRegexSpace(s[0]) && IsRegexSpace(s[1]);
      var head := if run then "-" else [s[0]];
      var rest := if run then s[SpaceRun(s)..] else s[1..];
      var r' := CollapseSpaces(rest);
      CollapseSpacesNoAdjacent(rest);
      assert CollapseSpaces(s) == head + r';
      forall i | 0 < i < |head + r'| ensures !SpacePairAt(head + r', i) {
        if i > 1 {
          assert !SpacePairAt(r', i - 1);
        }
      }
    }
  }

  /**
   * The shape of every sanitized name: no surrounding space, only allowed
   * characters, no tab, no two neighbouring whitespace characters.
   */
  predicate Clean(u: Tables, s: string) {
    && (|s| > 0 ==> !IsSpace(s[0]) && !IsSpace(s[|s| - 1]))
    && (forall i :: 0 <= i < |s| ==> IsAllowed(u, s[i]) && s[i] != '\t')
    && NoAdjacentSpaces(s)
  }

  /** `safeName`: trim, tabs to `-`, disallowed characters to `-`, runs of whitespace to `-`. */
  function SafeName(u: Tables, s: string): (r: string)
    ensures |r| <= |s|
  {
    CollapseSpaces(ReplaceDisallowed(u, ReplaceTabs(TrimSpace(s))))
  }

  /** Every sanitized name is clean. */
  lemma SafeNameClean(u: Tables, s: string)
    ensures Clean(u, SafeName(u, s))
  {
    var t := TrimSpace(s);
    ReplacedShape(u, t);
    CleanAfterCollapse(u, ReplaceDisallowed(u, ReplaceTabs(t)));
  }

  /** Collapsing allowed, tab-free characters with non-space ends gives a clean name. */
  lemma CleanAfterCollapse(u: Tables, d: string)
    requires forall i :: 0 <= i < |d| ==> IsAllowed(u, d[i]) && d[i] != '\t'
    requires |d| > 0 ==> !IsSpace(d[0]) && !IsSpace(d[|d| - 1])
    ensures Clean(u, CollapseSpaces(d))
  {
    var r := CollapseSpaces(d);
    CollapseSpacesEnds(d);
    CollapseSpacesNoAdjacent(d);
    AllowedAfterCollapse(u, d);
    assert |d| > 0 ==> !IsRegexSpace(d[0]) && !IsRegexSpace(d[|d| - 1]);
  }

  /** Collapsing keeps every character allowed and tab-free, since `-` is both. */
  lemma {:induction false} AllowedAfterCollapse(u: Tables, d: string)
    requires forall i :: 0 <= i < |d| ==> IsAllowed(u, d[i]) && d[i] != '\t'
    ensures forall i :: 0 <= i < |CollapseSpaces(d)| ==> IsAllowed(u, CollapseSpaces(d)[i]) && CollapseSpaces(d)[i] != '\t'
    decreases |d|
  {
    if |d| >= 2 && IsRegexSpace(d[0]) && IsRegexSpace(d[1]) {
      AllowedAfterCollapse(u, d[SpaceRun(d)..]);
    } else if |d| > 0 {
      AllowedAfterCollapse(u, d[1..]);
    }
  }

  /**
   * After the tab and allowlist steps every character is allowed and no tab
   * is left, and the ends of a trimmed string are still not spaces.
   */
  lemma ReplacedShape(u: Tables, t: string)
    requires |t| > 0 ==> !IsSpace(t[0]) && !IsSpace(t[|t| - 1])
    ensures var d := ReplaceDisallowed(u, ReplaceTabs(t));
      && (forall i :: 0 <= i < |d| ==> IsAllowed(u, d[i]) && d[i] != '\t')
      && (|d| > 0 ==> !IsSpace(d[0]) && !IsSpace(d[|d| - 1]))
  {
  }

  /** The public id an application is created with: `safeName`, spaces to `-`, lower-cased. */
  function SafeId(u: Tables, s: string): (r: string)
    ensures |r| == |SafeName(u, s)|
    ensures forall i :: 0 <= i < |r| ==> r[i] == ToLower(u, SpaceToDash(SafeName(u, s)[i]))
  {
    LowerDashed(u, SafeName(u, s))
  }

  /** Spaces to `-`, then lower-cased, character by character. */
  function LowerDashed(u: Tables, n: string): (r: string)
    ensures |r| == |n|
    ensures forall i :: 0 <= i < |r| ==> r[i] == ToLower(u, SpaceToDash(n[i]))
  {
    Map(c => ToLower(u, c), Map(SpaceToDash, n))
  }

  /** A string without adjacent whitespace is left alone by the collapsing step. */
  lemma {:induction false} CollapseSpacesFixes(s: string)
    requires NoAdjacentSpaces(s)
    ensures CollapseSpaces(s) == s
  {
    if |s| > 0 {
      assert NoAdjacentSpaces(s[1..]) by {
        forall i | 0 < i < |s[1..]| ensures !SpacePairAt(s[1..], i) {
          assert !SpacePairAt(s, i + 1);
        }
      }
      if |s| >= 2 {
        assert !SpacePairAt(s, 1);
      }
      CollapseSpacesFixes(s[1..]);
    }
  }

  /** A prefix that does not end in whitespace is collapsed independently of what follows. */
  lemma {:induction false} CollapseSpacesAppend(a: string, t: string)
    requires a == [] || !IsRegexSpace(a[|a| - 1])
    ensures CollapseSpaces(a + t) == CollapseSpaces(a) + CollapseSpaces(t)
    decreases |a|
  {
    if a != [] {
      var s := a + t;
      var n := SpaceRun(a);
      if |a| >= 2 && IsRegexSpace(a[0]) && IsRegexSpace(a[1]) {
        assert s[0] == a[0] && s[1] == a[1];
        assert SpaceRun(s) == n by { SpaceRunAppend(a, t); }
        assert s[n..] == a[n..] + t;
        CollapseSpacesAppend(a[n..], t);
        assert CollapseSpaces(s) == "-" + CollapseSpaces(a[n..] + t);
        assert CollapseSpaces(a) == "-" + CollapseSpaces(a[n..]);
      } else {
        assert s[0] == a[0];
        assert |a| >= 2 ==> s[1] == a[1];
        assert s[1..] == a[1..] + t;
        assert CollapseSpaces(s) == [a[0]] + CollapseSpaces(a[1..] + t);
        assert CollapseSpaces(a) == [a[0]] + CollapseSpaces(a[1..]);
        if |a| == 1 {
          assert a[1..] == [];
          assert a[1..] + t == t;
        } else {
          CollapseSpacesAppend(a[1..], t);
        }
      }
    } else {
      assert a + t == t;
    }
  }

  lemma {:induction false} SpaceRunAppend(a: string, t: string)
    requires a != [] && !IsRegexSpace(a[|a| - 1])
    ensures SpaceRun(a + t) == SpaceRun(a)
    decreases |a|
  {
    if IsRegexSpace(a[0]) {
      assert (a + t)[1..] == a[1..] + t;
      SpaceRunAppend(a[1..], t);
    }
  }

  /** A run of `\s` of length `n`: one `-` if `n` is two or more, itself otherwise. */
  lemma {:induction false} CollapseSpacesRun(run: string, b: string)
    requires |run| > 0 && forall i :: 0 <= i < |run| ==> IsRegexSpace(run[i])
    requires b == [] || !IsRegexSpace(b[0])
    ensures CollapseSpaces(run + b) == (if |run| >= 2 then "-" else run) + CollapseSpaces(b)
  {
    var s := run + b;
    if |run| >= 2 {
      SpaceRunOfRun(run, b);
      assert s[|run|..] == b;
    } else {
      assert s[1..] == b;
    }
  }

  lemma {:induction false} SpaceRunOfRun(run: string, b: string)
    requires forall i :: 0 <= i < |run| ==> IsRegexSpace(run[i])
    requires b == [] || !IsRegexSpace(b[0])
    ensures SpaceRun(run + b) == |run|
    decreases |run|
  {
    if |run| > 0 {
      assert (run + b)[1..] == run[1..] + b;
      SpaceRunOfRun(run[1..], b);
    } else {
      assert run + b == b;
    }
  }

  /**
   * Whitespace runs are rewritten one by one: a run of two or more becomes a
   * single `-` and a lone whitespace character is kept, whatever surrounds it.
   */
  lemma CollapseSpacesSplits(a: string, run: string, b: string)
    requires a == [] || !IsRegexSpace(a[|a| - 1])
    requires |run| > 0 && forall i :: 0 <= i < |run| ==> IsRegexSpace(run[i])
    requires b == [] || !IsRegexSpace(b[0])
    ensures CollapseSpaces(a + run + b) == CollapseSpaces(a) + (if |run| >= 2 then "-" else run) + CollapseSpaces(b)
  {
    assert a + run + b == a + (run + b);
    CollapseSpacesAppend(a, run + b);
    CollapseSpacesRun(run, b);
  }

  /**
   * On a name that is already trimmed, tab-free and without adjacent
   * whitespace, only the allowlist step changes anything: each disallowed
   * character becomes exactly one `-` and every other character, lone
   * whitespace included, stays in place.
   */
  lemma SafeNameReplacesDisallowed(u: Tables, s: string)
    requires |s| > 0 ==> !IsSpace(s[0]) && !IsSpace(s[|s| - 1])
    requires forall i :: 0 <= i < |s| ==> s[i] != '\t'
    requires NoAdjacentSpaces(s)
    ensures SafeName(u, s) == ReplaceDisallowed(u, s)
  {
    TrimSpaceOfTrimmed(s);
    ReplaceTabsNoTab(s);
    ReplaceDisallowedNoAdjacent(u, s);
    CollapseSpacesFixes(ReplaceDisallowed(u, s));
  }

  /** Replacing disallowed characters by `-` creates no whitespace, so no new adjacent pair. */
  lemma ReplaceDisallowedNoAdjacent(u: Tables, s: string)
    requires NoAdjacentSpaces(s)
    ensures NoAdjacentSpaces(ReplaceDisallowed(u, s))
  {
    var d := ReplaceDisallowed(u, s);
    forall i | 0 < i < |d| ensures !SpacePairAt(d, i) {
      assert !SpacePairAt(s, i);
      assert IsRegexSpace(d[i - 1]) ==> d[i - 1] == s[i - 1];
      assert IsRegexSpace(d[i]) ==> d[i] == s[i];
    }
  }

  /** The clean names are exactly the names `safeName` leaves unchanged. */
  lemma SafeNameFixedPoints(u: Tables, s: string)
    ensures SafeName(u, s) == s <==> Clean(u, s)
  {
    if Clean(u, s) {
      SafeNameReplacesDisallowed(u, s);
      ReplaceDisallowedAllowed(u, s);
    } else {
      SafeNameClean(u, s);
    }
  }

  /** `safeName` is idempotent: applying it to its own output changes nothing. */
  lemma SafeNameIdempotent(u: Tables, s: string)
    ensures SafeName(u, SafeName(u, s)) == SafeName(u, s)
  {
    SafeNameClean(u, s);
    SafeNameFixedPoints(u, SafeName(u, s));
  }

  /** Whitespace around a name is trimmed before anything else happens. */
  lemma SafeNameTrims(u: Tables, pre: string, s: string, post: string)
    requires forall i :: 0 <= i < |pre| ==> IsSpace(pre[i])
    requires forall i :: 0 <= i < |post| ==> IsSpace(post[i])
    requires |s| > 0 && !IsSpace(s[0]) && !IsSpace(s[|s| - 1])
    ensures SafeName(u, pre + s + post) == SafeName(u, s)
  {
    TrimSpaceSurrounded(pre, s, post);
    TrimSpaceOfTrimmed(s);
  }

  /**
   * Between two clean names, a run of two or more whitespace characters
   * (other than tabs) becomes a single `-`, and a lone one is kept.
   */
  lemma SafeNameJoins(u: Tables, a: string, run: string, b: string)
    requires |a| > 0 && |b| > 0 && Clean(u, a) && Clean(u, b)
    requires |run| > 0 && forall i :: 0 <= i < |run| ==> IsRegexSpace(run[i]) && run[i] != '\t'
    ensures SafeName(u, a + run + b) == a + (if |run| >= 2 then "-" else run) + b
  {
    var x := a + run + b;
    assert x[0] == a[0] && x[|x| - 1] == b[|b| - 1];
    JoinAllowed(u, a, run, b);
    TrimSpaceOfTrimmed(x);
    ReplaceTabsNoTab(x);
    ReplaceDisallowedAllowed(u, x);
    CollapseSpacesSplits(a, run, b);
    CollapseSpacesFixes(a);
    CollapseSpacesFixes(b);
  }

  /** Two clean names around a run of allowed, tab-free characters: every character is allowed and none is a tab. */
  lemma JoinAllowed(u: Tables, a: string, run: string, b: string)
    requires Clean(u, a) && Clean(u, b)
    requires forall i :: 0 <= i < |run| ==> IsRegexSpace(run[i]) && run[i] != '\t'
    ensures forall i :: 0 <= i < |a + run + b| ==> IsAllowed(u, (a + run + b)[i]) && (a + run + b)[i] != '\t'
  {
    var x := a + run + b;
    forall i | 0 <= i < |x| ensures IsAllowed(u, x[i]) && x[i] != '\t' {
      if i < |a| {
        assert x[i] == a[i];
      } else if i < |a| + |run| {
        assert x[i] == run[i - |a|];
      } else {
        assert x[i] == b[i - |a| - |run|];
      }
    }
  }

  /** `n` dashes. */
  function Dashes(n: nat): (r: string)
    ensures |r| == n && forall i :: 0 <= i < n ==> r[i] == '-'
  {
    seq(n, _ => '-')
  }

  /**
   * Tabs become `-` before whitespace is collapsed, so every tab between two
   * clean names turns into its own `-`, however many there are.
   */
  lemma SafeNameTabs(u: Tables, a: string, tabs: string, b: string)
    requires |a| > 0 && |b| > 0 && Clean(u, a) && Clean(u, b)
    requires forall i :: 0 <= i < |tabs| ==> tabs[i] == '\t'
    ensures SafeName(u, a + tabs + b) == a + Dashes(|tabs|) + b
  {
    TabsBetween(u, a, tabs, b);
    SafeNameOfTabbed(u, a + tabs + b, a + Dashes(|tabs|) + b);
  }

  /** A trimmed name whose tab step alone makes it clean is sanitized to the result of that step. */
  lemma SafeNameOfTabbed(u: Tables, x: string, y: string)
    requires |x| > 0 && !IsSpace(x[0]) && !IsSpace(x[|x| - 1])
    requires ReplaceTabs(x) == y && Clean(u, y)
    ensures SafeName(u, x) == y
  {
    TrimSpaceOfTrimmed(x);
    ReplaceDisallowedAllowed(u, y);
    CollapseSpacesFixes(y);
  }

  /** Without surrounding space the trimming step does nothing. */
  lemma SafeNameOfTrimmed(u: Tables, x: string)
    requires |x| > 0 ==> !IsSpace(x[0]) && !IsSpace(x[|x| - 1])
    ensures SafeName(u, x) == CollapseSpaces(ReplaceDisallowed(u, ReplaceTabs(x)))
  {
    TrimSpaceOfTrimmed(x);
  }

  /** The tab step on tabs between two clean names: a clean name with one `-` per tab. */
  lemma TabsBetween(u: Tables, a: string, tabs: string, b: string)
    requires |a| > 0 && |b| > 0 && Clean(u, a) && Clean(u, b)
    requires forall i :: 0 <= i < |tabs| ==> tabs[i] == '\t'
    ensures var x := a + tabs + b;
      && x[0] == a[0] && x[|x| - 1] == b[|b| - 1]
      && ReplaceTabs(x) == a + Dashes(|tabs|) + b
      && Clean(u, a + Dashes(|tabs|) + b)
  {
    MapAppend(TabToDash, a, tabs);
    MapAppend(TabToDash, a + tabs, b);
    ReplaceTabsNoTab(a);
    ReplaceTabsNoTab(b);
    assert Map(TabToDash, tabs) == Dashes(|tabs|);
    CleanJoin(u, a, Dashes(|tabs|), b);
  }

  /** Two clean names joined by dashes form a clean name. */
  lemma CleanJoin(u: Tables, a: string, dashes: string, b: string)
    requires |a| > 0 && |b| > 0 && Clean(u, a) && Clean(u, b)
    requires forall i :: 0 <= i < |dashes| ==> dashes[i] == '-'
    ensures Clean(u, a + dashes + b)
  {
    var y := a + dashes + b;
    var k := |a| + |dashes|;
    assert y[0] == a[0] && y[|y| - 1] == b[|b| - 1];
    forall i | 0 <= i < |y| ensures IsAllowed(u, y[i]) && y[i] != '\t' {
      if i < |a| {
        assert y[i] == a[i];
      } else if i >= k {
        assert y[i] == b[i - k];
      }
    }
    forall i | 0 < i < |y| ensures !SpacePairAt(y, i) {
      if i < |a| {
        assert y[i - 1] == a[i - 1] && y[i] == a[i];
        assert !SpacePairAt(a, i);
      } else if i > k {
        assert y[i - 1] == b[i - 1 - k] && y[i] == b[i - k];
        assert !SpacePairAt(b, i - k);
      } else if i == k {
        assert y[i] == b[0];
      } else {
        assert y[i] == dashes[i - |a|];
      }
    }
  }

  /**
   * The public id has the same length as the safe name, keeps underscores,
   * and holds no space as long as lower-casing never produces one.
   */
  lemma SafeIdShape(u: Tables, s: string)
    requires LowerKeepsSpace(u)
    ensures |SafeId(u, s)| == |SafeName(u, s)|
    ensures forall i :: 0 <= i < |SafeId(u, s)| ==> SafeId(u, s)[i] != ' '
    ensures forall i :: 0 <= i < |SafeId(u, s)| && SafeName(u, s)[i] == '_' ==> SafeId(u, s)[i] == '_'
  {
    LowerDashedShape(u, SafeName(u, s));
  }

  lemma LowerDashedShape(u: Tables, n: string)
    requires LowerKeepsSpace(u)
    ensures forall i :: 0 <= i < |n| ==> LowerDashed(u, n)[i] != ' '
  {
    var r := LowerDashed(u, n);
    forall i | 0 <= i < |r| ensures r[i] != ' ' {
      assert r[i] == ToLower(u, SpaceToDash(n[i]));
    }
  }
}

=== FILE: scenarios.dfy ===
/**
 * Whole runs of `ApplyOrgContents` on small hierarchies against a scripted
 * server.
 */
module Scenarios {
  import opened Wrappers
  import opened Unicode
  import opened Sanitizer
  import opened ScmTypes
  import opened Gateway
  import opened Cache
  import opened Create
  import opened Reconcile
  import ScmTypesTest
  import Retry

  /**
   * A top-level organization the loaded cache already holds under the root
   * is reused: the run updates its SCM configuration and makes no create
   * call.
   */
  lemma ExistingOrganizationReused(u: Tables, s: Server, o: Organization, rootId: string, cfg: ScmConfiguration, found: OrgDto)
    requires s.cacheLoaded && o.applications == [] && o.subOrganizations == []
    requires FindFirst(s.organizations, NamedUnder(OrganizationSafeName(u, o), rootId)) == Some(found)
    requires |s.script.scmReplies| > 0 && s.script.scmReplies[0].err.None?
    ensures var r := ApplyOrgContents(u, s, OrgContents([o]), rootId, cfg);
      && r.outcome == Done(None)
      && r.server.trace == s.trace + [UpdateScm(OrganizationOwner, found.id, OrgScmPayload(cfg))]
  {
    var visit := OrgVisit(o, rootId, true);
    var v := s.(visits := s.visits + [visit]);
    var c := CreateOrganization(u, v, o, rootId, true, Some(cfg));
    assert c.outcome == Done(Created(Some(found), None)) && c.server.trace == s.trace + [UpdateScm(OrganizationOwner, found.id, OrgScmPayload(cfg))] by {
      CreateOrganizationReusesExisting(u, v, o, rootId, true, Some(cfg), found);
    }
    var t := TopOrganizationStep(u, s, o, rootId, cfg);
    assert t == Step(Done(None), c.server) by {
      var a := OrganizationApps(u, s, visit, c, []);
      assert a == Step(Done(Success(found)), c.server) by {
        assert a == AppsUnder(u, s, visit, c.server, found, []);
      }
      assert t == SubOrganizationsAfter(u, s, o, a);
      assert ApplySubOrganizations(u, a.server, [], found.id) == Step(Done(None), a.server);
    }
    assert ApplyOrgContents(u, s, OrgContents([o]), rootId, cfg) == t by {
      OrganizationsStopAtFirstError(u, s, [o], rootId, cfg);
      assert [o][1..] == [];
      assert ApplyOrganizations(u, t.server, [], rootId, cfg) == t;
    }
  }

  /**
   * An organization named "Team A" does not match a cached "Team-A" under
   * the same parent: the lookup finds nothing, so a new organization is
   * created rather than the existing one reused.
   */
  lemma TeamADoesNotMatchTeamDashA(u: Tables, s: Server, parentId: string)
    requires s.cacheLoaded && s.organizations == [OrgDto("1", "Team-A", parentId)]
    ensures OrganizationExists(u, s, Organization("Team A", "", [], []), parentId).outcome == Done(None)
  {
    var o := Organization("Team A", "", [], []);
    TeamADiffersFromTeamDashA(u);
    OnlyCachedOrganizationDiffers(u, s, o, parentId);
  }

  /** `Team A` keeps its space, so it never equals `Team-A`. */
  lemma TeamADiffersFromTeamDashA(u: Tables)
    ensures OrganizationSafeName(u, Organization("Team A", "", [], [])) != "Team-A"
  {
    ScmTypesTest.SafeNameSingleSpace(u);
    var n := OrganizationSafeName(u, Organization("Team A", "", [], []));
    assert n == "Team A";
    assert n[4] == ' ' && "Team-A"[4] == '-';
  }

  /** A loaded cache holding one organization under a different name than the sanitized one: the lookup finds nothing. */
  lemma OnlyCachedOrganizationDiffers(u: Tables, s: Server, o: Organization, parentId: string)
    requires s.cacheLoaded && |s.organizations| == 1 && s.organizations[0].name != OrganizationSafeName(u, o)
    ensures OrganizationExists(u, s, o, parentId).outcome == Done(None)
  {
    var r := OrganizationExists(u, s, o, parentId);
    assert r.outcome.Done? && FirstWhere(s.organizations, NamedUnder(OrganizationSafeName(u, o), parentId), r.outcome.value);
  }

  /**
   * With nothing cached, an organization whose first create reply is an
   * HTTP 200 is created at once under its sanitized name.
   */
  lemma FreshOrganizationCreated(s: Server, name: string, parentId: string)
    requires s.organizations == []
    requires |s.script.orgCreates| > 0 && s.script.orgCreates[0].status == 200
    ensures NewOrganization(s, name, parentId, false, None) ==
      Step(Done(Created(Some(s.script.orgCreates[0].entity), None)),
           s.(trace := s.trace + [AddOrganization(name, parentId)], script := s.script.(orgCreates := s.script.orgCreates[1..])))
  {
    assert UniqueOrganizationId([], name) == name by {
      assert OrganizationIds([]) == [];
    }
    Retry.EarlyAcceptIgnoresError(s.script.orgCreates, name, OrgBump(s.organizations, name), OrgCollision);
    assert OrgCalls([name], parentId) == [AddOrganization(name, parentId)];
  }

  /**
   * As above, with the SCM configuration applied: a clean SCM reply right
   * after the create call configures the organization.
   */
  lemma FreshOrganizationConfigured(s: Server, name: string, parentId: string, cfg: ScmConfiguration)
    requires s.organizations == []
    requires |s.script.orgCreates| > 0 && s.script.orgCreates[0].status == 200
    requires |s.script.scmReplies| > 0 && s.script.scmReplies[0].err.None?
    ensures var created := s.script.orgCreates[0].entity;
      NewOrganization(s, name, parentId, true, Some(cfg)) ==
        Step(Done(Created(Some(created), None)),
             s.(trace := s.trace + [AddOrganization(name, parentId), AddScm(OrganizationOwner, created.id, OrgScmPayload(cfg))],
                script := s.script.(orgCreates := s.script.orgCreates[1..], scmReplies := s.script.scmReplies[1..])))
  {
    var created := s.script.orgCreates[0].entity;
    assert UniqueOrganizationId([], name) == name by {
      assert OrganizationIds([]) == [];
    }
    Retry.EarlyAcceptIgnoresError(s.script.orgCreates, name, OrgBump(s.organizations, name), OrgCollision);
    assert OrgCalls([name], parentId) == [AddOrganization(name, parentId)];
    var c := CreateOrganizationLoop(s, name, parentId);
    assert c == Step(Done(Success(created)), s.(trace := s.trace + [AddOrganization(name, parentId)], script := s.script.(orgCreates := s.script.orgCreates[1..])));
  }

  /**
   * With nothing cached, a permitted application whose first create reply
   * is an HTTP 200 is created at once from the given id and name, then gets
   * its SCM configuration and keeps the record the server answers with.
   */
  lemma FreshApplicationCreated(s: Server, a: Application, safeId: string, safeName: string, orgId: string)
    requires s.applications == [] && ScmPermitted(a)
    requires |s.script.appCreates| > 0 && s.script.appCreates[0].status == 200
    requires |s.script.scmReplies| > 0 && s.script.scmReplies[0].err.None?
    ensures var created := s.script.appCreates[0].entity;
      NewApplication(s, a, safeId, safeName, orgId) ==
        Step(Done(AppCreated(Some(created), s.script.scmReplies[0].dto, None)),
             s.(trace := s.trace + [AddApplication(safeId, safeName, orgId), AddScm(ApplicationOwner, created.id, AppScmPayload(a))],
                script := s.script.(appCreates := s.script.appCreates[1..], scmReplies := s.script.scmReplies[1..])))
  {
    assert UniqueApplicationId([], safeId) == safeId by {
      assert ApplicationIds([]) == [];
    }
    var first := AppRequest(safeId, safeName);
    Retry.EarlyAcceptIgnoresError(s.script.appCreates, first, AppBump(safeId, safeName), AppCollision);
    assert AppCalls([first], orgId) == [AddApplication(safeId, safeName, orgId)];
  }

  /**
   * One turn of the application loop on a loaded, empty cache: the
   * application is created, configured and scanned, in that order.
   */
  lemma FreshApplicationStep(u: Tables, s: Server, orgId: string, a: Application)
    requires s.cacheLoaded && s.applications == [] && ScmPermitted(a)
    requires |s.script.appCreates| > 0 && s.script.appCreates[0].status == 200
    requires |s.script.scmReplies| > 0 && s.script.scmReplies[0].err.None? && s.script.scmReplies[0].dto.Some?
    ensures var created := s.script.appCreates[0].entity;
      CreateAppStep(u, s, orgId, a) ==
        Step(Done(None),
             s.(visits := s.visits + [AppVisit(a, orgId)],
                trace := s.trace + [AddApplication(ApplicationSafeId(u, a), ApplicationSafeName(u, a), orgId),
                                    AddScm(ApplicationOwner, created.id, AppScmPayload(a)),
                                    EvaluateSource(created.id, a.defaultBranch, "source")],
                script := s.script.(appCreates := s.script.appCreates[1..], scmReplies := s.script.scmReplies[1..])))
  {
    var created := s.script.appCreates[0].entity;
    var v := s.(visits := s.visits + [AppVisit(a, orgId)]);
    var c := CreateApplication(u, v, a, orgId);
    var a1 := AddApplication(ApplicationSafeId(u, a), ApplicationSafeName(u, a), orgId);
    var a2 := AddScm(ApplicationOwner, created.id, AppScmPayload(a));
    var w := v.(trace := s.trace + [a1, a2],
                script := s.script.(appCreates := s.script.appCreates[1..], scmReplies := s.script.scmReplies[1..]));
    assert c == Step(Done(AppCreated(Some(created), s.script.scmReplies[0].dto, None)), w) by {
      FreshApplicationLookedUp(u, v, a, orgId);
    }
    assert CreateAppStep(u, s, orgId, a) == Step(Done(None), Issue(w, ScanCall(created, a))) by {
      assert CreateAppStep(u, s, orgId, a) == ScheduleScan(s, c, a);
    }
    ApplicationThenScan(s, AppVisit(a, orgId), a1, a2, ScanCall(created, a));
  }

  /** The server after an application's create and SCM calls, each consuming its reply, and then its scan. */
  lemma ApplicationThenScan(s: Server, visit: Visit, a1: Call, a2: Call, a3: Call)
    requires |s.script.appCreates| > 0 && |s.script.scmReplies| > 0
    ensures Issue(s.(visits := s.visits + [visit], trace := s.trace + [a1, a2],
                     script := s.script.(appCreates := s.script.appCreates[1..], scmReplies := s.script.scmReplies[1..])), a3) ==
      s.(visits := s.visits + [visit], trace := s.trace + [a1, a2, a3],
         script := s.script.(appCreates := s.script.appCreates[1..], scmReplies := s.script.scmReplies[1..]))
  {
    AppendAssociates(s.trace, [a1, a2], [a3]);
  }

  /** The lookup on a loaded, empty cache finds nothing, so the application is created and configured. */
  lemma FreshApplicationLookedUp(u: Tables, s: Server, a: Application, orgId: string)
    requires s.cacheLoaded && s.applications == [] && ScmPermitted(a)
    requires |s.script.appCreates| > 0 && s.script.appCreates[0].status == 200
    requires |s.script.scmReplies| > 0 && s.script.scmReplies[0].err.None?
    ensures var created := s.script.appCreates[0].entity;
      CreateApplication(u, s, a, orgId) ==
        Step(Done(AppCreated(Some(created), s.script.scmReplies[0].dto, None)),
             s.(trace := s.trace + [AddApplication(ApplicationSafeId(u, a), ApplicationSafeName(u, a), orgId), AddScm(ApplicationOwner, created.id, AppScmPayload(a))],
                script := s.script.(appCreates := s.script.appCreates[1..], scmReplies := s.script.scmReplies[1..])))
  {
    assert ApplicationExists(u, s, a, orgId).outcome == Done(None);
    CreateApplicationCreatesMissing(u, s, a, orgId);
    FreshApplicationCreated(s, a, ApplicationSafeId(u, a), ApplicationSafeName(u, a), orgId);
  }

  /** The lookup on a loaded, empty cache finds nothing, so the organization is created (and configured when asked). */
  lemma FreshOrganizationLookedUp(u: Tables, s: Server, o: Organization, parentId: string, applyScm: bool, cfg: Option<ScmConfiguration>)
    requires applyScm ==> cfg.Some?
    requires s.cacheLoaded && s.organizations == []
    ensures CreateOrganization(u, s, o, parentId, applyScm, cfg) == NewOrganization(s, OrganizationSafeName(u, o), parentId, applyScm, cfg)
  {
    assert OrganizationExists(u, s, o, parentId).outcome == Done(None);
    CreateOrganizationCreatesMissing(u, s, o, parentId, applyScm, cfg);
  }

  /**
   * A sub-organization without applications, on a loaded, empty cache:
   * one create call under the parent and no SCM call.
   */
  lemma FreshSubOrganization(u: Tables, s: Server, so: Organization, parentId: string)
    requires s.cacheLoaded && s.organizations == [] && so.applications == []
    requires |s.script.orgCreates| > 0 && s.script.orgCreates[0].status == 200
    ensures ApplySubOrganizations(u, s, [so], parentId) ==
      Step(Done(None),
           s.(visits := s.visits + [OrgVisit(so, parentId, false)],
              trace := s.trace + [AddOrganization(OrganizationSafeName(u, so), parentId)],
              script := s.script.(orgCreates := s.script.orgCreates[1..])))
  {
    var visit := OrgVisit(so, parentId, false);
    var v := s.(visits := s.visits + [visit]);
    var sub := s.script.orgCreates[0].entity;
    var w := v.(trace := s.trace + [AddOrganization(OrganizationSafeName(u, so), parentId)],
                script := s.script.(orgCreates := s.script.orgCreates[1..]));
    var c := CreateOrganization(u, v, so, parentId, false, None);
    assert c == Step(Done(Created(Some(sub), None)), w) by {
      FreshOrganizationLookedUp(u, v, so, parentId, false, None);
      FreshOrganizationCreated(v, OrganizationSafeName(u, so), parentId);
    }
    assert OrganizationApps(u, s, visit, c, []) == Step(Done(Success(sub)), w) by {
      assert OrganizationApps(u, s, visit, c, []) == AppsUnder(u, s, visit, w, sub, []);
    }
    assert SubOrganizationStep(u, s, so, parentId) == Step(Done(Success(sub)), w);
    SubOrganizationsStopAtFirstError(u, s, [so], parentId);
    assert [so][1..] == [];
  }

  /**
   * A top-level organization on a loaded, empty cache: created under the
   * root with the SCM configuration added at once.
   */
  lemma FreshTopOrganizationCreated(u: Tables, s: Server, o: Organization, rootId: string, cfg: ScmConfiguration)
    requires s.cacheLoaded && s.organizations == []
    requires |s.script.orgCreates| > 0 && s.script.orgCreates[0].status == 200
    requires |s.script.scmReplies| > 0 && s.script.scmReplies[0].err.None?
    ensures var top := s.script.orgCreates[0].entity;
      CreateOrganization(u, s, o, rootId, true, Some(cfg)) ==
        Step(Done(Created(Some(top), None)),
             s.(trace := s.trace + [AddOrganization(OrganizationSafeName(u, o), rootId), AddScm(OrganizationOwner, top.id, OrgScmPayload(cfg))],
                script := s.script.(orgCreates := s.script.orgCreates[1..], scmReplies := s.script.scmReplies[1..])))
  {
    FreshOrganizationLookedUp(u, s, o, rootId, true, Some(cfg));
    FreshOrganizationConfigured(s, OrganizationSafeName(u, o), rootId, cfg);
  }

  /** The single application of a created organization `top`, on a loaded, empty cache: created, configured and scanned. */
  lemma FreshOnlyApplication(u: Tables, s: Server, visit: Visit, m: Server, top: OrgDto, a: Application)
    requires Extends(s, m) && m.visits == s.visits + [visit] && ScansFollowScm(m.trace, |s.trace|)
    requires m.cacheLoaded && m.applications == [] && ScmPermitted(a)
    requires |m.script.appCreates| > 0 && m.script.appCreates[0].status == 200
    requires |m.script.scmReplies| > 0 && m.script.scmReplies[0].err.None? && m.script.scmReplies[0].dto.Some?
    ensures var app := m.script.appCreates[0].entity;
      AppsUnder(u, s, visit, m, top, [a]) ==
        Step(Done(Success(top)),
             m.(visits := m.visits + [AppVisit(a, top.id)],
                trace := m.trace + [AddApplication(ApplicationSafeId(u, a), ApplicationSafeName(u, a), top.id),
                                    AddScm(ApplicationOwner, app.id, AppScmPayload(a)),
                                    EvaluateSource(app.id, a.defaultBranch, "source")],
                script := m.script.(appCreates := m.script.appCreates[1..], scmReplies := m.script.scmReplies[1..])))
  {
    FreshApplicationStep(u, m, top.id, a);
    AppsStopAtFirstError(u, m, top.id, [a]);
    assert [a][1..] == [];
  }

  /**
   * A top-level organization with one permitted application, on a loaded,
   * empty cache: the organization is created and configured, then its
   * application is created, configured and scanned under its new id.
   */
  lemma FreshTopOrganizationWithApp(u: Tables, s: Server, o: Organization, a: Application, rootId: string, cfg: ScmConfiguration)
    requires s.cacheLoaded && s.organizations == [] && s.applications == []
    requires o.applications == [a] && ScmPermitted(a)
    requires |s.script.orgCreates| > 0 && s.script.orgCreates[0].status == 200
    requires |s.script.appCreates| > 0 && s.script.appCreates[0].status == 200
    requires |s.script.scmReplies| > 1 && s.script.scmReplies[0].err.None?
    requires s.script.scmReplies[1].err.None? && s.script.scmReplies[1].dto.Some?
    ensures var visit := OrgVisit(o, rootId, true);
      var top := s.script.orgCreates[0].entity;
      var app := s.script.appCreates[0].entity;
      var c := CreateOrganization(u, s.(visits := s.visits + [visit]), o, rootId, true, Some(cfg));
      OrganizationApps(u, s, visit, c, o.applications) ==
        Step(Done(Success(top)),
             s.(visits := s.visits + [visit, AppVisit(a, top.id)],
                trace := s.trace + [AddOrganization(OrganizationSafeName(u, o), rootId),
                                    AddScm(OrganizationOwner, top.id, OrgScmPayload(cfg)),
                                    AddApplication(ApplicationSafeId(u, a), ApplicationSafeName(u, a), top.id),
                                    AddScm(ApplicationOwner, app.id, AppScmPayload(a)),
                                    EvaluateSource(app.id, a.defaultBranch, "source")],
                script := s.script.(orgCreates := s.script.orgCreates[1..], appCreates := s.script.appCreates[1..],
                                    scmReplies := s.script.scmReplies[2..])))
  {
    var visit := OrgVisit(o, rootId, true);
    var top := s.script.orgCreates[0].entity;
    var v := s.(visits := s.visits + [visit]);
    var c := CreateOrganization(u, v, o, rootId, true, Some(cfg));
    var orgCalls := [AddOrganization(OrganizationSafeName(u, o), rootId), AddScm(OrganizationOwner, top.id, OrgScmPayload(cfg))];
    var m := v.(trace := s.trace + orgCalls,
                script := s.script.(orgCreates := s.script.orgCreates[1..], scmReplies := s.script.scmReplies[1..]));
    assert c == Step(Done(Created(Some(top), None)), m) by {
      FreshTopOrganizationCreated(u, v, o, rootId, cfg);
    }
    var app := s.script.appCreates[0].entity;
    var appCalls := [AddApplication(ApplicationSafeId(u, a), ApplicationSafeName(u, a), top.id),
                     AddScm(ApplicationOwner, app.id, AppScmPayload(a)),
                     EvaluateSource(app.id, a.defaultBranch, "source")];
    var got := m.(visits := m.visits + [AppVisit(a, top.id)], trace := m.trace + appCalls,
                  script := m.script.(appCreates := m.script.appCreates[1..], scmReplies := m.script.scmReplies[1..]));
    assert OrganizationApps(u, s, visit, c, o.applications) == Step(Done(Success(top)), got) by {
      assert OrganizationApps(u, s, visit, c, o.applications) == AppsUnder(u, s, visit, m, top, [a]);
      FreshOnlyApplication(u, s, visit, m, top, a);
    }
    OrganizationThenApplication(s, visit, AppVisit(a, top.id), orgCalls[0], orgCalls[1], appCalls[0], appCalls[1], appCalls[2]);
  }

  /**
   * The server after an organization's create and SCM calls and then an
   * application's create, SCM and scan calls, each consuming its replies.
   */
  lemma OrganizationThenApplication(s: Server, visit: Visit, appVisit: Visit, o1: Call, o2: Call, a1: Call, a2: Call, a3: Call)
    requires |s.script.orgCreates| > 0 && |s.script.appCreates| > 0 && |s.script.scmReplies| > 1
    ensures var m := s.(visits := s.visits + [visit], trace := s.trace + [o1, o2],
                        script := s.script.(orgCreates := s.script.orgCreates[1..], scmReplies := s.script.scmReplies[1..]));
      m.(visits := m.visits + [appVisit], trace := m.trace + [a1, a2, a3],
         script := m.script.(appCreates := m.script.appCreates[1..], scmReplies := m.script.scmReplies[1..])) ==
      s.(visits := s.visits + [visit, appVisit], trace := s.trace + [o1, o2, a1, a2, a3],
         script := s.script.(orgCreates := s.script.orgCreates[1..], appCreates := s.script.appCreates[1..],
                             scmReplies := s.script.scmReplies[2..]))
  {
    AppendAssociates(s.visits, [visit], [appVisit]);
    AppendAssociates(s.trace, [o1, o2], [a1, a2, a3]);
    assert s.script.scmReplies[1..][1..] == s.script.scmReplies[2..];
  }

  /**
   * The same organization with one sub-organization without applications
   * added: after its application, the sub-organization is created under
   * the id the server gave the top-level one.
   */
  lemma FreshTopOrganizationStep(u: Tables, s: Server, o: Organization, a: Application, so: Organization, rootId: string, cfg: ScmConfiguration)
    requires s.cacheLoaded && s.organizations == [] && s.applications == []
    requires o.applications == [a] && o.subOrganizations == [so] && so.applications == [] && ScmPermitted(a)
    requires |s.script.orgCreates| > 1 && s.script.orgCreates[0].status == 200 && s.script.orgCreates[1].status == 200
    requires |s.script.appCreates| > 0 && s.script.appCreates[0].status == 200
    requires |s.script.scmReplies| > 1 && s.script.scmReplies[0].err.None?
    requires s.script.scmReplies[1].err.None? && s.script.scmReplies[1].dto.Some?
    ensures var top := s.script.orgCreates[0].entity;
      var app := s.script.appCreates[0].entity;
      var r := TopOrganizationStep(u, s, o, rootId, cfg);
      && r.outcome == Done(None)
      && r.server.trace == s.trace + [AddOrganization(OrganizationSafeName(u, o), rootId),
                                      AddScm(OrganizationOwner, top.id, OrgScmPayload(cfg)),
                                      AddApplication(ApplicationSafeId(u, a), ApplicationSafeName(u, a), top.id),
                                      AddScm(ApplicationOwner, app.id, AppScmPayload(a)),
                                      EvaluateSource(app.id, a.defaultBranch, "source"),
                                      AddOrganization(OrganizationSafeName(u, so), top.id)]
      && r.server.visits == s.visits + [OrgVisit(o, rootId, true), AppVisit(a, top.id), OrgVisit(so, top.id, false)]
  {
    var visit := OrgVisit(o, rootId, true);
    var top := s.script.orgCreates[0].entity;
    var app := s.script.appCreates[0].entity;
    var c := CreateOrganization(u, s.(visits := s.visits + [visit]), o, rootId, true, Some(cfg));
    var apps := OrganizationApps(u, s, visit, c, o.applications);
    FreshTopOrganizationWithApp(u, s, o, a, rootId, cfg);
    var n := apps.server;
    var f := AddOrganization(OrganizationSafeName(u, so), top.id);
    var subVisit := OrgVisit(so, top.id, false);
    var r := TopOrganizationStep(u, s, o, rootId, cfg);
    assert r.outcome == Done(None) && r.server.trace == n.trace + [f] && r.server.visits == n.visits + [subVisit] by {
      assert n.organizations == [] && n.cacheLoaded && n.script.orgCreates == s.script.orgCreates[1..];
      FreshSubOrganization(u, n, so, top.id);
      assert r == ApplySubOrganizations(u, n, [so], top.id);
    }
    GrownFiveThenOne(s.trace, AddOrganization(OrganizationSafeName(u, o), rootId), AddScm(OrganizationOwner, top.id, OrgScmPayload(cfg)),
      AddApplication(ApplicationSafeId(u, a), ApplicationSafeName(u, a), top.id), AddScm(ApplicationOwner, app.id, AppScmPayload(a)),
      EvaluateSource(app.id, a.defaultBranch, "source"), f);
    GrownTwoThenOne(s.visits, visit, AppVisit(a, top.id), subVisit);
  }

  /**
   * A whole run on a loaded, empty cache: one top-level organization with
   * one permitted application and one sub-organization without
   * applications, every create answered by an HTTP 200 and every SCM call
   * answered cleanly. The top-level organization is created and configured,
   * then its application is created, configured and scanned, then the
   * sub-organization is created under the id the server gave the
   * top-level one, with no SCM call.
   */
  lemma OneApplicationOneSubOrganization(u: Tables, s: Server, o: Organization, a: Application, so: Organization, rootId: string, cfg: ScmConfiguration, top: OrgDto, sub: OrgDto, app: AppDto, dto: ScmDto)
    requires s.cacheLoaded && s.organizations == [] && s.applications == []
    requires o.applications == [a] && o.subOrganizations == [so] && so.applications == [] && ScmPermitted(a)
    requires s.script.orgCreates == [CreateReply(top, 200, "", None), CreateReply(sub, 200, "", None)]
    requires s.script.appCreates == [CreateReply(app, 200, "", None)]
    requires s.script.scmReplies == [ScmReply(None, None), ScmReply(Some(dto), None)]
    ensures var r := ApplyOrgContents(u, s, OrgContents([o]), rootId, cfg);
      && r.outcome == Done(None)
      && r.server.trace == s.trace + [
           AddOrganization(OrganizationSafeName(u, o), rootId),
           AddScm(OrganizationOwner, top.id, OrgScmPayload(cfg)),
           AddApplication(ApplicationSafeId(u, a), ApplicationSafeName(u, a), top.id),
           AddScm(ApplicationOwner, app.id, AppScmPayload(a)),
           EvaluateSource(app.id, a.defaultBranch, "source"),
           AddOrganization(OrganizationSafeName(u, so), top.id)]
      && r.server.visits == s.visits + [OrgVisit(o, rootId, true), AppVisit(a, top.id), OrgVisit(so, top.id, false)]
  {
    FreshTopOrganizationStep(u, s, o, a, so, rootId, cfg);
    var t := TopOrganizationStep(u, s, o, rootId, cfg);
    OrganizationsStopAtFirstError(u, s, [o], rootId, cfg);
    assert [o][1..] == [];
    assert ApplyOrganizations(u, t.server, [], rootId, cfg) == t;
  }

  /**
   * A log of five entries grown by one more, element by element. The
   * literal concatenation is proved here, away from the context of the
   * scenario that needs it, where it is expensive.
   */
  lemma GrownFiveThenOne<T>(x: seq<T>, a: T, b: T, c: T, d: T, e: T, f: T)
    ensures (x + [a, b, c, d, e]) + [f] == x + [a, b, c, d, e, f]
  {
  }

  /** The same for a log of two entries grown by one more. */
  lemma GrownTwoThenOne<T>(x: seq<T>, a: T, b: T, c: T)
    ensures (x + [a, b]) + [c] == x + [a, b, c]
  {
  }
}

=== FILE: scm_types.dfy ===
/**
 * The hierarchy discovered in the source-control provider, as `scm/types.go`
 * declares it, with the derived names and permission gates of applications.
 */
module ScmTypes {
  import opened Wrappers
  import opened Unicode
  import Sanitizer
  import Gates

  /** Credentials attached to top-level organizations. */
  datatype ScmConfiguration = ScmConfiguration(scmType: string, username: string, password: string)

  /** A repository: its name, its default branch if it has one, and its remote URL. */
  datatype Application = Application(name: string, defaultBranch: Option<string>, repositoryUrl: string)

  /** An account or a project, holding repositories and (for accounts) projects. */
  datatype Organization = Organization(
    name: string,
    scmProvider: string,
    applications: seq<Application>,
    subOrganizations: seq<Organization>)

  /** The discovered hierarchy: the top-level organizations in order. */
  datatype OrgContents = OrgContents(organizations: seq<Organization>)

  function OrganizationSafeName(u: Tables, o: Organization): string {
    Sanitizer.SafeName(u, o.name)
  }

  function ApplicationSafeName(u: Tables, a: Application): string {
    Sanitizer.SafeName(u, a.name)
  }

  function ApplicationSafeId(u: Tables, a: Application): string {
    Sanitizer.SafeId(u, a.name)
  }

  /** An absent default branch is never permitted. */
  predicate IsBranchNamePermitted(a: Application) {
    match a.defaultBranch
    case None => false
    case Some(b) => Gates.SafeBranchName(b)
  }

  /**
   * A branch is permitted exactly when there is one, it holds a non-space
   * character, does not start with `.`, does not end with `.` or `/`, and
   * holds no metacharacter.
   */
  lemma BranchNamePermittedIff(a: Application)
    ensures IsBranchNamePermitted(a) <==>
      && a.defaultBranch.Some?
      && var b := a.defaultBranch.value;
      && (exists i :: 0 <= i < |b| && !IsSpace(b[i]))
      && !(|b| > 0 && b[0] == '.')
      && !(|b| > 0 && (b[|b| - 1] == '.' || b[|b| - 1] == '/'))
      && (forall i :: 0 <= i < |b| ==> !Gates.IsMetaChar(b[i]))
  {
    if a.defaultBranch.Some? {
      Gates.SafeBranchNameIff(a.defaultBranch.value);
    }
  }

  predicate IsRepositoryUrlPermitted(a: Application) {
    Gates.SafeRepositoryUrl(a.repositoryUrl)
  }

  /** Both gates: the condition for saving source-control settings on an application. */
  predicate ScmPermitted(a: Application) {
    IsRepositoryUrlPermitted(a) && IsBranchNamePermitted(a)
  }
}

=== FILE: scm_types_test.dfy ===
/** The table tests of `scm/types_test.go`, proved for every choice of the non-ASCII tables. */
module ScmTypesTest {
  import opened Unicode
  import opened Text
  import opened Sanitizer
  import opened Gates

  /** A branch holding a metacharacter at a known position is rejected. */
  lemma RejectsMetaAt(s: string, i: nat)
    requires i < |s| && IsMetaChar(s[i])
    ensures !SafeBranchName(s)
  {
    SafeBranchNameIff(s);
  }

  /** A branch of plain letters is accepted. */
  lemma AcceptsLetters(s: string)
    requires |s| > 0 && forall i :: 0 <= i < |s| ==> 'a' <= s[i] <= 'z'
    ensures SafeBranchName(s)
  {
    SafeBranchNameIff(s);
    assert !IsSpace(s[0]);
  }

  lemma SafeBranchNameEmpty()
    ensures !SafeBranchName("")
  {
  }

  lemma SafeBranchNameMain()
    ensures SafeBranchName("main")
  {
    AcceptsLetters("main");
  }

  lemma SafeBranchNameMaster()
    ensures SafeBranchName("master")
  {
    AcceptsLetters("master");
  }

  lemma SafeBranchNameBracket()
    ensures !SafeBranchName("with(bracket")
  {
    RejectsMetaAt("with(bracket", 4);
  }

  lemma SafeBranchNameAmpersand()
    ensures !SafeBranchName("with&mpersand")
  {
    RejectsMetaAt("with&mpersand", 4);
  }

  lemma SafeBranchNameQuestion()
    ensures !SafeBranchName("ma?in")
  {
    RejectsMetaAt("ma?in", 2);
  }

  lemma SafeBranchNamePipe()
    ensures !SafeBranchName("pi|pe")
  {
    RejectsMetaAt("pi|pe", 2);
  }

  lemma SafeBranchNameSemicolon()
    ensures !SafeBranchName("give;injection")
  {
    RejectsMetaAt("give;injection", 4);
  }

  lemma SafeBranchNameTilde()
    ensures !SafeBranchName("give~injection")
  {
    RejectsMetaAt("give~injection", 4);
  }

  lemma SafeBranchNamePercent()
    ensures !SafeBranchName("give%injection")
  {
    RejectsMetaAt("give%injection", 4);
  }

  lemma SafeBranchNameQuote()
    ensures !SafeBranchName("give'injection")
  {
    RejectsMetaAt("give'injection", 4);
  }

  lemma SafeBranchNameStartPeriod()
    ensures !SafeBranchName(".start-period")
  {
    SafeBranchNameIff(".start-period");
  }

  lemma SafeBranchNameEndPeriod()
    ensures !SafeBranchName("end-period.")
  {
    SafeBranchNameIff("end-period.");
  }

  lemma SafeBranchNameEndSlash()
    ensures !SafeBranchName("end-slash/")
  {
    SafeBranchNameIff("end-slash/");
  }

  /** A word of ASCII letters is a clean name. */
  lemma LettersClean(u: Tables, s: string)
    requires forall i :: 0 <= i < |s| ==> 'a' <= s[i] <= 'z' || 'A' <= s[i] <= 'Z'
    ensures Clean(u, s)
  {
    forall i | 0 < i < |s| ensures !SpacePairAt(s, i) {
    }
  }

  /** A word of ASCII letters is left unchanged. */
  lemma Letters(u: Tables, s: string)
    requires forall i :: 0 <= i < |s| ==> 'a' <= s[i] <= 'z' || 'A' <= s[i] <= 'Z'
    ensures SafeName(u, s) == s
  {
    LettersClean(u, s);
    SafeNameFixedPoints(u, s);
  }

  lemma SafeNamePlain(u: Tables)
    ensures SafeName(u, "Name") == "Name"
  {
    Letters(u, "Name");
  }

  /** A name without whitespace or tab meets the conditions of the per-character rule. */
  lemma NoSpaceNoTab(s: string)
    requires forall i :: 0 <= i < |s| ==> !IsSpace(s[i])
    ensures forall i :: 0 <= i < |s| ==> s[i] != '\t'
    ensures NoAdjacentSpaces(s)
  {
    forall i | 0 < i < |s| ensures !SpacePairAt(s, i) {
    }
  }

  /** A name without whitespace: each disallowed character becomes one `-`. */
  lemma PerCharacter(u: Tables, s: string, expected: string)
    requires forall i :: 0 <= i < |s| ==> !IsSpace(s[i])
    requires |expected| == |s|
    requires forall i :: 0 <= i < |s| ==> expected[i] == (if IsAllowed(u, s[i]) then s[i] else '-')
    ensures SafeName(u, s) == expected
  {
    NoSpaceNoTab(s);
    SafeNameReplacesDisallowed(u, s);
  }

  lemma SafeNameAngle(u: Tables)
    ensures SafeName(u, "Name<") == "Name-"
  {
    PerCharacter(u, "Name<", "Name-");
  }

  lemma SafeNameBrackets(u: Tables)
    ensures SafeName(u, "Name[something]") == "Name-something-"
  {
    PerCharacter(u, "Name[something]", "Name-something-");
  }

  /** Two words joined by a double space: the run becomes one `-`. */
  lemma DoubleSpace(u: Tables, a: string, b: string, s: string, expected: string)
    requires |a| > 0 && forall i :: 0 <= i < |a| ==> 'a' <= a[i] <= 'z' || 'A' <= a[i] <= 'Z'
    requires |b| > 0 && forall i :: 0 <= i < |b| ==> 'a' <= b[i] <= 'z' || 'A' <= b[i] <= 'Z'
    requires s == a + "  " + b && expected == a + "-" + b
    ensures SafeName(u, s) == expected
  {
    LettersClean(u, a);
    LettersClean(u, b);
    SafeNameJoins(u, a, "  ", b);
  }

  lemma SafeNameDoubleSpace(u: Tables)
    ensures SafeName(u, "Name  WithDoubleSpace") == "Name-WithDoubleSpace"
  {
    DoubleSpace(u, "Name", "WithDoubleSpace", "Name  WithDoubleSpace", "Name-WithDoubleSpace");
  }

  lemma SafeNameManySpaces(u: Tables)
    ensures SafeName(u, "Name  WithManySpaces") == "Name-WithManySpaces"
  {
    DoubleSpace(u, "Name", "WithManySpaces", "Name  WithManySpaces", "Name-WithManySpaces");
  }

  /** Two words joined by a single space: the space is kept. */
  lemma SingleSpace(u: Tables, a: string, b: string, s: string)
    requires |a| > 0 && forall i :: 0 <= i < |a| ==> 'a' <= a[i] <= 'z' || 'A' <= a[i] <= 'Z'
    requires |b| > 0 && forall i :: 0 <= i < |b| ==> 'a' <= b[i] <= 'z' || 'A' <= b[i] <= 'Z'
    requires s == a + " " + b
    ensures SafeName(u, s) == s
  {
    LettersClean(u, a);
    LettersClean(u, b);
    SafeNameJoins(u, a, " ", b);
  }

  lemma SafeNameSingleSpace(u: Tables)
    ensures SafeName(u, "Team A") == "Team A"
  {
    SingleSpace(u, "Team", "A", "Team A");
  }

  /** Two words joined by a double space and surrounded by blanks. */
  lemma PaddedDoubleSpace(u: Tables, pre: string, a: string, b: string, post: string, s: string, expected: string)
    requires forall i :: 0 <= i < |pre| ==> pre[i] == ' '
    requires forall i :: 0 <= i < |post| ==> post[i] == ' '
    requires |a| > 0 && forall i :: 0 <= i < |a| ==> 'a' <= a[i] <= 'z' || 'A' <= a[i] <= 'Z'
    requires |b| > 0 && forall i :: 0 <= i < |b| ==> 'a' <= b[i] <= 'z' || 'A' <= b[i] <= 'Z'
    requires s == pre + (a + "  " + b) + post && expected == a + "-" + b
    ensures SafeName(u, s) == expected
  {
    var mid := a + "  " + b;
    assert mid[0] == a[0] && mid[|mid| - 1] == b[|b| - 1];
    SafeNameTrims(u, pre, mid, post);
    DoubleSpace(u, a, b, mid, expected);
  }

  lemma SafeNameLeadingSpaces(u: Tables)
    ensures SafeName(u, "  Name  WithLeadingSpaces") == "Name-WithLeadingSpaces"
  {
    LeadingSpacesText();
    PaddedDoubleSpace(u, "  ", "Name", "WithLeadingSpaces", "", "  Name  WithLeadingSpaces", "Name-WithLeadingSpaces");
  }

  lemma LeadingSpacesText()
    ensures "  Name  WithLeadingSpaces" == "  " + ("Name" + "  " + "WithLeadingSpaces") + ""
    ensures "Name-WithLeadingSpaces" == "Name" + "-" + "WithLeadingSpaces"
  {
  }

  lemma SafeNameTrailingSpaces(u: Tables)
    ensures SafeName(u, "Name  WithTrailingSpaces  ") == "Name-WithTrailingSpaces"
  {
    TrailingSpacesText();
    PaddedDoubleSpace(u, "", "Name", "WithTrailingSpaces", "  ", "Name  WithTrailingSpaces  ", "Name-WithTrailingSpaces");
  }

  lemma TrailingSpacesText()
    ensures "Name  WithTrailingSpaces  " == "" + ("Name" + "  " + "WithTrailingSpaces") + "  "
    ensures "Name-WithTrailingSpaces" == "Name" + "-" + "WithTrailingSpaces"
  {
  }

  /** Two words joined by a single tab: the tab becomes `-`. */
  lemma OneTab(u: Tables, a: string, b: string, s: string, expected: string)
    requires |a| > 0 && forall i :: 0 <= i < |a| ==> 'a' <= a[i] <= 'z' || 'A' <= a[i] <= 'Z'
    requires |b| > 0 && forall i :: 0 <= i < |b| ==> 'a' <= b[i] <= 'z' || 'A' <= b[i] <= 'Z'
    requires s == a + "\t" + b && expected == a + "-" + b
    ensures SafeName(u, s) == expected
  {
    LettersClean(u, a);
    LettersClean(u, b);
    SafeNameTabs(u, a, "\t", b);
    OneDash();
  }

  lemma OneDash()
    ensures Dashes(1) == "-"
  {
    assert |Dashes(1)| == 1 && Dashes(1)[0] == '-';
  }

  lemma SafeNameTab(u: Tables)
    ensures SafeName(u, "Name\tWithTab") == "Name-WithTab"
  {
    OneTab(u, "Name", "WithTab", "Name\tWithTab", "Name-WithTab");
  }

  /** The characters of an ordinary URL path: letters, digits and `:/@.-_`. */
  predicate UrlChar(c: char) {
    'a' <= c <= 'z' || 'A' <= c <= 'Z' || '0' <= c <= '9'
    || c == ':' || c == '/' || c == '@' || c == '.' || c == '-' || c == '_'
  }

  predicate UrlChars(s: string) {
    forall i :: 0 <= i < |s| ==> UrlChar(s[i])
  }

  lemma UrlCharsJoin(a: string, b: string)
    requires UrlChars(a) && UrlChars(b)
    ensures UrlChars(a + b)
  {
    assert forall i :: |a| <= i < |a + b| ==> (a + b)[i] == b[i - |a|];
  }

  /** A URL of ordinary characters with harmless ends is permitted. */
  lemma AcceptsPlainUrl(s: string)
    requires |s| > 0 && s[0] != '.' && s[|s| - 1] != '.' && s[|s| - 1] != '/'
    requires UrlChars(s)
    ensures SafeRepositoryUrl(s)
  {
    SafeRepositoryUrlPlain(s);
    DangerousIff(s);
  }

  /** A URL whose plain prefix is followed by an escaped metacharacter is refused. */
  lemma RejectsEscapedUrl(a: string, escape: string, b: string, s: string)
    requires UrlChars(a)
    requires |escape| == 3 && IsEscapeAt(escape, 0)
    requires IsMetaChar((16 * UnHex(escape[1]) + UnHex(escape[2])) as char)
    requires s == a + escape + b
    ensures !SafeRepositoryUrl(s)
  {
    SafeRepositoryUrlRejectsEscapedMeta(a, escape, b);
  }

  /**
   * The URLs of the table are long literals; each is written as the
   * concatenation of its path segments, which is the same string.
   */
  lemma UserPathChars(last: string)
    requires UrlChars(last)
    ensures UrlChars("https://" + "REDACTED@" + "dev.azure.com/" + "REDACTED/" + "Scan-Test-1/" + "_git/" + last)
  {
    var p1 := "https://" + "REDACTED@";
    UrlCharsJoin("https://", "REDACTED@");
    var p2 := p1 + "dev.azure.com/";
    UrlCharsJoin(p1, "dev.azure.com/");
    var p3 := p2 + "REDACTED/";
    UrlCharsJoin(p2, "REDACTED/");
    var p4 := p3 + "Scan-Test-1/";
    UrlCharsJoin(p3, "Scan-Test-1/");
    var p5 := p4 + "_git/";
    UrlCharsJoin(p4, "_git/");
    UrlCharsJoin(p5, last);
  }

  lemma PathChars(last: string)
    requires UrlChars(last)
    ensures UrlChars("https://" + "dev.azure.com/" + "PHorton0655/" + "Scan-Test-1/" + "_git/" + last)
  {
    var p2 := "https://" + "dev.azure.com/";
    UrlCharsJoin("https://", "dev.azure.com/");
    var p3 := p2 + "PHorton0655/";
    UrlCharsJoin(p2, "PHorton0655/");
    var p4 := p3 + "Scan-Test-1/";
    UrlCharsJoin(p3, "Scan-Test-1/");
    var p5 := p4 + "_git/";
    UrlCharsJoin(p4, "_git/");
    UrlCharsJoin(p5, last);
  }

  lemma SafeRepositoryUrlMain()
    ensures SafeRepositoryUrl("https://" + "REDACTED@" + "dev.azure.com/" + "REDACTED/" + "Scan-Test-1/" + "_git/" + "main")
  {
    UserPathChars("main");
    AcceptsPlainUrl("https://" + "REDACTED@" + "dev.azure.com/" + "REDACTED/" + "Scan-Test-1/" + "_git/" + "main");
  }

  lemma SafeRepositoryUrlEscapedParenthesis()
    ensures !SafeRepositoryUrl(
      "https://" + "REDACTED@" + "dev.azure.com/" + "REDACTED/" + "Scan-Test-1/" + "_git/" + "Craz" + "%28" + "%29y%20Repo")
  {
    var a := "https://" + "REDACTED@" + "dev.azure.com/" + "REDACTED/" + "Scan-Test-1/" + "_git/" + "Craz";
    UserPathChars("Craz");
    RejectsEscapedUrl(a, "%28", "%29y%20Repo", a + "%28" + "%29y%20Repo");
  }

  lemma SafeRepositoryUrlEscapedParenthesisNoUser()
    ensures !SafeRepositoryUrl(
      "https://" + "dev.azure.com/" + "PHorton0655/" + "Scan-Test-1/" + "_git/" + "Craz" + "%28" + "%29y%20Repo")
  {
    var a := "https://" + "dev.azure.com/" + "PHorton0655/" + "Scan-Test-1/" + "_git/" + "Craz";
    PathChars("Craz");
    RejectsEscapedUrl(a, "%28", "%29y%20Repo", a + "%28" + "%29y%20Repo");
  }
}

=== FILE: text.dfy ===
/** String helpers from Go's `strings` and `fmt` packages, over strings of characters. */
module Text {
  import opened Unicode

  /** Applies `f` to every character, as `strings.Map` or a one-character `strings.ReplaceAll` does. */
  function Map(f: char -> char, s: string): (r: string)
    ensures |r| == |s|
    ensures forall i :: 0 <= i < |s| ==> r[i] == f(s[i])
  {
    if |s| == 0 then [] else [f(s[0])] + Map(f, s[1..])
  }

  /** Mapping distributes over concatenation. */
  lemma MapAppend(f: char -> char, a: string, b: string)
    ensures Map(f, a + b) == Map(f, a) + Map(f, b)
  {
    assert forall i :: 0 <= i < |a + b| ==> Map(f, a + b)[i] == (Map(f, a) + Map(f, b))[i];
  }

  /** Drops the leading characters for which `unicode.IsSpace` holds. */
  function TrimLeft(s: string): (r: string)
    ensures |r| <= |s| && r == s[|s| - |r|..]
    ensures |r| > 0 ==> !IsSpace(r[0])
  {
    if |s| > 0 && IsSpace(s[0]) then TrimLeft(s[1..]) else s
  }

  /** Only spaces are dropped on the left. */
  lemma {:induction false} TrimLeftDropsSpaces(s: string)
    ensures forall i :: 0 <= i < |s| - |TrimLeft(s)| ==> IsSpace(s[i])
    decreases |s|
  {
    if |s| > 0 && IsSpace(s[0]) {
      TrimLeftDropsSpaces(s[1..]);
      forall i | 0 < i < |s| - |TrimLeft(s)| ensures IsSpace(s[i]) {
        assert s[i] == s[1..][i - 1];
      }
    }
  }

  /** Drops the trailing characters for which `unicode.IsSpace` holds. */
  function TrimRight(s: string): (r: string)
    ensures |r| <= |s| && r == s[..|r|]
    ensures |r| > 0 ==> !IsSpace(r[|r| - 1])
  {
    if |s| > 0 && IsSpace(s[|s| - 1]) then TrimRight(s[..|s| - 1]) else s
  }

  /** Only spaces are dropped on the right. */
  lemma {:induction false} TrimRightDropsSpaces(s: string)
    ensures forall i :: |TrimRight(s)| <= i < |s| ==> IsSpace(s[i])
    decreases |s|
  {
    if |s| > 0 && IsSpace(s[|s| - 1]) {
      TrimRightDropsSpaces(s[..|s| - 1]);
      forall i | |TrimRight(s)| <= i < |s| - 1 ensures IsSpace(s[i]) {
        assert s[i] == s[..|s| - 1][i];
      }
    }
  }

  /** `strings.TrimSpace`: `s` with every surrounding space removed. */
  function TrimSpace(s: string): (r: string)
    ensures |r| <= |s|
    ensures |r| > 0 ==> !IsSpace(r[0]) && !IsSpace(r[|r| - 1])
  {
    var t := TrimLeft(s);
    var r := TrimRight(t);
    assert |r| > 0 ==> r[0] == t[0];
    r
  }

  /** Neither the first nor the last character of `r` is a space. */
  predicate SpaceFreeEnds(r: string) {
    |r| > 0 ==> !IsSpace(r[0]) && !IsSpace(r[|r| - 1])
  }

  /**
   * What `strings.TrimSpace` keeps is the slice of `s` after its leading
   * spaces; everything dropped before and after it is a space.
   */
  lemma TrimSpaceAmidSpaces(s: string)
    ensures SliceAmidSpaces(s, |s| - |TrimLeft(s)|, TrimSpace(s))
    ensures SpaceFreeEnds(TrimSpace(s))
  {
    TrimBothDropsSpaces(s);
  }

  /**
   * Conversely, a slice of `s` that has only spaces around it and does not
   * start or end with one is what `strings.TrimSpace` returns.
   */
  lemma TrimSpaceUnique(s: string, k: int, r: string)
    requires SliceAmidSpaces(s, k, r) && SpaceFreeEnds(r)
    ensures TrimSpace(s) == r
  {
    TrimSpaceAmidSpaces(s);
    AmidSpacesUnique(s, k, r, |s| - |TrimLeft(s)|, TrimSpace(s));
  }

  /**
   * Two slices of `s` with only spaces around them and no space at their
   * ends are the same: each one's ends lie inside the other.
   */
  lemma AmidSpacesUnique(s: string, k1: int, r1: string, k2: int, r2: string)
    requires SliceAmidSpaces(s, k1, r1) && SpaceFreeEnds(r1)
    requires SliceAmidSpaces(s, k2, r2) && SpaceFreeEnds(r2)
    ensures r1 == r2
  {
    if |r1| > 0 {
      assert s[k1] == r1[0] && s[k1 + |r1| - 1] == r1[|r1| - 1];
    }
    if |r2| > 0 {
      assert s[k2] == r2[0] && s[k2 + |r2| - 1] == r2[|r2| - 1];
    }
  }

  /** Trimming both ends keeps a slice of `s` and drops only spaces around it. */
  lemma TrimBothDropsSpaces(s: string)
    ensures var t := TrimLeft(s);
      var k := |s| - |t|;
      SliceAmidSpaces(s, k, TrimRight(t))
  {
    var t := TrimLeft(s);
    var k := |s| - |t|;
    var r := TrimRight(t);
    TrimBothSlice(s);
    TrimLeftDropsSpaces(s);
    TrimRightDropsSpaces(t);
    SpacesAfterSuffix(s, k, t, |r|);
  }

  /** Spaces that end a suffix `t` of `s`, from position `n` of `t` on, are spaces of `s` from `k + n` on. */
  lemma SpacesAfterSuffix(s: string, k: int, t: string, n: int)
    requires 0 <= k <= |s| && t == s[k..] && 0 <= n <= |t|
    requires forall i :: n <= i < |t| ==> IsSpace(t[i])
    ensures forall i :: k + n <= i < |s| ==> IsSpace(s[i])
  {
    forall i | k + n <= i < |s| ensures IsSpace(s[i]) {
      assert s[i] == t[i - k];
    }
  }

  /** `r` is the slice of `s` from `k`, and every character of `s` around it is a space. */
  predicate SliceAmidSpaces(s: string, k: int, r: string) {
    && 0 <= k && k + |r| <= |s|
    && r == s[k..k + |r|]
    && (forall i :: 0 <= i < k ==> IsSpace(s[i]))
    && (forall i :: k + |r| <= i < |s| ==> IsSpace(s[i]))
  }

  /** What `strings.TrimSpace` keeps is a slice of its input, whose ends are not spaces. */
  lemma TrimSpaceSlice(s: string)
    ensures var k := |s| - |TrimLeft(s)|;
      var r := TrimSpace(s);
      k + |r| <= |s| && r == s[k..k + |r|]
  {
    TrimBothSlice(s);
  }

  /** Trimming both ends leaves a slice of the original. */
  lemma TrimBothSlice(s: string)
    ensures var t := TrimLeft(s);
      var r := TrimRight(t);
      r == s[|s| - |t|..|s| - |t| + |r|]
  {
    var t := TrimLeft(s);
    var r := TrimRight(t);
    SliceOfSlice(s, |s| - |t|, |r|);
  }

  lemma SliceOfSlice<T>(s: seq<T>, k: nat, n: nat)
    requires k + n <= |s|
    ensures s[k..][..n] == s[k..k + n]
  {
  }

  /** Only a string of spaces trims to nothing. */
  lemma TrimSpaceEmpty(s: string)
    ensures TrimSpace(s) == [] <==> forall i :: 0 <= i < |s| ==> IsSpace(s[i])
  {
    var t := TrimLeft(s);
    TrimLeftDropsSpaces(s);
    TrimRightDropsSpaces(t);
    if |t| > 0 {
      assert t[0] == s[|s| - |t|];
    }
  }

  /** A string whose ends are not spaces is its own `strings.TrimSpace`. */
  lemma {:induction false} TrimSpaceOfTrimmed(s: string)
    requires |s| > 0 ==> !IsSpace(s[0]) && !IsSpace(s[|s| - 1])
    ensures TrimSpace(s) == s
  {
    assert TrimLeft(s) == s;
    assert TrimRight(s) == s;
  }

  /** Surrounding spaces are removed and nothing else is. */
  lemma TrimSpaceSurrounded(pre: string, s: string, post: string)
    requires forall i :: 0 <= i < |pre| ==> IsSpace(pre[i])
    requires forall i :: 0 <= i < |post| ==> IsSpace(post[i])
    requires |s| > 0 && !IsSpace(s[0]) && !IsSpace(s[|s| - 1])
    ensures TrimSpace(pre + s + post) == s
  {
    assert pre + s + post == pre + (s + post);
    TrimLeftOfSpaces(pre, s + post);
    TrimRightOfSpaces(s, post);
  }

  /** Leading spaces in front of a string that starts with a non-space are exactly what the left trim drops. */
  lemma {:induction false} TrimLeftOfSpaces(pre: string, y: string)
    requires forall i :: 0 <= i < |pre| ==> IsSpace(pre[i])
    requires |y| > 0 && !IsSpace(y[0])
    ensures TrimLeft(pre + y) == y
    decreases |pre|
  {
    if |pre| == 0 {
      assert pre + y == y;
    } else {
      assert (pre + y)[0] == pre[0];
      assert (pre + y)[1..] == pre[1..] + y;
      TrimLeftOfSpaces(pre[1..], y);
    }
  }

  /** Trailing spaces after a string that ends with a non-space are exactly what the right trim drops. */
  lemma {:induction false} TrimRightOfSpaces(y: string, post: string)
    requires forall i :: 0 <= i < |post| ==> IsSpace(post[i])
    requires |y| > 0 && !IsSpace(y[|y| - 1])
    ensures TrimRight(y + post) == y
    decreases |post|
  {
    if |post| == 0 {
      assert y + post == y;
    } else {
      var z := y + post;
      assert z[|z| - 1] == post[|post| - 1];
      assert z[..|z| - 1] == y + post[..|post| - 1];
      TrimRightOfSpaces(y, post[..|post| - 1]);
    }
  }

  /** `strings.HasSuffix`. */
  predicate HasSuffix(s: string, suffix: string) {
    |suffix| <= |s| && s[|s| - |suffix|..] == suffix
  }

  function DigitChar(d: nat): (c: char)
    requires d < 10
    ensures '0' <= c <= '9'
  {
    ('0' as int + d) as char
  }

  /** The `%d` formatting of a natural number: decimal, no leading zeros. */
  function Decimal(n: nat): (r: string)
    ensures |r| > 0
    ensures forall i :: 0 <= i < |r| ==> '0' <= r[i] <= '9'
    ensures |r| > 1 ==> r[0] != '0'
  {
    if n < 10 then [DigitChar(n)] else Decimal(n / 10) + [DigitChar(n % 10)]
  }

  /** Reads a string of decimal digits back as a number. */
  function ParseDecimal(s: string): nat
    requires forall i :: 0 <= i < |s| ==> '0' <= s[i] <= '9'
  {
    if |s| == 0 then 0 else 10 * ParseDecimal(s[..|s| - 1]) + (s[|s| - 1] as int - '0' as int)
  }

  /** Decimal formatting loses nothing: reading the digits back gives the number. */
  lemma {:induction false} DecimalRoundTrip(n: nat)
    ensures ParseDecimal(Decimal(n)) == n
  {
    if n >= 10 {
      var d := Decimal(n);
      assert d[..|d| - 1] == Decimal(n / 10);
      DecimalRoundTrip(n / 10);
    }
  }

  /** Distinct numbers format to distinct strings. */
  lemma DecimalInjective(m: nat, n: nat)
    requires Decimal(m) == Decimal(n)
    ensures m == n
  {
    DecimalRoundTrip(m);
    DecimalRoundTrip(n);
  }
}

=== FILE: unicode.dfy ===
/**
 * Character classes used by the sanitizer.
 *
 * Go's regexp package gives `\s` the narrow Perl meaning `[\t\n\f\r ]`,
 * while `strings.TrimSpace` uses the broader `unicode.IsSpace`. Both are
 * fixed finite sets and are written out here. The Unicode letter and number
 * categories (`\pL`, `\pN`) and the lower-case mapping are fixed on ASCII,
 * as in Go, and left abstract above U+007F through a `Tables` value.
 */
module Unicode {

  /** Letter and number categories and lower-case mapping for non-ASCII characters. */
  datatype Tables = Tables(isLetter: char -> bool, isNumber: char -> bool, toLower: char -> char)

  predicate IsAscii(c: char) {
    c < '\U{80}'
  }

  /** `\pL`: ASCII letters, or whatever the tables say above ASCII. */
  predicate IsLetter(u: Tables, c: char) {
    if IsAscii(c) then 'a' <= c <= 'z' || 'A' <= c <= 'Z' else u.isLetter(c)
  }

  /** `\pN`: ASCII digits, or whatever the tables say above ASCII. */
  predicate IsNumber(u: Tables, c: char) {
    if IsAscii(c) then '0' <= c <= '9' else u.isNumber(c)
  }

  /** `unicode.ToLower` applied to one character. */
  function ToLower(u: Tables, c: char): char {
    if IsAscii(c) then (if 'A' <= c <= 'Z' then (c as int + 32) as char else c) else u.toLower(c)
  }

  /** RE2's `\s` class: tab, newline, form feed, carriage return and space only. */
  predicate IsRegexSpace(c: char) {
    c == '\t' || c == '\n' || c == '\U{C}' || c == '\r' || c == ' '
  }

  /** `unicode.IsSpace`: the Unicode White_Space property. */
  predicate IsSpace(c: char) {
    || c == '\t' || c == '\n' || c == '\U{B}' || c == '\U{C}' || c == '\r' || c == ' '
    || c == '\U{85}' || c == '\U{A0}' || c == '\U{1680}'
    || ('\U{2000}' <= c <= '\U{200A}')
    || c == '\U{2028}' || c == '\U{2029}' || c == '\U{202F}' || c == '\U{205F}' || c == '\U{3000}'
  }

  /** Every `\s` character is a space for `strings.TrimSpace` too. */
  lemma RegexSpaceIsSpace(c: char)
    requires IsRegexSpace(c)
    ensures IsSpace(c)
  {
  }

  /** A lower-case mapping that only ever produces a space from a space, as Unicode's does. */
  ghost predicate LowerKeepsSpace(u: Tables) {
    forall c :: !IsAscii(c) ==> u.toLower(c) != ' '
  }
}

=== FILE: wrappers.dfy ===
/** Failure-compatible wrappers used throughout the model. */
module Wrappers {

  /** A value that may be absent, standing for a Go value that may be nil. */
  datatype Option<+T> = None | Some(value: T)

  /** A value or an error, standing for Go's `(value, error)` return pair. */
  datatype Result<+R, +E> = Success(value: R) | Failure(error: E)
}
